=== FILE: README.md ===
# A verified model of a six-stage toy compiler

This project models, in Dafny, the compiler pipeline of a small teaching
language with keywords `intt`, `sttring`, `mainn`, `retturn`, `iif`, `ellse`,
`loop`, `brreak`, `conttinue`, `prrint` and `san`. The six stages run in the
order the driver uses:

1. **Tokenizer** (`Lexer`). Turns the source text into `Token`s.
2. **Recursive-descent parser** (`Parser`). Builds a `Node` tree, or stops with a syntax error.
3. **Semantic analyzer** (`Semantic`). Fills a symbol table and accumulates `Diagnostic`s.
4. **Intermediate code generator** (`Icg`). Emits three-address `Instruction`s with fresh temporaries `t0, t1, …` and labels `L0, L1, …`.
5. **Optimizer** (`Optimizer`). Runs one constant-folding pass, then one constant-propagation pass.
6. **Interpreter** (`Interpreter`). A label pre-pass, then a dispatch loop over a name-to-integer store and a parameter stack. It produces printed output.

`Pipeline.Compile` composes the stages as the driver does: analysis, code
generation and execution only happen for a program that parses and draws no
diagnostic.

Each stage is a pure function over immutable datatypes.
- The parser threads a cursor and returns `Result`. `Err` stands for `error()` and its `exit(1)`.
- The interpreter is a one-step function `Step` repeated by `Run` for at most `fuel` iterations, because a program's loops need not end.
- `Interpreter.CollectLabels`, `Interpreter.RunLoop` and `Optimizer.ConstantPropagation` are loop-based methods proved equal to these functions.

Helper modules:
- `Decimal` models `std::to_string` and `std::stoi`.
- `CppArith` models C++'s truncating `/` and `%`.
- `Ir` holds the instruction record and the temporary and label names.
- `Syntax` holds the tree and the exact shapes the parser builds (`IsExpr`, `IsStmt`, `IsProgram`).
- `Results` holds the result type.

Every `*Props` module proves properties of one stage. `PipelineProps` proves properties of the stages composed. In particular, every jump in the code the driver runs lands on the one `label` instruction of its name.

`ParserRoundTrip` gives the expression parser an independent reference: a printer that writes a tree as tokens with the fewest parentheses. Every expression the parser can build is parsed back from its printed form, which fixes precedence and left associativity for all inputs.

The loop `loop (x) { prrint(x); x = x - 1; }` is followed through generation, optimization and execution: started with x = n, it prints n down to 1 for every n.

### Where the model follows the code rather than the intended design

- **Folding is single-pass.** `intt x = 2 * 3 + 1;` leaves `+ 6, 1` unfolded, because the product's constant only reaches the sum during propagation (`OptimizerProps.SinglePassLeavesArithmetic`).
- **Recorded constants are never invalidated.** A name re-assigned by a non-constant instruction keeps its old constant (`OptimizerProps.StaleConstantPropagated`, on hand-built code). In generated code this shows only through a name collision with a temporary (`PipelineProps.TemporaryShadowsUserName`).
- **Some moves are never recorded.** A move emitted with op `=` is not recorded, and neither is a folded negative value such as `-3`. So `prrint(2 - 5);` prints the text `t0` (`PipelineProps.NegativeResultPrintsTemporaryName`).
- **Temporaries share a namespace with user variables.** A user variable named `t0` collides with the first temporary (`PipelineProps.TemporaryShadowsUserName`).
- **`intt y = x;` emits no code.** The bare identifier initializer is taken as the target (`IcgProps.IdentifierInitializerEmitsNothing`).
- **An undeclared initializer is reported twice.** It draws an undeclared-variable diagnostic from type inference, a type mismatch, and a second undeclared-variable diagnostic from the traversal (`SemanticProps.UndeclaredInitializer`). It is not reported once per occurrence.
- **The function's return type is always `intt`.** The optional type before `mainn` is read and discarded.
- **`call` clears the parameter stack only for callee `prrint`.** `return` does not halt the interpreter.

## Model

| member | source | states |
|---|---|---|
| Lexer.Scan | lexer.cpp:24-89 | One iteration at a non-blank character emits a token whose text is the consumed prefix and consumes at least one character. Keyword/identifier exactly at a letter or `_`, stopping before the first non-word character. Number exactly at a digit, a maximal digit run. String literal exactly at `"`, running through the closing quote or to the end. A two-character operator is taken before any single character. Delimiters and unknown characters are one character long. |
| Lexer.ScanWord | lexer.cpp:32-42 | A word token is the maximal run of word characters and is well formed: `Keyword` exactly when the word is one of the eleven reserved words, `Identifier` otherwise. |
| Lexer.ScanSymbol | lexer.cpp:62-89 | At any other character the token is an operator, a delimiter or an unknown character. It is the two-character operator when one starts here. |
| Lexer.LiteralLength | lexer.cpp:53-59 | A string literal contains no inner quote and ends with a quote unless it reaches the end of the input. |
| Lexer.Tokenize | lexer.cpp:19-93 | Tokenizing always succeeds, yields only well-formed tokens, and yields at most one token per character. |
| Lexer.TokenizeKeepsText | lexer.cpp:24-90 | Concatenating the token texts gives back the input with exactly the blanks outside string literals removed. |
| Lexer.TwoCharOperatorFirst | lexer.cpp:63-70 | `==`, `!=`, `<=`, `>=` and `=>` each become one operator token and are never split. |
| Lexer.UnknownSymbol | lexer.cpp:73-89 | An ampersand, a vertical bar, `%` and a `!` not followed by `=` each become a one-character `Unknown` token, so the logic operators are never lexed as operators. |
| Parser.Expect | parser.cpp:25-33 | A token is consumed exactly when one is left, its kind matches, and the requested value is empty or equal. The cursor then moves by one; otherwise the parse fails. |
| Parser.ParseExpr | parser.cpp:176-178 | A successful expression parse consumes at least one token and builds an expression of the parser's shapes (leaf, childless literal, or binary node with an operator and two operands). |
| Parser.ParseLevel | parser.cpp:180-224 | At each precedence level (primary, factor, term, comparison, logic), a successful parse consumes at least one token and builds an expression of the parser's shapes. `ParserRoundTrip.ParseShow` pins down which expression. |
| Parser.ParseChain | parser.cpp:180-224 | The operator loop of a level never moves the cursor back, and from an expression operand it builds an expression. |
| Parser.ParsePrimary | parser.cpp:226-249 | A successful primary parse (a number, a string literal, an identifier or a parenthesised expression) consumes at least one token and yields an expression of the parser's shapes. |
| ParserRoundTrip.ParseShow | parser.cpp:176-245 | Round trip for every expression the parser can build. Print it as tokens, parenthesising an operand only where its operator binds looser than its parent's, or equally tight on the right. Parsing those tokens gives back the same tree and stops right after them, whatever non-operator token follows. This states the four precedence levels and left associativity for all inputs. |
| ParserRoundTrip.ShowIsInjective | parser.cpp:176-245 | Two expressions with the same printed tokens are the same tree. |
| Parser.ParseStmtList | parser.cpp:73-79 | A statement list stops exactly at the end of input or at a `}` and contains only well-shaped statements. |
| Parser.ParseStmt | parser.cpp:81-171 | A successful statement parse consumes at least one token and builds a statement of the parser's shapes: declaration with value "type name" and at most one child, assignment with one child, `iif` with 2 or 3 children, `loop` with exactly 2. |
| Parser.ParseBlock | parser.cpp:135-137 | A braced block succeeds only between a `{` and a matching `}` and yields the statement list. |
| Parser.ParseProgram | parser.cpp:49-70 | A parsed program is the `mainn` node with at most one statement-list child, and the last token read is the closing `}`. |
| Parser.Parse | parser.cpp:45-47 | `parse` succeeds exactly when `parseProgram` does and returns a program tree. |
| ParserProps.UnclosedParenthesisFails | parser.cpp:241-244 | A parenthesised expression without its `)` is a syntax error. |
| ParserProps.Operand | parser.cpp:237-239 | An identifier not followed by an operator of any level parses as an identifier leaf at every level. |
| ParserProps.LiftToLevel | parser.cpp:180-224 | An expression not followed by any higher-level operator is returned unchanged by every higher level. |
| ParserProps.SubtractionIsLeftAssociative | parser.cpp:204-213 | `a - b - c` parses as `(a - b) - c`. |
| ParserProps.ProductBindsTighterOnTheRight | parser.cpp:204-224 | `a + b * c` parses as `a + (b * c)`. |
| ParserProps.ProductBindsTighterOnTheLeft | parser.cpp:204-224 | `a * b + c` parses as `(a * b) + c`. |
| ParserProps.SumBindsTighterThanComparison | parser.cpp:191-213 | `a < b + c` parses as `a < (b + c)`. |
| ParserProps.ProgramBodyPresence | parser.cpp:50-63 | In a parsed program, `{` sits after the optional type and `mainn ( )`. The program node has a statement-list child exactly when the next token is not `}`. |
| ParserProps.MissingClosingBraceFails | parser.cpp:65-67 | `mainn ( ) {` without a closing brace is a syntax error. |
| ParserProps.IdentifierNeedsAssignment | parser.cpp:94-105 | A statement starting with an identifier not followed by `=` is a syntax error. |
| ParserProps.TrailingTokensIgnored | parser.cpp:49-70 | Any tokens after the closing `}` of `mainn` are never examined: replacing them leaves the parse unchanged. |
| ParserProps.StmtReadsPrefix | parser.cpp:81-171 | A successful statement parse depends only on the tokens it consumed (plus the one it stopped at). |
| ParserProps.LevelReadsPrefix | parser.cpp:180-224 | A successful expression parse depends only on the tokens it consumed (plus the one it stopped at). |
| ParserProps.StmtListReadsPrefix | parser.cpp:73-79 | A successful statement-list parse depends only on the tokens it consumed and the one it stopped at. |
| Semantic.SplitDecl | semantic.cpp:19-21 | A declaration value splits at its first blank into type and name. Without a blank, both are the whole value. |
| Semantic.ExprType | semantic.cpp:128-194 | Inference yields `intt`, `sttring`, `unknown` or a declared type, and appends only undeclared-variable and operand-mismatch diagnostics. A number is `intt`; an identifier has its bound type, or is `unknown` with one undeclared diagnostic. |
| Semantic.Bind | semantic.cpp:23-27 | A bound name keeps its first binding and draws one redeclaration diagnostic. An unbound name is bound to the type; no other binding changes. |
| Semantic.Traverse | semantic.cpp:14-126 | A traversal step never removes a diagnostic or a binding, never rebinds a name, and restores the loop depth. |
| Semantic.Analyze | semantic.cpp:6-12 | Analysis starts at loop depth 0 with return type `intt`, and both are unchanged afterwards. |
| SemanticProps.AnalyzeProgram | semantic.cpp:6-12 | For a parsed program, the table binds exactly the names its declarations declare, and there is one outside-loop diagnostic per `brreak`/`conttinue` not inside a loop. Any such statement makes `hasErrors` hold. |
| SemanticProps.StatementTraversal | semantic.cpp:106-124 | Traversing a statement adds exactly the names declared in it. It draws an outside-loop diagnostic per stray `brreak`/`conttinue` only when not already inside a loop; `iif` and lists do not change loop depth. |
| SemanticProps.DeclarationBinding | semantic.cpp:19-27 | `intt x …` or `sttring x …` binds x to its type unless x is already bound. Redeclaration keeps the first binding and reports x. |
| SemanticProps.SelfInitialization | semantic.cpp:26-35 | `intt x = x;` for a fresh x binds x and draws no diagnostic. |
| SemanticProps.UndeclaredInitializer | semantic.cpp:30-35 | `intt x = y;` with y undeclared draws, in order: undeclared y, mismatch of `unknown` with `intt`, undeclared y again. A redeclaration diagnostic for x comes first when x was bound. |
| SemanticProps.AssignmentRule | semantic.cpp:40-53 | `x = e` never changes the table. With x unbound it draws exactly one diagnostic, so unbound names in e go unreported. With x bound it draws e's inference diagnostics, a mismatch only when e's type differs from x's, then one undeclared diagnostic per unbound occurrence in e. |
| SemanticProps.ReturnRule | semantic.cpp:63-72 | A bare `retturn` checks nothing. `retturn e` never changes the table. It draws inference's diagnostics, then one mismatch exactly when e's type differs from the function's return type, then one diagnostic per unbound name of e. |
| SemanticProps.ExprTraversal | semantic.cpp:56-61 | Traversing an expression only appends one undeclared diagnostic per unbound identifier occurrence, left to right. |
| SemanticProps.InferenceReportsUndeclared | semantic.cpp:138-145 | Type inference reports the same undeclared identifiers, in the same order, as the traversal of the expression. |
| SemanticProps.IntExpressionsTypeCheck | semantic.cpp:128-181 | An expression of numbers and `intt` variables is `intt` with no diagnostic. |
| SemanticProps.MixedOperandsMismatch | semantic.cpp:169-172 | `1 + "a"` is `unknown`, with one mismatch diagnostic. |
| SemanticProps.StringComparisonIsInt | semantic.cpp:174-178 | Comparing two string literals is `intt`. |
| SemanticProps.PrintArgumentRule | semantic.cpp:77-88 | `prrint(e)` reports e's inference diagnostics, then a type error unless e is `intt` or `sttring`, then e's undeclared identifiers. |
| SemanticProps.SanArgumentRule | semantic.cpp:89-99 | `san(e)` reports e's inference diagnostics, then a type error unless e is `intt`, then e's undeclared identifiers. |
| SemanticProps.StringArgument | semantic.cpp:83-95 | `san("a")` is a type error; `prrint("a")` is not. |
| Ir.TempNameInjective | icg.cpp:14-16 | Two temporaries have the same name exactly when they have the same number. |
| Ir.LabelNameInjective | icg.cpp:18-20 | Two labels have the same name exactly when they have the same number. |
| Icg.Traverse | icg.cpp:76-220 | Generation only appends code, never moves a counter back, and restores the loop label stack after every statement. |
| Icg.Evaluate | icg.cpp:22-74 | Evaluating an expression only appends code, never moves the temporary counter back, allocates no label and leaves the loop label stack alone. `IcgProps.EvaluateAccounted` and `IcgProps.EvaluateValue` say what it emits. |
| IcgProps.GenerateWellFormed | icg.cpp:222-224 | For any tree the parser builds, the generated code is well formed:<br>- every jump target is defined by exactly one `label` instruction;<br>- no label is defined twice;<br>- the computed results are exactly t0, t1, … in order, so no temporary is assigned twice. |
| IcgProps.TraverseAccounted | icg.cpp:76-220 | A statement defines each label it allocates exactly once and defines no other. It jumps only to its own labels or to an enclosing loop's. Its computed results are exactly the temporaries it allocated. |
| IcgProps.EvaluateAccounted | icg.cpp:22-74 | Evaluating an expression allocates no label, emits no jump or label, and computes exactly its fresh temporaries. A binary node's value is its last temporary. |
| IcgProps.EvaluateValue | icg.cpp:22-67 | A parser-built expression takes exactly one fresh temporary per binary operation. Its value is a leaf's text, the last fresh temporary for an operation, and "" for a string literal. |
| IcgProps.BinaryOfLeaves | icg.cpp:61-67 | A binary node over two leaves emits one instruction `{op, left, right, tK}` with the next temporary tK, and returns tK. |
| IcgProps.StringLiteralMoveSuppressed | icg.cpp:116-121 | Assigning a string literal (a childless expression node) emits nothing. |
| IcgProps.DeclarationTarget | icg.cpp:92-113 | A declaration with a non-identifier initializer emits `{=, value, "", name}` only when the initializer's value is non-empty. |
| IcgProps.IdentifierInitializerEmitsNothing | icg.cpp:95-112 | A declaration whose initializer is a bare identifier takes it as the target and emits nothing. |
| IcgProps.IfLayout | icg.cpp:125-141 | `iif (x) {} ellse {}` allocates both labels before the condition. It emits `ifFalse x → Lk`, `goto Lk+1`, `label Lk`, `label Lk+1`. |
| IcgProps.LoopLayout | icg.cpp:144-159 | `loop (x) { brreak; conttinue; }` emits `label Ls`, `ifFalse x → Le`, `goto Le`, `goto Ls`, `goto Ls`, `label Le` and restores the label stack. |
| IcgProps.BreakContinueBody | icg.cpp:162-172 | Inside a loop, `brreak` jumps to the innermost loop's end label and `conttinue` to its start label. |
| IcgProps.PrintCall | icg.cpp:183-191 | For any argument expression e, `prrint(e)` or `san(e)` emits e's code, then one `{print, v}` where v is the name holding e's value. It takes exactly one fresh temporary per operation of e and allocates no label. |
| IcgProps.PrintOfBinary | icg.cpp:183-191 | `prrint(a op b)` over two leaves emits the operation into the next temporary, then prints that temporary. |
| IcgProps.OtherCallPassesParam | icg.cpp:183-196 | For any argument expression e, another callee emits e's code, then `{param, v}` with v the name holding e's value, then `{call, name}`. |
| IcgProps.ReturnEmitsValue | icg.cpp:174-181 | For any expression e, `retturn e;` emits e's code, then `{return, v}` with v the name holding e's value, taking one fresh temporary per operation. A bare `retturn;` emits `{return, ""}`. |
| Optimizer.FoldOne | optimizer.cpp:16-31 | An arithmetic instruction on two digit strings becomes an op-less move whose text reads back as the computed value (0 for a zero divisor). Every other instruction is unchanged; the result field is always kept. |
| Optimizer.Propagate | optimizer.cpp:35-46 | Propagation keeps the length and every op and result, and leaves every recording instruction unchanged. |
| Optimizer.Constants | optimizer.cpp:38-41 | Every constant recorded for a name is a digit string, so a folded negative value is never recorded. `OptimizerProps.ConstantsLatest` and `OptimizerProps.ConstantsRecorded` say which constant. |
| Optimizer.ConstantPropagation | optimizer.cpp:35-46 | The in-place loop computes exactly the propagation function. |
| Optimizer.Optimize | optimizer.cpp:48-55 | Optimizing keeps the length and every result, and keeps the op of every instruction folding does not touch. |
| OptimizerProps.FoldIdempotent | optimizer.cpp:17-30 | Folding twice is folding once. |
| OptimizerProps.FoldChangesExactlyFoldable | optimizer.cpp:17-30 | Folding changes an instruction exactly when both arguments are digit strings and the op is `+`, `-`, `*` or `/`. |
| OptimizerProps.DivisionByZeroFoldsToZero | optimizer.cpp:25 | Folding a division by the literal 0 gives the constant "0". |
| OptimizerProps.ComparisonNotFolded | optimizer.cpp:26 | An instruction with any of the six comparison ops is left as it is by folding, whatever its arguments, even two digit strings. |
| OptimizerProps.ConstantsLatest | optimizer.cpp:38-44 | The constant substituted for a name is the argument of its latest recording instruction. |
| OptimizerProps.ConstantsRecorded | optimizer.cpp:39-40 | A name has a constant only if some recording instruction wrote it. |
| OptimizerProps.SinglePassLeavesArithmetic | optimizer.cpp:48-55 | For `intt x = 2 * 3 + 1;`, the sum stays an unfolded `+ 6, 1` after optimizing. |
| OptimizerProps.StaleConstantPropagated | optimizer.cpp:42-44 | In hand-built code that records x as 5 and then recomputes x, later uses of x still become 5. |
| OptimizerProps.MoveNotRecorded | optimizer.cpp:39-43 | A move with op `=` records nothing, whatever it moves and whatever came before: the constants after it are the ones before it. So a later use of its result keeps the name unless some op-less move recorded it. |
| OptimizerProps.NegativeFoldNotRecorded | optimizer.cpp:25-43 | `2 - 5` folds to "-3", which is not recorded, so the printed temporary keeps its name. |
| OptimizerProps.NothingToOptimize | optimizer.cpp:15-55 | Code with nothing foldable and nothing recording comes out of the optimizer unchanged. |
| Interpreter.Compare | interpreter.cpp:50-66 | A comparison stores 0 or 1. |
| Interpreter.CollectLabels | interpreter.cpp:21-25 | The pre-pass loop computes exactly the label table. |
| Interpreter.LabelTable | interpreter.cpp:21-25 | Every name in the table was already there or names a `label` instruction whose index it maps to. |
| Interpreter.Step | interpreter.cpp:27-98 | One iteration prints at most one line and only appends. It writes no variable but the instruction's result. Except on `ifFalse` and `goto` it moves to the next instruction, and a jump lands only on a known label's index. |
| Interpreter.Run | interpreter.cpp:27-98 | A run only extends the output, printing at most one line per iteration. |
| Interpreter.Execute | interpreter.cpp:18-99 | `execute` prints at most one line per iteration it runs. `InterpreterProps.CountDownPrintsDown` and `PipelineProps.ExecutedJumpsResolve` say more. |
| Interpreter.RunLoop | interpreter.cpp:27-98 | The dispatch loop computes exactly the fuel-bounded run. |
| Interpreter.ExecuteLoop | interpreter.cpp:18-99 | `execute` (pre-pass, then dispatch loop) computes exactly `Execute`. |
| Interpreter.RunHalted | interpreter.cpp:27 | Once `pc` passes the end, more fuel changes nothing. |
| InterpreterProps.GetValueIntStr | interpreter.cpp:12-13 | Reading back any printed integer, negative ones included, gives the integer. |
| InterpreterProps.LabelTableDomain | interpreter.cpp:21-25 | The table has a name exactly when it was already there or some `label` instruction declares it. |
| InterpreterProps.LabelTableLatest | interpreter.cpp:21-25 | A label maps to the index of its last declaration. |
| InterpreterProps.LabelTableKeeps | interpreter.cpp:21-25 | An entry left from an earlier run survives when no label redeclares it. |
| InterpreterProps.LabelTableTargets | interpreter.cpp:21-25 | Starting from an empty table, each entry is the index of a `label` instruction of that name. |
| InterpreterProps.JumpLandsOnLabel | interpreter.cpp:21-77 | With the table the pre-pass builds, a taken jump lands on a `label` of the target's name. |
| InterpreterProps.RunOutputGrows | interpreter.cpp:27-98 | More fuel only extends what is printed. |
| InterpreterProps.StraightLineHalts | interpreter.cpp:27-98 | Code without jumps halts after one iteration per instruction. |
| InterpreterProps.ReturnDoesNotHalt | interpreter.cpp:27-98 | `return 1` followed by `print x` runs both: it prints the text `x` and ends past the last instruction. |
| InterpreterProps.DivisionByZeroPrintsZero | interpreter.cpp:42-49 | `x = 7 / 0` followed by `print x` prints 0. |
| InterpreterProps.OtherCallKeepsParameters | interpreter.cpp:78-89 | `param 5`, a call of another function, then a call of `prrint` prints 5 and leaves the parameter stack empty. |
| InterpreterProps.CountDownPrintsDown | interpreter.cpp:18-99 | The code of `loop (x) { prrint(x); x = x - 1; }`, started with x = n for any n ≥ 0, prints n, n-1, …, 1 and has halted (pc past the last instruction) within 6n + 3 iterations. |
| Decimal.StoiIntStr | optimizer.cpp:18-28 | `stoi(to_string(v)) == v` for every integer. |
| Decimal.NatStrRoundTrip | icg.cpp:14-20 | The decimal digits of a counter read back as the counter. |
| CppArith.TruncDiv | optimizer.cpp:25 | C++ division rounds the quotient toward zero. |
| CppArith.TruncMod | interpreter.cpp:46-49 | C++ remainder satisfies `a == (a / b) * b + a % b`, is smaller than the divisor in magnitude, and has the sign of the dividend. |
| Pipeline.Compile | executable.cpp:27-83 | A syntax error is reported exactly when parsing fails. After a successful parse, the run stops with diagnostics exactly when the analyzer reports any, and the list reported is the analyzer's. A program that runs was parsed without diagnostics. Its code was generated, then optimized, and its final machine is the interpreter's run of the optimized code from an empty store and label table. |
| Pipeline.EmptyMainRuns | executable.cpp:27-83 | The text `mainn(){}` tokenizes, parses without diagnostics and is run, so programs that reach the last stage exist. |
| PipelineProps.OptimizeKeepsControl | optimizer.cpp:15-55 | Optimizing never creates, removes or retargets a `label` or a jump. |
| PipelineProps.JumpTargetsResolve | executable.cpp:54-83 | In the optimized code of any parsed tree, every jump's target is in the label table and maps to a `label` of that name. |
| PipelineProps.ExecutedJumpsResolve | executable.cpp:27-83 | In every program the driver runs, every jump resolves to the `label` of its name. |
| PipelineProps.SumOptimized | optimizer.cpp:48-55 | The generated code of `intt x = 2 + 3; prrint(x);` optimizes to a folded `5` propagated into the move of x. |
| PipelineProps.SumPrintsFive | interpreter.cpp:27-98 | A hand-built tree of that program, generated, optimized and run, prints 5. |
| PipelineProps.SumGenerated | icg.cpp:92-113 | A hand-built tree of `intt x = 2 + 3; prrint(x);` generates exactly: `+ 2 3` into the temporary t0, move t0 into x, print x. |
| PipelineProps.NegativeResultPrintsTemporaryName | interpreter.cpp:90-95 | The code generated for `prrint(2 - 5);`, written out by hand, optimized and run, prints the text `t0`, not -3. |
| PipelineProps.TemporaryShadowsUserName | optimizer.cpp:38-44 | A hand-built tree of `intt t0 = 7; intt y = 1 + 2; prrint(t0);`, generated, optimized and run, prints the text "3" instead of 7: the user's `t0` receives the temporary's constant. |
| PipelineProps.ShadowedGenerated | icg.cpp:92-113 | A hand-built tree of `intt t0 = 7; intt y = 1 + 2; prrint(t0);` generates exactly: move 7 into t0, `+ 1 2` into the temporary t0, move t0 into y, print t0. |
| PipelineProps.CountDownGenerated | icg.cpp:144-159 | The generator emits exactly `label L0`, `ifFalse x → L1`, `print x`, `- x 1 t0`, `= t0 x`, `goto L0`, `label L1` for `loop (x) { prrint(x); x = x - 1; }`. |
| PipelineProps.CountDownCompiledPrints | executable.cpp:54-83 | A hand-built tree of that loop statement, generated, optimized and run with x = n for any n ≥ 0, prints n, n-1, …, 1 and has halted within 6n + 3 iterations: the optimizer changes nothing in it. |

## Left out

- **Console drivers.** The drivers read stdin until `#`, print every stage, and return exit codes. `Pipeline.Compile` keeps only their composition order and the early stops.
- **Display helpers.** `printTokens`, `printParseTree`, `nodeTypeToString`, `tokenTypeToString`, `printInstructions` and `printErrors` only format output. Diagnostics are kept as a datatype; `Semantic.Message` gives their text.
- **Code generation.** codegen.cpp only writes assembly text that nothing reads. It is not part of this model.
- **Parser errors and memory.** `exit(1)` and the writes to stderr and stdout in `Parser::error` become an `Err` result. Leaked `new` nodes become immutable values.
- **Out-of-bounds `peek()`.** A `peek()` past the end of input is undefined in the source; here it is a syntax error.
- **Machine integers.** Signed `int` overflow in folding and in the interpreter's arithmetic is undefined behaviour in C++. The model computes with unbounded integers instead and says nothing about overflowing programs.
- **`stoi` exceptions.** The source throws `std::invalid_argument` on `stoi("-")` (no digits after the sign); this model yields 0. It also throws `std::out_of_range` for a numeral above `INT_MAX`, such as the one in `intt x = 99999999999;`, when folding (optimizer.cpp:18-19) or reading a value (interpreter.cpp:13); `Decimal.Stoi` returns the unbounded value instead.
- **Locale and regex.** Character classes are ASCII. `std::regex` in type inference is replaced by a digit-string predicate.
- **Bytes versus characters.** lexer.cpp walks the input byte by byte, so a multibyte UTF-8 character becomes several `UNKNOWN` tokens, and `isalpha` on a negative `char` is undefined. The lexer here takes one Dafny `char` per step, so such a character becomes a single `Unknown` token.
- **Unbuilt node shapes.** The parser never builds these, so no lemma is stated about them:
  - the generator's three-or-more-children expression branch and calls inside `evaluateExpression`, though both are modelled (`Icg.EvaluateChain`, `Icg.EvaluateCall`);
  - `PRINT_STATEMENT_NODE`, `SAN_STATEMENT_NODE` and `STRING_NODE`, which are not modelled.

  A child index the source would read but the node does not have is treated like a null child.
- **Example programs from text.** The end-to-end examples (`PipelineProps.SumGenerated`, `ShadowedGenerated`, `CountDownGenerated` and the lemmas built on them) start from hand-built trees. That the lexer and parser build these trees from the program text is not proved for them; `ParserProps` and `ParserRoundTrip` state what parsing builds in general.
- InterpreterProps.CountDownPrintsDown: proves that the loop has printed n, …, 1 and halted within 6n + 3 iterations. It does not prove that fewer iterations leave it still running.
- **Fuel.** The interpreter runs at most `fuel` iterations. A program that loops forever is seen only through its finite prefixes.
- **Interpreter state.** The store and label table persist across `execute` calls, so they are explicit inputs to `Interpreter.Execute`. The parameter stack starts empty on each call.
- **`optimize` leaves its input unchanged.** This holds by construction, because values are immutable.

=== FILE: arith.dfy ===
/**
  C++ integer division and remainder, which truncate toward zero, in
  place of Dafny's Euclidean `/` and `%`. Shared by constant folding and
  the interpreter. Integers are unbounded; 32-bit overflow is not modelled.
 */
module CppArith {

  function Abs(a: int): nat {
    if a < 0 then -a else a
  }

  /** `a / b` in C++: the quotient rounded toward zero. */
  function TruncDiv(a: int, b: int): (q: int)
    requires b != 0
    ensures Abs(q * b) <= Abs(a) < Abs(q * b) + Abs(b)
    ensures q == 0 || ((q < 0) <==> ((a < 0) != (b < 0)))
  {
    var m := NatDiv(Abs(a), Abs(b));
    var q: int := if (a < 0) != (b < 0) then 0 - m as int else m;
    AbsProduct(q, b);
    q
  }

  /** Division of naturals, with the bounds that define it. */
  function NatDiv(x: nat, y: nat): (m: nat)
    requires y > 0
    ensures y * m <= x < y * m + y
  {
    x / y
  }

  lemma AbsProduct(q: int, b: int)
    ensures Abs(q * b) == Abs(q) * Abs(b) && Abs(q) * Abs(b) == Abs(b) * Abs(q)
  {
    if q < 0 && b < 0 {
      assert q * b == (-q) * (-b);
    } else if q < 0 {
      assert q * b == -((-q) * b);
    } else if b < 0 {
      assert q * b == -(q * (-b));
    }
  }

  /** `a % b` in C++: the remainder takes the sign of the dividend. */
  function TruncMod(a: int, b: int): (r: int)
    requires b != 0
    ensures a == TruncDiv(a, b) * b + r
    ensures Abs(r) < Abs(b)
    ensures r == 0 || ((r < 0) <==> (a < 0))
  {
    a - TruncDiv(a, b) * b
  }
}

=== FILE: decimal.dfy ===
/**
  Decimal text of integers, as the compiler uses it in three places:
  `std::to_string` (temporary and label names, folded constants), the
  optimizer's all-digits test, and `std::stoi` in the interpreter.
  Integers are unbounded here; the source's 32-bit `int` is not modelled.
 */
module Decimal {

  predicate IsDigit(c: char) {
    '0' <= c <= '9'
  }

  /** Non-empty and made of ASCII digits only (no sign). */
  predicate IsDigits(s: string) {
    |s| > 0 && forall i :: 0 <= i < |s| ==> IsDigit(s[i])
  }

  function DigitChar(d: nat): (c: char)
    requires d < 10
    ensures IsDigit(c)
  {
    ('0' as int + d) as char
  }

  function DigitValue(c: char): (d: nat)
    requires IsDigit(c)
    ensures d < 10
  {
    c as int - '0' as int
  }

  /** `std::to_string` of a non-negative integer. */
  function NatStr(n: nat): (s: string)
    ensures IsDigits(s)
    decreases n
  {
    if n < 10 then [DigitChar(n)] else NatStr(n / 10) + [DigitChar(n % 10)]
  }

  /** `std::to_string` of any integer: a minus sign before negative values. */
  function IntStr(i: int): string {
    if i < 0 then "-" + NatStr(-i) else NatStr(i)
  }

  /** The value of a run of digits (the empty run has value 0). */
  function DigitsValue(s: string): nat
    requires forall i :: 0 <= i < |s| ==> IsDigit(s[i])
    decreases |s|
  {
    if s == [] then 0 else DigitsValue(s[..|s| - 1]) * 10 + DigitValue(s[|s| - 1])
  }

  /** The longest prefix of `s` made of digits. */
  function DigitPrefix(s: string): (p: string)
    ensures |p| <= |s| && p == s[..|p|]
    ensures forall i :: 0 <= i < |p| ==> IsDigit(p[i])
    ensures |p| == |s| || !IsDigit(s[|p|])
  {
    if s == [] || !IsDigit(s[0]) then [] else [s[0]] + DigitPrefix(s[1..])
  }

  /**
    `std::stoi`: an optional minus sign, then the longest digit prefix.
    Where `stoi` would throw (no digit after the sign) this yields 0.
   */
  function Stoi(s: string): int {
    if |s| > 0 && s[0] == '-' then -(DigitsValue(DigitPrefix(s[1..])) as int)
    else DigitsValue(DigitPrefix(s))
  }

  lemma {:induction false} NatStrRoundTrip(n: nat)
    ensures DigitsValue(NatStr(n)) == n
    decreases n
  {
    if n >= 10 {
      var s := NatStr(n);
      assert s[..|s| - 1] == NatStr(n / 10);
      NatStrRoundTrip(n / 10);
    }
  }

  /** Distinct numbers have distinct decimal texts, so `t0, t1, …` never repeat. */
  lemma NatStrInjective(a: nat, b: nat)
    ensures NatStr(a) == NatStr(b) ==> a == b
  {
    NatStrRoundTrip(a);
    NatStrRoundTrip(b);
  }

  lemma DigitPrefixOfDigits(s: string)
    requires forall i :: 0 <= i < |s| ==> IsDigit(s[i])
    ensures DigitPrefix(s) == s
  {
  }

  /** `stoi(to_string(v)) == v`. */
  lemma StoiIntStr(v: int)
    ensures Stoi(IntStr(v)) == v
  {
    if v < 0 {
      var s := IntStr(v);
      assert s[1..] == NatStr(-v);
      DigitPrefixOfDigits(NatStr(-v));
      NatStrRoundTrip(-v);
    } else {
      DigitPrefixOfDigits(NatStr(v));
      NatStrRoundTrip(v);
    }
  }

  /** `stoi` of an unsigned digit string is its decimal value. */
  lemma StoiDigits(s: string)
    requires IsDigits(s)
    ensures Stoi(s) == DigitsValue(s)
  {
    DigitPrefixOfDigits(s);
  }
}

=== FILE: icg.dfy ===
/**
  The intermediate code generator (icg.cpp): a walk over the parse tree
  that appends three-address instructions, numbering temporaries and
  labels from two counters and keeping a stack of the enclosing loops'
  start and end labels. A child the source would read but the node does
  not have is treated like a null child: it evaluates to "" and emits
  nothing.
 */
module Icg {
  import opened Syntax
  import opened Ir

  /** The generator's members: both counters, the loop label stack, the code so far. */
  datatype Gen = Gen(temps: nat, labels: nat, loops: seq<(string, string)>, code: seq<Instruction>)

  /** A fresh generator: both counters at 0. */
  const Start: Gen := Gen(0, 0, [], [])

  function NewTemp(g: Gen): (r: (Gen, string))
    ensures r.0 == g.(temps := g.temps + 1) && r.1 == TempName(g.temps)
  {
    (g.(temps := g.temps + 1), TempName(g.temps))
  }

  function NewLabel(g: Gen): (r: (Gen, string))
    ensures r.0 == g.(labels := g.labels + 1) && r.1 == LabelName(g.labels)
  {
    (g.(labels := g.labels + 1), LabelName(g.labels))
  }

  function Emit(g: Gen, ins: Instruction): Gen {
    g.(code := g.code + [ins])
  }

  /** What every step keeps: counters never go back, the loop stack is restored, code is only appended. */
  predicate Grows(g: Gen, r: Gen) {
    g.temps <= r.temps && g.labels <= r.labels && r.loops == g.loops && g.code <= r.code
  }

  /**
    `evaluateExpression`: emits the code computing `n` and returns the name
    or literal holding its value ("" for a node with no value).
   */
  function Evaluate(g: Gen, n: Node): (r: (Gen, string))
    ensures Grows(g, r.0) && r.0.labels == g.labels
    decreases n, 2
  {
    match n.kind
    case IdentifierNode | NumberNode => (g, n.value)
    case FunctionCall => EvaluateCall(g, n)
    case ExpressionNode =>
      if |n.children| >= 3 then
        var (g1, acc) := Evaluate(g, n.children[0]);
        EvaluateChain(g1, n, 2, acc)
      else if |n.children| == 2 then
        var (g1, left) := Evaluate(g, n.children[0]);
        var (g2, right) := Evaluate(g1, n.children[1]);
        var op := if n.value == "" then "+" else n.value;
        var (g3, t) := NewTemp(g2);
        (Emit(g3, Instruction(op, left, right, t)), t)
      else if |n.children| == 1 then Evaluate(g, n.children[0])
      else (g, "")
    case _ => (g, "")
  }

  /** The loop over operand/operator/operand/… children of a flattened chain. */
  function EvaluateChain(g: Gen, n: Node, i: nat, acc: string): (r: (Gen, string))
    requires i >= 2
    ensures Grows(g, r.0) && r.0.labels == g.labels
    decreases n, 1, |n.children| - i
  {
    if i >= |n.children| then (g, acc)
    else
      var op := n.children[i - 1].value;
      var (g1, next) := Evaluate(g, n.children[i]);
      var (g2, t) := NewTemp(g1);
      EvaluateChain(Emit(g2, Instruction(op, acc, next, t)), n, i + 2, t)
  }

  /** A call inside an expression: `param`, then `print` for the built-ins or `call`. */
  function EvaluateCall(g: Gen, n: Node): (r: (Gen, string))
    requires n.kind == FunctionCall
    ensures Grows(g, r.0) && r.0.labels == g.labels && r.1 == ""
    decreases n, 1
  {
    var (g1, arg) := if n.children != [] then Evaluate(g, n.children[0]) else (g, "");
    var g2 := if n.children != [] then Emit(g1, Instruction("param", arg, "", "")) else g1;
    if n.value == "prrint" || n.value == "san" then (Emit(g2, Instruction("print", arg, "", "")), "")
    else (Emit(g2, Instruction("call", "", "", n.value)), "")
  }

  /** Evaluates the first child, or gives "" when there is none. */
  function EvaluateFirst(g: Gen, n: Node): (r: (Gen, string))
    ensures Grows(g, r.0) && r.0.labels == g.labels
    decreases n, 3
  {
    if n.children != [] then Evaluate(g, n.children[0]) else (g, "")
  }

  /** `traverse`. */
  function Traverse(g: Gen, n: Node): (r: Gen)
    ensures Grows(g, r)
    decreases n, 5
  {
    match n.kind
    case Declaration => TraverseDeclaration(g, n)
    case Assignment =>
      var (g1, e) := EvaluateFirst(g, n);
      if e != "" then Emit(g1, Instruction("=", e, "", n.value)) else g1
    case IfStatement => TraverseIf(g, n)
    case LoopStatement => TraverseLoop(g, n)
    case BreakStatement =>
      if g.loops != [] then Emit(g, Instruction("goto", "", "", g.loops[|g.loops| - 1].1)) else g
    case ContinueStatement =>
      if g.loops != [] then Emit(g, Instruction("goto", "", "", g.loops[|g.loops| - 1].0)) else g
    case ReturnStatement =>
      var (g1, v) := EvaluateFirst(g, n);
      Emit(g1, Instruction("return", v, "", ""))
    case FunctionCall =>
      var (g1, arg) := EvaluateFirst(g, n);
      if n.value == "prrint" || n.value == "san" then Emit(g1, Instruction("print", arg, "", ""))
      else Emit(Emit(g1, Instruction("param", arg, "", "")), Instruction("call", "", "", n.value))
    case _ => TraverseAll(g, n.children)
  }

  function TraverseAll(g: Gen, ns: seq<Node>): (r: Gen)
    ensures Grows(g, r)
    decreases ns
  {
    if ns == [] then g else TraverseAll(Traverse(g, ns[0]), ns[1..])
  }

  /**
    A declaration: an identifier child becomes the target, any other child
    is evaluated as the initializer; the target defaults to the text after
    the first blank of the value.
   */
  function TraverseDeclaration(g: Gen, n: Node): (r: Gen)
    requires n.kind == Declaration
    ensures Grows(g, r)
    decreases n, 4
  {
    var (g1, id, value) := DeclScan(g, n.children, "", "");
    var p := FindSpace(n.value, 0);
    var target := if id == "" && p < |n.value| then n.value[p + 1..] else id;
    if target != "" && value != "" then Emit(g1, Instruction("=", value, "", target)) else g1
  }

  /** The loop over a declaration's children: the last identifier and the last evaluated value. */
  function DeclScan(g: Gen, ns: seq<Node>, id: string, value: string): (r: (Gen, string, string))
    ensures Grows(g, r.0) && r.0.labels == g.labels
    decreases ns
  {
    if ns == [] then (g, id, value)
    else if ns[0].kind == IdentifierNode then DeclScan(g, ns[1..], ns[0].value, value)
    else
      var (g1, v) := Evaluate(g, ns[0]);
      DeclScan(g1, ns[1..], id, v)
  }

  /** `iif`: both labels first, then the condition, the branches and the labels. */
  function TraverseIf(g: Gen, n: Node): (r: Gen)
    requires n.kind == IfStatement
    ensures Grows(g, r)
    decreases n, 4
  {
    var (g1, elseLabel) := NewLabel(g);
    var (g2, endLabel) := NewLabel(g1);
    var (g3, cond) := EvaluateFirst(g2, n);
    var g4 := Emit(g3, Instruction("ifFalse", cond, "", elseLabel));
    var g5 := if |n.children| > 1 then Traverse(g4, n.children[1]) else g4;
    var g6 := Emit(Emit(g5, Instruction("goto", "", "", endLabel)), Instruction("label", "", "", elseLabel));
    var g7 := if |n.children| == 3 then Traverse(g6, n.children[2]) else g6;
    Emit(g7, Instruction("label", "", "", endLabel))
  }

  /** `loop`: the labels are pushed for the body's `brreak`/`conttinue` and popped after. */
  function TraverseLoop(g: Gen, n: Node): (r: Gen)
    requires n.kind == LoopStatement
    ensures Grows(g, r)
    decreases n, 4
  {
    var (g1, startLabel) := NewLabel(g);
    var (g2, endLabel) := NewLabel(g1);
    var g3 := Emit(g2.(loops := g2.loops + [(startLabel, endLabel)]), Instruction("label", "", "", startLabel));
    var (g4, cond) := EvaluateFirst(g3, n);
    var g5 := Emit(g4, Instruction("ifFalse", cond, "", endLabel));
    var g6 := if |n.children| > 1 then Traverse(g5, n.children[1]) else g5;
    var g7 := Emit(Emit(g6, Instruction("goto", "", "", startLabel)), Instruction("label", "", "", endLabel));
    g7.(loops := g7.loops[..|g7.loops| - 1])
  }

  /** `generate`: the instruction list of a fresh generator after one traversal. */
  function Generate(root: Node): seq<Instruction> {
    Traverse(Start, root).code
  }
}

=== FILE: icg_props.dfy ===
/**
  Properties of the intermediate code generator on the trees the parser
  builds: every label it allocates is defined by exactly one `label`
  instruction, every jump names one of them (or an enclosing loop's),
  and the computed results are the fresh temporaries t0, t1, … in order.
 */
module IcgProps {
  import opened Decimal
  import opened Syntax
  import opened Ir
  import opened Icg
  import Semantic

  /** Ops whose `result` is not a computed temporary. */
  const ControlOps: set<string> := {"=", "ifFalse", "goto", "label", "return", "print", "param", "call"}

  predicate IsJump(op: string) {
    op == "goto" || op == "ifFalse"
  }

  /** How many `label` instructions define `t`. */
  function Defs(code: seq<Instruction>, t: string): nat
    decreases |code|
  {
    if code == [] then 0
    else
      var last := code[|code| - 1];
      Defs(code[..|code| - 1], t) + if last.op == "label" && last.result == t then 1 else 0
  }

  /** The names `goto` and `ifFalse` instructions jump to. */
  function Targets(code: seq<Instruction>): set<string>
    decreases |code|
  {
    if code == [] then {}
    else
      var last := code[|code| - 1];
      Targets(code[..|code| - 1]) + if IsJump(last.op) then {last.result} else {}
  }

  /** The results of the computing (non-control) instructions, in order. */
  function Computed(code: seq<Instruction>): seq<string>
    decreases |code|
  {
    if code == [] then []
    else
      var last := code[|code| - 1];
      Computed(code[..|code| - 1]) + if last.op in ControlOps then [] else [last.result]
  }

  /** The number a label name carries after its `L`. */
  function LabelIndex(t: string): nat {
    if t != [] && IsDigits(t[1..]) then DigitsValue(t[1..]) else 0
  }

  /** `t` is one of the labels numbered lo, …, hi-1. */
  predicate InLabels(lo: nat, hi: nat, t: string) {
    lo <= LabelIndex(t) < hi && t == LabelName(LabelIndex(t))
  }

  /** The temporaries t0, …, t(k-1), in order. */
  function Temps(k: nat): seq<string> {
    if k == 0 then [] else Temps(k - 1) + [TempName(k - 1)]
  }

  /** The start and end labels on a loop label stack. */
  function StackNames(loops: seq<(string, string)>): set<string> {
    (set p | p in loops :: p.0) + (set p | p in loops :: p.1)
  }

  lemma DefsOneMore(code: seq<Instruction>, ins: Instruction, t: string)
    ensures Defs(code + [ins], t) == Defs(code, t) + if ins.op == "label" && ins.result == t then 1 else 0
  {
    assert (code + [ins])[..|code|] == code;
  }

  lemma TargetsOneMore(code: seq<Instruction>, ins: Instruction)
    ensures Targets(code + [ins]) == Targets(code) + if IsJump(ins.op) then {ins.result} else {}
  {
    assert (code + [ins])[..|code|] == code;
  }

  lemma ComputedOneMore(code: seq<Instruction>, ins: Instruction)
    ensures Computed(code + [ins]) == Computed(code) + if ins.op in ControlOps then [] else [ins.result]
  {
    assert (code + [ins])[..|code|] == code;
  }

  /** Appending one instruction that is not a `label`. */
  lemma OneMore(code: seq<Instruction>, ins: Instruction)
    requires ins.op != "label"
    ensures forall t :: Defs(code + [ins], t) == Defs(code, t)
    ensures Targets(code + [ins]) == Targets(code) + if IsJump(ins.op) then {ins.result} else {}
    ensures Computed(code + [ins]) == Computed(code) + if ins.op in ControlOps then [] else [ins.result]
  {
    forall t ensures Defs(code + [ins], t) == Defs(code, t) {
      DefsOneMore(code, ins, t);
    }
    TargetsOneMore(code, ins);
    ComputedOneMore(code, ins);
  }

  /** The label numbered k is in a range exactly when k is. */
  lemma LabelIndexOf(k: nat, lo: nat, hi: nat)
    ensures LabelIndex(LabelName(k)) == k
    ensures InLabels(lo, hi, LabelName(k)) <==> lo <= k < hi
  {
    assert LabelName(k)[1..] == NatStr(k);
    NatStrRoundTrip(k);
  }

  /** The i-th of the first k temporaries is ti. */
  lemma {:induction false} TempsIndex(k: nat)
    ensures |Temps(k)| == k
    ensures forall i :: 0 <= i < k ==> Temps(k)[i] == TempName(i)
  {
    if k > 0 {
      TempsIndex(k - 1);
    }
  }

  /** A range that starts with the two labels a statement allocates first. */
  lemma FirstTwoLabels(lo: nat, hi: nat, t: string)
    requires lo + 2 <= hi
    ensures InLabels(lo, hi, t) <==> InLabels(lo + 2, hi, t) || t == LabelName(lo) || t == LabelName(lo + 1)
    ensures InLabels(lo + 2, hi, t) ==> t != LabelName(lo) && t != LabelName(lo + 1)
    ensures LabelName(lo) != LabelName(lo + 1)
  {
    LabelIndexOf(lo, lo, hi);
    LabelIndexOf(lo + 1, lo, hi);
  }

  lemma BinaryOpComputes(op: string)
    requires IsBinaryOp(op)
    ensures op !in ControlOps && op != "label" && !IsJump(op)
  {
  }

  /**
    What one step of the walk from `g` to `r` adds: the labels it allocated,
    each defined once; jumps only to those or to an enclosing loop's
    labels; and the temporaries it allocated as its computed results.
   */
  ghost predicate Accounted(g: Gen, r: Gen) {
    g.labels <= r.labels && g.temps <= r.temps
    && TempsKept(g.code, r.code, g.temps, r.temps)
    && DefsAdded(g.code, r.code, g.labels, r.labels)
    && JumpsAdded(g.code, r.code, g.labels, r.labels, StackNames(g.loops))
  }

  /** If `c0` computed exactly the first lo temporaries in order, `c1` computes exactly the first hi. */
  predicate TempsKept(c0: seq<Instruction>, c1: seq<Instruction>, lo: nat, hi: nat) {
    Computed(c0) == Temps(lo) ==> Computed(c1) == Temps(hi)
  }

  /** Going from `c0` to `c1` defines each label lo, …, hi-1 once and no other. */
  ghost predicate DefsAdded(c0: seq<Instruction>, c1: seq<Instruction>, lo: nat, hi: nat) {
    forall t :: Defs(c1, t) == Defs(c0, t) + if InLabels(lo, hi, t) then 1 else 0
  }

  /** Going from `c0` to `c1` adds jumps only to labels lo, …, hi-1 or to names in `stack`. */
  ghost predicate JumpsAdded(c0: seq<Instruction>, c1: seq<Instruction>, lo: nat, hi: nat, stack: set<string>) {
    forall t :: t in Targets(c1) ==> t in Targets(c0) || InLabels(lo, hi, t) || t in stack
  }

  lemma AccountedTrans(a: Gen, b: Gen, c: Gen)
    requires Accounted(a, b) && Accounted(b, c) && b.loops == a.loops
    ensures Accounted(a, c)
  {
  }

  /** A step that allocates no label, defines none, adds no jump, and computes exactly its fresh temporaries. */
  ghost predicate Quiet(g: Gen, r: Gen) {
    r.labels == g.labels && r.loops == g.loops && g.temps <= r.temps
    && DefsAdded(g.code, r.code, g.labels, g.labels) && Targets(r.code) == Targets(g.code)
    && TempsKept(g.code, r.code, g.temps, r.temps)
  }

  lemma QuietAccounted(g: Gen, r: Gen)
    requires Quiet(g, r)
    ensures Accounted(g, r)
  {
  }

  lemma QuietEmit(g: Gen, h: Gen, ins: Instruction)
    requires Quiet(g, h) && ins.op in ControlOps && ins.op != "label" && !IsJump(ins.op)
    ensures Quiet(g, Emit(h, ins))
  {
    OneMore(h.code, ins);
  }

  /** Evaluating an expression defines no label, jumps nowhere, and computes exactly its fresh temporaries. */
  lemma {:induction false} EvaluateAccounted(g: Gen, n: Node)
    requires IsExpr(n)
    ensures Quiet(g, Evaluate(g, n).0)
    ensures |n.children| == 2 ==> Evaluate(g, n).1 == TempName(Evaluate(g, n).0.temps - 1)
    decreases n
  {
    if n.kind == ExpressionNode && |n.children| == 2 {
      var (g1, left) := Evaluate(g, n.children[0]);
      var (g2, right) := Evaluate(g1, n.children[1]);
      EvaluateAccounted(g, n.children[0]);
      EvaluateAccounted(g1, n.children[1]);
      BinaryOpComputes(n.value);
      var ins := Instruction(n.value, left, right, TempName(g2.temps));
      assert Evaluate(g, n).0 == Emit(g2.(temps := g2.temps + 1), ins);
      OneMore(g2.code, ins);
    }
  }

  lemma EvaluateFirstAccounted(g: Gen, n: Node)
    requires n.children != [] ==> IsExpr(n.children[0])
    ensures Quiet(g, EvaluateFirst(g, n).0)
  {
    if n.children != [] {
      EvaluateAccounted(g, n.children[0]);
    }
  }

  /** A bare expression met as a statement emits nothing. */
  lemma {:induction false} ExpressionTraverseSilent(g: Gen, n: Node)
    requires IsExpr(n)
    ensures Traverse(g, n) == g
    decreases n, 1
  {
    if n.kind == ExpressionNode {
      ExprChildren(n);
      ExpressionsTraverseSilent(g, n.children);
    }
  }

  lemma {:induction false} ExpressionsTraverseSilent(g: Gen, ns: seq<Node>)
    requires forall i :: 0 <= i < |ns| ==> IsExpr(ns[i])
    ensures TraverseAll(g, ns) == g
    decreases ns
  {
    if ns != [] {
      ExpressionTraverseSilent(g, ns[0]);
      ExpressionsTraverseSilent(g, ns[1..]);
    }
  }

  lemma {:induction false} DeclScanAccounted(g: Gen, ns: seq<Node>, id: string, value: string)
    requires forall i :: 0 <= i < |ns| ==> IsExpr(ns[i])
    ensures Quiet(g, DeclScan(g, ns, id, value).0)
    decreases ns
  {
    if ns != [] {
      if ns[0].kind == IdentifierNode {
        DeclScanAccounted(g, ns[1..], ns[0].value, value);
      } else {
        var (g1, v) := Evaluate(g, ns[0]);
        EvaluateAccounted(g, ns[0]);
        DeclScanAccounted(g1, ns[1..], id, v);
      }
    }
  }

  lemma StackPush(loops: seq<(string, string)>, p: (string, string))
    ensures StackNames(loops + [p]) == StackNames(loops) + {p.0, p.1}
  {
    assert forall q :: q in loops + [p] <==> q in loops || q == p;
  }

  lemma StackTop(loops: seq<(string, string)>)
    requires loops != []
    ensures loops[|loops| - 1].0 in StackNames(loops) && loops[|loops| - 1].1 in StackNames(loops)
  {
    assert loops[|loops| - 1] in loops;
  }

  /** The walk over a parser-built tree accounts for every label, jump and temporary it adds. */
  lemma {:induction false} TraverseAccounted(g: Gen, n: Node)
    requires IsSyntax(n)
    ensures Accounted(g, Traverse(g, n))
    decreases n, 1
  {
    var r := Traverse(g, n);
    if IsExpr(n) {
      ExpressionTraverseSilent(g, n);
      QuietAccounted(g, g);
    } else {
      match n.kind
      case Declaration =>
        var (g1, id, value) := DeclScan(g, n.children, "", "");
        DeclScanAccounted(g, n.children, "", "");
        if r != g1 {
          QuietEmit(g, g1, r.code[|r.code| - 1]);
        }
        QuietAccounted(g, r);
      case Assignment =>
        var (g1, e) := EvaluateFirst(g, n);
        EvaluateFirstAccounted(g, n);
        if e != "" {
          QuietEmit(g, g1, Instruction("=", e, "", n.value));
        }
        QuietAccounted(g, r);
      case ReturnStatement =>
        var (g1, v) := EvaluateFirst(g, n);
        EvaluateFirstAccounted(g, n);
        QuietEmit(g, g1, Instruction("return", v, "", ""));
        QuietAccounted(g, r);
      case FunctionCall =>
        var (g1, arg) := EvaluateFirst(g, n);
        EvaluateFirstAccounted(g, n);
        QuietEmit(g, g1, Instruction("print", arg, "", ""));
        QuietAccounted(g, r);
      case BreakStatement =>
        QuietAccounted(g, g);
        if g.loops != [] {
          StackTop(g.loops);
          OneMore(g.code, Instruction("goto", "", "", g.loops[|g.loops| - 1].1));
        }
      case ContinueStatement =>
        QuietAccounted(g, g);
        if g.loops != [] {
          StackTop(g.loops);
          OneMore(g.code, Instruction("goto", "", "", g.loops[|g.loops| - 1].0));
        }
      case IfStatement => IfAccounted(g, n);
      case LoopStatement => LoopAccounted(g, n);
      case StatementList => TraverseAllAccounted(g, n.children);
      case ProgramNode => TraverseAllAccounted(g, n.children);
    }
  }

  lemma {:induction false} TraverseAllAccounted(g: Gen, ns: seq<Node>)
    requires forall i :: 0 <= i < |ns| ==> IsSyntax(ns[i])
    ensures Accounted(g, TraverseAll(g, ns))
    decreases ns
  {
    if ns == [] {
      QuietAccounted(g, g);
    } else {
      var g1 := Traverse(g, ns[0]);
      TraverseAccounted(g, ns[0]);
      TraverseAllAccounted(g1, ns[1..]);
      AccountedTrans(g, g1, TraverseAll(g1, ns[1..]));
    }
  }

  lemma {:induction false} IfAccounted(g: Gen, n: Node)
    requires IsStmt(n) && n.kind == IfStatement
    ensures Accounted(g, Traverse(g, n))
    decreases n, 0
  {
    var lo := g.labels;
    var elseLabel, endLabel := LabelName(lo), LabelName(lo + 1);
    var g2 := g.(labels := lo + 2);
    var (g3, cond) := EvaluateFirst(g2, n);
    var g4 := Emit(g3, Instruction("ifFalse", cond, "", elseLabel));
    var g5 := Traverse(g4, n.children[1]);
    var g6 := Emit(Emit(g5, Instruction("goto", "", "", endLabel)), Instruction("label", "", "", elseLabel));
    var g7 := if |n.children| == 3 then Traverse(g6, n.children[2]) else g6;
    var r := Emit(g7, Instruction("label", "", "", endLabel));
    assert Traverse(g, n) == r;
    assert g6.code == g5.code + [Instruction("goto", "", "", endLabel), Instruction("label", "", "", elseLabel)];
    EvaluateFirstAccounted(g2, n);
    TraverseAccounted(g4, n.children[1]);
    if |n.children| == 3 {
      TraverseAccounted(g6, n.children[2]);
    } else {
      QuietAccounted(g6, g6);
    }
    IfLayoutAccounted(g.code, g3.code, g5.code, g7.code, cond, lo, g5.labels, g7.labels, g.temps, g3.temps, g5.temps, g7.temps, StackNames(g.loops));
  }

  /** The bookkeeping of an `iif`: the condition, the two branches and the four control instructions around them. */
  lemma IfLayoutAccounted(c0: seq<Instruction>, c3: seq<Instruction>, c5: seq<Instruction>, c7: seq<Instruction>,
                          cond: string, lo: nat, m5: nat, m7: nat, t0: nat, t3: nat, t5: nat, t7: nat, stack: set<string>)
    requires lo + 2 <= m5 <= m7 && t0 <= t3 <= t5 <= t7
    requires DefsAdded(c0, c3, lo, lo) && Targets(c3) == Targets(c0) && TempsKept(c0, c3, t0, t3)
    requires var c4 := c3 + [Instruction("ifFalse", cond, "", LabelName(lo))];
      DefsAdded(c4, c5, lo + 2, m5) && JumpsAdded(c4, c5, lo + 2, m5, stack) && TempsKept(c4, c5, t3, t5)
    requires var c6 := c5 + [Instruction("goto", "", "", LabelName(lo + 1)), Instruction("label", "", "", LabelName(lo))];
      DefsAdded(c6, c7, m5, m7) && JumpsAdded(c6, c7, m5, m7, stack) && TempsKept(c6, c7, t5, t7)
    ensures var r := c7 + [Instruction("label", "", "", LabelName(lo + 1))];
      DefsAdded(c0, r, lo, m7) && JumpsAdded(c0, r, lo, m7, stack) && TempsKept(c0, r, t0, t7)
  {
    var i1 := Instruction("ifFalse", cond, "", LabelName(lo));
    var i2, i3 := Instruction("goto", "", "", LabelName(lo + 1)), Instruction("label", "", "", LabelName(lo));
    var i4 := Instruction("label", "", "", LabelName(lo + 1));
    IfDefs(c0, c3, c5, c7, i1, i2, i3, i4, lo, m5, m7);
    IfJumps(c0, c3, c5, c7, i1, i2, i3, i4, lo, m5, m7, stack);
    IfTemps(c0, c3, c5, c7, i1, i2, i3, i4, t0, t3, t5, t7);
  }

  lemma IfDefs(c0: seq<Instruction>, c3: seq<Instruction>, c5: seq<Instruction>, c7: seq<Instruction>,
               i1: Instruction, i2: Instruction, i3: Instruction, i4: Instruction, lo: nat, m5: nat, m7: nat)
    requires lo + 2 <= m5 <= m7
    requires i1.op == "ifFalse" && i2.op == "goto" && i3 == Instruction("label", "", "", LabelName(lo))
    requires i4 == Instruction("label", "", "", LabelName(lo + 1))
    requires DefsAdded(c0, c3, lo, lo) && DefsAdded(c3 + [i1], c5, lo + 2, m5) && DefsAdded(c5 + [i2, i3], c7, m5, m7)
    ensures DefsAdded(c0, c7 + [i4], lo, m7)
  {
    forall t ensures Defs(c7 + [i4], t) == Defs(c0, t) + if InLabels(lo, m7, t) then 1 else 0 {
      IfDefsAt(c0, c3, c5, c7, i1, i2, i3, i4, lo, m5, m7, t);
    }
  }

  lemma IfDefsAt(c0: seq<Instruction>, c3: seq<Instruction>, c5: seq<Instruction>, c7: seq<Instruction>,
                 i1: Instruction, i2: Instruction, i3: Instruction, i4: Instruction, lo: nat, m5: nat, m7: nat, t: string)
    requires lo + 2 <= m5 <= m7
    requires i1.op == "ifFalse" && i2.op == "goto" && i3 == Instruction("label", "", "", LabelName(lo))
    requires i4 == Instruction("label", "", "", LabelName(lo + 1))
    requires Defs(c3, t) == Defs(c0, t)
    requires Defs(c5, t) == Defs(c3 + [i1], t) + if InLabels(lo + 2, m5, t) then 1 else 0
    requires Defs(c7, t) == Defs(c5 + [i2, i3], t) + if InLabels(m5, m7, t) then 1 else 0
    ensures Defs(c7 + [i4], t) == Defs(c0, t) + if InLabels(lo, m7, t) then 1 else 0
  {
    assert c5 + [i2, i3] == c5 + [i2] + [i3];
    DefsOneMore(c3, i1, t);
    DefsOneMore(c5, i2, t);
    DefsOneMore(c5 + [i2], i3, t);
    DefsOneMore(c7, i4, t);
    FirstTwoLabels(lo, m7, t);
    assert InLabels(lo + 2, m7, t) <==> InLabels(lo + 2, m5, t) || InLabels(m5, m7, t);
  }

  lemma IfJumps(c0: seq<Instruction>, c3: seq<Instruction>, c5: seq<Instruction>, c7: seq<Instruction>,
                i1: Instruction, i2: Instruction, i3: Instruction, i4: Instruction, lo: nat, m5: nat, m7: nat, stack: set<string>)
    requires lo + 2 <= m5 <= m7
    requires IsJump(i1.op) && IsJump(i2.op) && !IsJump(i3.op) && !IsJump(i4.op)
    requires i1.result == LabelName(lo) && i2.result == LabelName(lo + 1)
    requires Targets(c3) == Targets(c0)
    requires JumpsAdded(c3 + [i1], c5, lo + 2, m5, stack) && JumpsAdded(c5 + [i2, i3], c7, m5, m7, stack)
    ensures JumpsAdded(c0, c7 + [i4], lo, m7, stack)
  {
    assert c5 + [i2, i3] == c5 + [i2] + [i3];
    TargetsOneMore(c3, i1);
    TargetsOneMore(c5, i2);
    TargetsOneMore(c5 + [i2], i3);
    TargetsOneMore(c7, i4);
    LabelIndexOf(lo, lo, m7);
    LabelIndexOf(lo + 1, lo, m7);
    forall t | t in Targets(c7 + [i4])
      ensures t in Targets(c0) || InLabels(lo, m7, t) || t in stack
    {
      IfJumpAt(t, Targets(c0), Targets(c3 + [i1]), Targets(c5), Targets(c5 + [i2, i3]), Targets(c7), lo, m5, m7, stack);
    }
  }

  /** The set bookkeeping of `IfJumps` for one target. */
  lemma IfJumpAt(t: string, T0: set<string>, T4: set<string>, T5: set<string>, T6: set<string>, T7: set<string>,
                 lo: nat, m5: nat, m7: nat, stack: set<string>)
    requires lo + 2 <= m5 <= m7
    requires T4 == T0 + {LabelName(lo)} && T6 == T5 + {LabelName(lo + 1)} && t in T7
    requires t in T5 ==> t in T4 || InLabels(lo + 2, m5, t) || t in stack
    requires t in T7 ==> t in T6 || InLabels(m5, m7, t) || t in stack
    requires InLabels(lo, m7, LabelName(lo)) && InLabels(lo, m7, LabelName(lo + 1))
    ensures t in T0 || InLabels(lo, m7, t) || t in stack
  {
  }

  lemma IfTemps(c0: seq<Instruction>, c3: seq<Instruction>, c5: seq<Instruction>, c7: seq<Instruction>,
                i1: Instruction, i2: Instruction, i3: Instruction, i4: Instruction, t0: nat, t3: nat, t5: nat, t7: nat)
    requires t0 <= t3 <= t5 <= t7
    requires i1.op in ControlOps && i2.op in ControlOps && i3.op in ControlOps && i4.op in ControlOps
    requires TempsKept(c0, c3, t0, t3) && TempsKept(c3 + [i1], c5, t3, t5) && TempsKept(c5 + [i2, i3], c7, t5, t7)
    ensures TempsKept(c0, c7 + [i4], t0, t7)
  {
    assert c5 + [i2, i3] == c5 + [i2] + [i3];
    ComputedOneMore(c3, i1);
    ComputedOneMore(c5, i2);
    ComputedOneMore(c5 + [i2], i3);
    ComputedOneMore(c7, i4);
  }

  lemma {:induction false} LoopAccounted(g: Gen, n: Node)
    requires IsStmt(n) && n.kind == LoopStatement
    ensures Accounted(g, Traverse(g, n))
    decreases n, 0
  {
    var lo := g.labels;
    var startLabel, endLabel := LabelName(lo), LabelName(lo + 1);
    var g3 := Emit(g.(labels := lo + 2, loops := g.loops + [(startLabel, endLabel)]), Instruction("label", "", "", startLabel));
    var (g4, cond) := EvaluateFirst(g3, n);
    var g5 := Emit(g4, Instruction("ifFalse", cond, "", endLabel));
    var g6 := Traverse(g5, n.children[1]);
    var g7 := Emit(Emit(g6, Instruction("goto", "", "", startLabel)), Instruction("label", "", "", endLabel));
    var r := g7.(loops := g.loops);
    assert Traverse(g, n) == r;
    assert r.code == g6.code + [Instruction("goto", "", "", startLabel), Instruction("label", "", "", endLabel)];
    EvaluateFirstAccounted(g3, n);
    TraverseAccounted(g5, n.children[1]);
    StackPush(g.loops, (startLabel, endLabel));
    LoopLayoutAccounted(g.code, g4.code, g6.code, cond, lo, g6.labels, g.temps, g4.temps, g6.temps, StackNames(g.loops));
  }

  /** The bookkeeping of a loop: the body may also jump to the loop's own two labels. */
  lemma LoopLayoutAccounted(c0: seq<Instruction>, c4: seq<Instruction>, c6: seq<Instruction>,
                            cond: string, lo: nat, m6: nat, t0: nat, t4: nat, t6: nat, stack: set<string>)
    requires lo + 2 <= m6 && t0 <= t4 <= t6
    requires var c3 := c0 + [Instruction("label", "", "", LabelName(lo))];
      DefsAdded(c3, c4, lo + 2, lo + 2) && Targets(c4) == Targets(c3) && TempsKept(c3, c4, t0, t4)
    requires var c5 := c4 + [Instruction("ifFalse", cond, "", LabelName(lo + 1))];
      DefsAdded(c5, c6, lo + 2, m6) && TempsKept(c5, c6, t4, t6)
      && JumpsAdded(c5, c6, lo + 2, m6, stack + {LabelName(lo), LabelName(lo + 1)})
    ensures var r := c6 + [Instruction("goto", "", "", LabelName(lo)), Instruction("label", "", "", LabelName(lo + 1))];
      DefsAdded(c0, r, lo, m6) && JumpsAdded(c0, r, lo, m6, stack) && TempsKept(c0, r, t0, t6)
  {
    var i0 := Instruction("label", "", "", LabelName(lo));
    var i1 := Instruction("ifFalse", cond, "", LabelName(lo + 1));
    var i2, i3 := Instruction("goto", "", "", LabelName(lo)), Instruction("label", "", "", LabelName(lo + 1));
    LoopDefs(c0, c4, c6, i0, i1, i2, i3, lo, m6);
    LoopJumps(c0, c4, c6, i0, i1, i2, i3, lo, m6, stack);
    LoopTemps(c0, c4, c6, i0, i1, i2, i3, t0, t4, t6);
  }

  lemma LoopDefs(c0: seq<Instruction>, c4: seq<Instruction>, c6: seq<Instruction>,
                 i0: Instruction, i1: Instruction, i2: Instruction, i3: Instruction, lo: nat, m6: nat)
    requires lo + 2 <= m6
    requires i0 == Instruction("label", "", "", LabelName(lo)) && i1.op == "ifFalse" && i2.op == "goto"
    requires i3 == Instruction("label", "", "", LabelName(lo + 1))
    requires DefsAdded(c0 + [i0], c4, lo + 2, lo + 2) && DefsAdded(c4 + [i1], c6, lo + 2, m6)
    ensures DefsAdded(c0, c6 + [i2, i3], lo, m6)
  {
    forall t ensures Defs(c6 + [i2, i3], t) == Defs(c0, t) + if InLabels(lo, m6, t) then 1 else 0 {
      LoopDefsAt(c0, c4, c6, i0, i1, i2, i3, lo, m6, t);
    }
  }

  lemma LoopDefsAt(c0: seq<Instruction>, c4: seq<Instruction>, c6: seq<Instruction>,
                   i0: Instruction, i1: Instruction, i2: Instruction, i3: Instruction, lo: nat, m6: nat, t: string)
    requires lo + 2 <= m6
    requires i0 == Instruction("label", "", "", LabelName(lo)) && i1.op == "ifFalse" && i2.op == "goto"
    requires i3 == Instruction("label", "", "", LabelName(lo + 1))
    requires Defs(c4, t) == Defs(c0 + [i0], t)
    requires Defs(c6, t) == Defs(c4 + [i1], t) + if InLabels(lo + 2, m6, t) then 1 else 0
    ensures Defs(c6 + [i2, i3], t) == Defs(c0, t) + if InLabels(lo, m6, t) then 1 else 0
  {
    assert c6 + [i2, i3] == c6 + [i2] + [i3];
    DefsOneMore(c0, i0, t);
    DefsOneMore(c4, i1, t);
    DefsOneMore(c6, i2, t);
    DefsOneMore(c6 + [i2], i3, t);
    FirstTwoLabels(lo, m6, t);
  }

  lemma LoopJumps(c0: seq<Instruction>, c4: seq<Instruction>, c6: seq<Instruction>,
                  i0: Instruction, i1: Instruction, i2: Instruction, i3: Instruction, lo: nat, m6: nat, stack: set<string>)
    requires lo + 2 <= m6
    requires !IsJump(i0.op) && IsJump(i1.op) && IsJump(i2.op) && !IsJump(i3.op)
    requires i1.result == LabelName(lo + 1) && i2.result == LabelName(lo)
    requires Targets(c4) == Targets(c0 + [i0])
    requires JumpsAdded(c4 + [i1], c6, lo + 2, m6, stack + {LabelName(lo), LabelName(lo + 1)})
    ensures JumpsAdded(c0, c6 + [i2, i3], lo, m6, stack)
  {
    assert c6 + [i2, i3] == c6 + [i2] + [i3];
    TargetsOneMore(c0, i0);
    TargetsOneMore(c4, i1);
    TargetsOneMore(c6, i2);
    TargetsOneMore(c6 + [i2], i3);
    LabelIndexOf(lo, lo, m6);
    LabelIndexOf(lo + 1, lo, m6);
    forall t | t in Targets(c6 + [i2, i3])
      ensures t in Targets(c0) || InLabels(lo, m6, t) || t in stack
    {
      LoopJumpAt(t, Targets(c0), Targets(c4 + [i1]), Targets(c6), lo, m6, stack);
    }
  }

  /** The set bookkeeping of `LoopJumps` for one target. */
  lemma LoopJumpAt(t: string, T0: set<string>, T5: set<string>, T6: set<string>, lo: nat, m6: nat, stack: set<string>)
    requires lo + 2 <= m6
    requires T5 == T0 + {LabelName(lo + 1)} && t in T6 + {LabelName(lo)}
    requires t in T6 ==> t in T5 || InLabels(lo + 2, m6, t) || t in stack + {LabelName(lo), LabelName(lo + 1)}
    requires InLabels(lo, m6, LabelName(lo)) && InLabels(lo, m6, LabelName(lo + 1))
    ensures t in T0 || InLabels(lo, m6, t) || t in stack
  {
  }

  lemma LoopTemps(c0: seq<Instruction>, c4: seq<Instruction>, c6: seq<Instruction>,
                  i0: Instruction, i1: Instruction, i2: Instruction, i3: Instruction, t0: nat, t4: nat, t6: nat)
    requires t0 <= t4 <= t6
    requires i0.op in ControlOps && i1.op in ControlOps && i2.op in ControlOps && i3.op in ControlOps
    requires TempsKept(c0 + [i0], c4, t0, t4) && TempsKept(c4 + [i1], c6, t4, t6)
    ensures TempsKept(c0, c6 + [i2, i3], t0, t6)
  {
    assert c6 + [i2, i3] == c6 + [i2] + [i3];
    ComputedOneMore(c0, i0);
    ComputedOneMore(c4, i1);
    ComputedOneMore(c6, i2);
    ComputedOneMore(c6 + [i2], i3);
  }

  /**
    The generated code of a parser-built tree: every `goto`/`ifFalse`
    target is defined by exactly one `label` instruction, no label is
    defined twice, and the computed results are t0, t1, … in order, so no
    temporary is assigned by two instructions.
   */
  lemma GenerateWellFormed(root: Node)
    requires IsSyntax(root)
    ensures var code := Generate(root);
      (forall t :: t in Targets(code) ==> Defs(code, t) == 1)
      && (forall t :: Defs(code, t) <= 1)
      && (forall i :: 0 <= i < |Computed(code)| ==> Computed(code)[i] == TempName(i))
      && (forall i, j :: 0 <= i < j < |Computed(code)| ==> Computed(code)[i] != Computed(code)[j])
  {
    var r := Traverse(Start, root);
    TraverseAccounted(Start, root);
    assert StackNames(Start.loops) == {};
    assert Computed(r.code) == Temps(r.temps);
    TempsIndex(r.temps);
    forall i, j | 0 <= i < j < |Computed(r.code)| ensures Computed(r.code)[i] != Computed(r.code)[j] {
      TempNameInjective(i, j);
    }
  }

  /**
    A declaration with a non-identifier initializer moves the initializer's
    value into the name after the type, the same name the analyzer binds.
   */
  lemma DeclarationTarget(g: Gen, v: string, c: Node)
    requires IsDeclarationValue(v) && Semantic.SplitDecl(v).1 != "" && c.kind != IdentifierNode
    ensures var (g1, e) := Evaluate(g, c);
      Traverse(g, Node(Declaration, v, [c])) ==
        if e != "" then Emit(g1, Instruction("=", e, "", Semantic.SplitDecl(v).1)) else g1
  {
    var n := Node(Declaration, v, [c]);
    var (g1, e) := Evaluate(g, c);
    SingleInitializer(g, c);
    DeclaredName(v);
    assert Traverse(g, n) == TraverseDeclaration(g, n);
  }

  /** `intt x = c;` with a non-identifier initializer: the initializer's code, then a move of its value into x. */
  lemma IntDeclarationCode(g: Gen, x: string, c: Node)
    requires x != "" && c.kind != IdentifierNode
    ensures var (g1, e) := Evaluate(g, c);
      Traverse(g, Node(Declaration, "intt " + x, [c])) ==
        if e != "" then Emit(g1, Instruction("=", e, "", x)) else g1
  {
    assert "intt " + x == "intt" + " " + x;
    assert ("intt " + x)[..5] == "intt ";
    Semantic.SplitTypedName("intt", x);
    DeclarationTarget(g, "intt " + x, c);
  }

  /** Scanning a lone non-identifier child evaluates it and finds no identifier. */
  lemma SingleInitializer(g: Gen, c: Node)
    requires c.kind != IdentifierNode
    ensures DeclScan(g, [c], "", "") == (Evaluate(g, c).0, "", Evaluate(g, c).1)
  {
    assert [c][1..] == [];
  }

  /** The generator's target of a declaration value is the name the analyzer binds. */
  lemma DeclaredName(v: string)
    requires IsDeclarationValue(v)
    ensures FindSpace(v, 0) < |v| && Semantic.SplitDecl(v).1 == v[FindSpace(v, 0) + 1..]
  {
    var p := FindSpace(v, 0);
    var k: nat;
    if |v| >= 5 && v[..5] == "intt " {
      assert v[4] == v[..5][4];
      k := 4;
    } else {
      assert v[7] == v[..8][7];
      k := 7;
    }
    assert v[k] == ' ';
    assert p <= k;
  }

  /** `intt y = x;`: the identifier initializer is taken for the target, and nothing is emitted. */
  lemma IdentifierInitializerEmitsNothing(g: Gen, v: string, x: string)
    ensures Traverse(g, Node(Declaration, v, [Node(IdentifierNode, x, [])])) == g
  {
    var id := Node(IdentifierNode, x, []);
    assert [id][1..] == [];
    assert DeclScan(g, [id], "", "") == DeclScan(g, [], x, "") == (g, x, "");
    assert Traverse(g, Node(Declaration, v, [id])) == TraverseDeclaration(g, Node(Declaration, v, [id]));
  }

  /** `x = e` where e evaluates to a non-empty name: e's code, then a move of that name into x. */
  lemma AssignmentCode(g: Gen, x: string, e: Node)
    requires Evaluate(g, e).1 != ""
    ensures Traverse(g, Node(Assignment, x, [e])) == Emit(Evaluate(g, e).0, Instruction("=", Evaluate(g, e).1, "", x))
  {
    assert EvaluateFirst(g, Node(Assignment, x, [e])) == Evaluate(g, e);
  }

  /** A string literal evaluates to "", so a move from it is never emitted. */
  lemma StringLiteralMoveSuppressed(g: Gen, x: string, literal: string)
    ensures Traverse(g, Node(Assignment, x, [Node(ExpressionNode, literal, [])])) == g
  {
  }

  /** `brreak`/`conttinue` outside every loop emit nothing. */
  lemma JumpOutsideLoopEmitsNothing(g: Gen, n: Node)
    requires g.loops == [] && (n.kind == BreakStatement || n.kind == ContinueStatement)
    ensures Traverse(g, n) == g
  {
  }

  /**
    `loop (x) { brreak; conttinue; }`: the start label, the exit test, the
    body's jumps to the innermost end and start labels, the back edge, the
    end label.
   */
  lemma LoopLayout(g: Gen, x: string)
    ensures var lo := g.labels;
      var body := Node(StatementList, "stmt_list", [Node(BreakStatement, "brreak", []), Node(ContinueStatement, "conttinue", [])]);
      var r := Traverse(g, Node(LoopStatement, "loop", [Node(IdentifierNode, x, []), body]));
      r.code == g.code + [Instruction("label", "", "", LabelName(lo)), Instruction("ifFalse", x, "", LabelName(lo + 1)),
                          Instruction("goto", "", "", LabelName(lo + 1)), Instruction("goto", "", "", LabelName(lo)),
                          Instruction("goto", "", "", LabelName(lo)), Instruction("label", "", "", LabelName(lo + 1))]
      && r.labels == lo + 2 && r.loops == g.loops
  {
    var lo := g.labels;
    var i0, i1 := Instruction("label", "", "", LabelName(lo)), Instruction("ifFalse", x, "", LabelName(lo + 1));
    var i2, i3 := Instruction("goto", "", "", LabelName(lo + 1)), Instruction("goto", "", "", LabelName(lo));
    var i4, i5 := Instruction("goto", "", "", LabelName(lo)), Instruction("label", "", "", LabelName(lo + 1));
    var body := Node(StatementList, "stmt_list", [Node(BreakStatement, "brreak", []), Node(ContinueStatement, "conttinue", [])]);
    var n := Node(LoopStatement, "loop", [Node(IdentifierNode, x, []), body]);
    var g3 := Emit(g.(labels := lo + 2, loops := g.loops + [(LabelName(lo), LabelName(lo + 1))]), i0);
    assert EvaluateFirst(g3, n) == (g3, x);
    var g5 := Emit(g3, i1);
    var g6 := Traverse(g5, body);
    assert g6 == g5.(code := g5.code + [i2, i3]) by {
      BreakContinueBody(g5, body);
    }
    var g7 := Emit(Emit(g6, i4), i5);
    LoopUnfolds(g, n);
    SixInOrder(g.code, i0, i1, i2, i3, i4, i5);
  }

  lemma SixInOrder<T>(c: seq<T>, i0: T, i1: T, i2: T, i3: T, i4: T, i5: T)
    ensures c + [i0] + [i1] + [i2, i3] + [i4] + [i5] == c + [i0, i1, i2, i3, i4, i5]
  {
  }

  /** A loop node is traversed by the loop layout. */
  lemma LoopUnfolds(g: Gen, n: Node)
    requires n.kind == LoopStatement
    ensures Traverse(g, n) == TraverseLoop(g, n)
  {
  }

  /** The body `brreak; conttinue;` jumps to the innermost loop's end label, then to its start label. */
  lemma BreakContinueBody(g: Gen, body: Node)
    requires g.loops != []
    requires body == Node(StatementList, "stmt_list", [Node(BreakStatement, "brreak", []), Node(ContinueStatement, "conttinue", [])])
    ensures var (s, e) := g.loops[|g.loops| - 1];
      Traverse(g, body) == g.(code := g.code + [Instruction("goto", "", "", e), Instruction("goto", "", "", s)])
  {
    var (s, e) := g.loops[|g.loops| - 1];
    var brk, cont := body.children[0], body.children[1];
    var ga := Emit(g, Instruction("goto", "", "", e));
    var gb := Emit(ga, Instruction("goto", "", "", s));
    assert Traverse(g, brk) == ga;
    assert Traverse(ga, cont) == gb;
    assert TraverseAll(g, [brk, cont]) == gb by {
      assert [brk, cont][1..] == [cont];
      assert [cont][1..] == [];
      assert TraverseAll(g, [brk, cont]) == TraverseAll(ga, [cont]);
      assert TraverseAll(ga, [cont]) == TraverseAll(gb, []);
    }
    assert body.children == [brk, cont];
    assert gb.code == g.code + [Instruction("goto", "", "", e), Instruction("goto", "", "", s)];
  }

  /** `iif (x) { } ellse { }`: the exit test, the jump over the else part and both labels. */
  lemma IfLayout(g: Gen, x: string)
    ensures var lo := g.labels;
      var empty := Node(StatementList, "stmt_list", []);
      var r := Traverse(g, Node(IfStatement, "iif", [Node(IdentifierNode, x, []), empty, empty]));
      r.code == g.code + [Instruction("ifFalse", x, "", LabelName(lo)), Instruction("goto", "", "", LabelName(lo + 1)),
                          Instruction("label", "", "", LabelName(lo)), Instruction("label", "", "", LabelName(lo + 1))]
      && r.labels == lo + 2
  {
    var lo := g.labels;
    var empty := Node(StatementList, "stmt_list", []);
    var n := Node(IfStatement, "iif", [Node(IdentifierNode, x, []), empty, empty]);
    var g2 := g.(labels := lo + 2);
    assert EvaluateFirst(g2, n) == (g2, x);
    var g4 := Emit(g2, Instruction("ifFalse", x, "", LabelName(lo)));
    assert Traverse(g4, empty) == g4;
    var g6 := Emit(Emit(g4, Instruction("goto", "", "", LabelName(lo + 1))), Instruction("label", "", "", LabelName(lo)));
    assert Traverse(g6, empty) == g6;
    assert Traverse(g, n) == TraverseIf(g, n);
  }

  /**
    `prrint(a op b)` (or `san`) with names or numbers as operands: the
    operation into the next temporary, then one `print` of that temporary.
   */
  lemma PrintOfBinary(g: Gen, callee: string, op: string, a: Node, b: Node)
    requires callee == "prrint" || callee == "san"
    requires op != ""
    requires a.kind in {IdentifierNode, NumberNode} && b.kind in {IdentifierNode, NumberNode}
    ensures var t := TempName(g.temps);
      var r := Traverse(g, Node(FunctionCall, callee, [Node(ExpressionNode, op, [a, b])]));
      r.code == g.code + [Instruction(op, a.value, b.value, t), Instruction("print", t, "", "")]
      && r.temps == g.temps + 1 && r.labels == g.labels
  {
    var e := Node(ExpressionNode, op, [a, b]);
    BinaryOfLeaves(g, op, a, b);
  }

  /** An operation on two names or numbers: one instruction into the next temporary, which is its value. */
  lemma BinaryOfLeaves(g: Gen, op: string, a: Node, b: Node)
    requires op != ""
    requires a.kind in {IdentifierNode, NumberNode} && b.kind in {IdentifierNode, NumberNode}
    ensures var t := TempName(g.temps);
      Evaluate(g, Node(ExpressionNode, op, [a, b])) == (Emit(g.(temps := g.temps + 1), Instruction(op, a.value, b.value, t)), t)
  {
    var e := Node(ExpressionNode, op, [a, b]);
    assert e.children[0] == a && e.children[1] == b;
    LeafValue(g, a);
    LeafValue(g, b);
    EvaluatePair(g, e);
  }

  /** A two-child expression: the left operand's code, the right's, then the operation into a fresh temporary. */
  lemma EvaluatePair(g: Gen, n: Node)
    requires n.kind == ExpressionNode && |n.children| == 2
    ensures var (g1, l) := Evaluate(g, n.children[0]);
      var (g2, r) := Evaluate(g1, n.children[1]);
      var t := TempName(g2.temps);
      Evaluate(g, n) == (Emit(g2.(temps := g2.temps + 1), Instruction(if n.value == "" then "+" else n.value, l, r, t)), t)
  {
  }

  /** A name or number is its own value and emits nothing. */
  lemma LeafValue(g: Gen, a: Node)
    requires a.kind == IdentifierNode || a.kind == NumberNode
    ensures Evaluate(g, a) == (g, a.value)
  {
  }

  /** How many binary operations an expression performs: each takes one temporary. */
  function Operations(n: Node): nat
    decreases n
  {
    if n.kind == ExpressionNode && |n.children| == 2 then Operations(n.children[0]) + Operations(n.children[1]) + 1 else 0
  }

  /**
    Where an expression's value is found after evaluating it with the
    temporary counter at `k`: a name or number is its own text, an
    operation is the last temporary it takes, a string literal is "".
   */
  function ValueName(k: nat, n: Node): string {
    if n.kind == IdentifierNode || n.kind == NumberNode then n.value
    else if n.kind == ExpressionNode && |n.children| == 2 then TempName(k + Operations(n) - 1)
    else ""
  }

  /** Evaluating a parser-built expression takes one temporary per operation and yields its value's name. */
  lemma {:induction false} EvaluateValue(g: Gen, n: Node)
    requires IsExpr(n)
    ensures Evaluate(g, n).0.temps == g.temps + Operations(n)
    ensures Evaluate(g, n).1 == ValueName(g.temps, n)
    decreases n
  {
    if n.kind == ExpressionNode && |n.children| == 2 {
      var g1 := Evaluate(g, n.children[0]).0;
      EvaluateValue(g, n.children[0]);
      EvaluateValue(g1, n.children[1]);
    }
  }

  /**
    `prrint(e)` or `san(e)`: the code of `e`, which computes exactly its
    fresh temporaries, then one `print` of the name holding its value.
   */
  lemma PrintCall(g: Gen, callee: string, e: Node)
    requires callee == "prrint" || callee == "san"
    requires IsExpr(e)
    ensures var r := Traverse(g, Node(FunctionCall, callee, [e]));
      r.code == Evaluate(g, e).0.code + [Instruction("print", ValueName(g.temps, e), "", "")]
      && r.temps == g.temps + Operations(e) && r.labels == g.labels
      && TempsKept(g.code, r.code, g.temps, r.temps)
  {
    EvaluateValue(g, e);
    EvaluateAccounted(g, e);
    QuietEmit(g, Evaluate(g, e).0, Instruction("print", ValueName(g.temps, e), "", ""));
  }

  /**
    A call of any other function: the code of its argument, then `param` of
    the name holding the argument's value, then `call` of the function.
   */
  lemma OtherCallPassesParam(g: Gen, f: string, a: Node)
    requires f != "prrint" && f != "san" && IsExpr(a)
    ensures var r := Traverse(g, Node(FunctionCall, f, [a]));
      r.code == Evaluate(g, a).0.code + [Instruction("param", ValueName(g.temps, a), "", ""), Instruction("call", "", "", f)]
      && r.temps == g.temps + Operations(a) && r.labels == g.labels
  {
    EvaluateValue(g, a);
  }

  /**
    `retturn e;`: the code of `e`, which computes exactly its fresh
    temporaries, then one `return` of the name holding its value; a bare
    `retturn;` emits one `return` of "".
   */
  lemma ReturnEmitsValue(g: Gen, children: seq<Node>)
    requires children == [] || (|children| == 1 && IsExpr(children[0]))
    ensures var r := Traverse(g, Node(ReturnStatement, "retturn", children));
      if children == [] then r.code == g.code + [Instruction("return", "", "", "")] && r.temps == g.temps
      else
        r.code == Evaluate(g, children[0]).0.code + [Instruction("return", ValueName(g.temps, children[0]), "", "")]
        && r.temps == g.temps + Operations(children[0]) && r.labels == g.labels
        && TempsKept(g.code, r.code, g.temps, r.temps)
  {
    if children != [] {
      var e := children[0];
      EvaluateValue(g, e);
      EvaluateAccounted(g, e);
      QuietEmit(g, Evaluate(g, e).0, Instruction("return", ValueName(g.temps, e), "", ""));
    }
  }
}

=== FILE: interpreter.dfy ===
/**
  The interpreter (interpreter.cpp): a label pre-pass, then a dispatch
  loop over the instruction list with a name-to-integer store and a
  parameter stack. One iteration of the loop is `Step`; `Run` repeats it
  for at most `fuel` iterations because a program's loops need not end.
  The store and the label table are members the source never clears, so
  both are inputs of `Execute`.
 */
module Interpreter {
  import opened Decimal
  import opened CppArith
  import opened Ir

  /** One line printed by the program: a value, or an operand's text verbatim. */
  datatype Output = OutInt(n: int) | OutText(s: string)

  /** The interpreter's state between two instructions. */
  datatype Machine = Machine(pc: nat, vars: map<string, int>, params: seq<string>, out: seq<Output>)

  /** The interpreter's `isNumber`: non-empty, only digits and minus signs. */
  predicate IsNumeral(s: string) {
    |s| > 0 && forall i :: 0 <= i < |s| ==> IsDigit(s[i]) || s[i] == '-'
  }

  /** `getValue`: a numeral is parsed, a bound name read, anything else is 0. */
  function GetValue(vars: map<string, int>, token: string): (v: int)
    ensures !IsNumeral(token) && token !in vars ==> v == 0
  {
    if IsNumeral(token) then Stoi(token)
    else if token in vars then vars[token]
    else 0
  }

  /** The ops that store a value into `result`. */
  predicate IsAssignOp(op: string) {
    op == "MOV" || op == "=" || IsArithOp(op) || IsCompareOp(op)
  }

  predicate IsArithOp(op: string) {
    op == "+" || op == "-" || op == "*" || op == "/" || op == "%"
  }

  predicate IsCompareOp(op: string) {
    op == ">" || op == "<" || op == ">=" || op == "<=" || op == "==" || op == "!="
  }

  /** A comparison's truth value, converted to `int` as C++ does. */
  function Compare(op: string, a: int, b: int): (v: int)
    requires IsCompareOp(op)
    ensures v == 0 || v == 1
  {
    var holds :=
      if op == ">" then a > b
      else if op == "<" then a < b
      else if op == ">=" then a >= b
      else if op == "<=" then a <= b
      else if op == "==" then a == b
      else a != b;
    if holds then 1 else 0
  }

  /** Arithmetic as executed: truncating `/` and `%`, and 0 for a zero divisor. */
  function Arith(op: string, a: int, b: int): int
    requires IsArithOp(op)
  {
    if op == "+" then a + b
    else if op == "-" then a - b
    else if op == "*" then a * b
    else if b == 0 then 0
    else if op == "/" then TruncDiv(a, b)
    else TruncMod(a, b)
  }

  /** The value an assigning instruction stores, read from the store before it runs. */
  function Assigned(vars: map<string, int>, ins: Instruction): int
    requires IsAssignOp(ins.op)
  {
    var a := GetValue(vars, ins.arg1);
    if ins.op == "MOV" || ins.op == "=" then a
    else if IsArithOp(ins.op) then Arith(ins.op, a, GetValue(vars, ins.arg2))
    else Compare(ins.op, a, GetValue(vars, ins.arg2))
  }

  /**
    The label pre-pass over `code`, starting from the table `labels`: every
    `label` instruction maps its name to its index, a later one overwriting
    an earlier one.
   */
  function LabelTable(labels: map<string, nat>, code: seq<Instruction>): (t: map<string, nat>)
    ensures forall x :: x in t ==> x in labels || exists i :: 0 <= i < |code| && code[i].op == "label" && code[i].result == x && t[x] == i
    decreases |code|
  {
    if code == [] then labels
    else
      var t := LabelTable(labels, code[..|code| - 1]);
      var last := code[|code| - 1];
      if last.op == "label" then t[last.result := |code| - 1] else t
  }

  /** The pre-pass as the source writes it: one loop over the indices. */
  method CollectLabels(labels: map<string, nat>, code: seq<Instruction>) returns (t: map<string, nat>)
    ensures t == LabelTable(labels, code)
  {
    t := labels;
    var i := 0;
    while i < |code|
      invariant 0 <= i <= |code|
      invariant t == LabelTable(labels, code[..i])
    {
      assert code[..i + 1][..i] == code[..i];
      if code[i].op == "label" {
        t := t[code[i].result := i];
      }
      i := i + 1;
    }
    assert code[..|code|] == code;
  }

  /** Where the machine continues after a jump to `target`: the label's index, or the next instruction when the label is unknown. */
  function JumpTo(labels: map<string, nat>, target: string, m: Machine): (r: Machine)
    ensures target in labels ==> r == m.(pc := labels[target])
    ensures target !in labels ==> r == m.(pc := m.pc + 1)
  {
    if target in labels then m.(pc := labels[target]) else m.(pc := m.pc + 1)
  }

  /** The line `print` writes: the stored value of a bound name, else the operand's text. */
  function PrintLine(vars: map<string, int>, arg: string): Output {
    if arg in vars then OutInt(vars[arg]) else OutText(arg)
  }

  /**
    One iteration of the dispatch loop. The jump `pc = labels[x] - 1`
    followed by the loop's `++pc` lands on `labels[x]`. At most one line is
    printed, only the instruction's `result` is written, and only a jump
    moves `pc` anywhere but to the next instruction, and then only to a
    known label's index.
   */
  function Step(code: seq<Instruction>, labels: map<string, nat>, m: Machine): (r: Machine)
    requires m.pc < |code|
    ensures AppendsAtMostOne(m.out, r.out)
    ensures OnlyWrites(m.vars, r.vars, code[m.pc].result)
    ensures code[m.pc].op != "ifFalse" && code[m.pc].op != "goto" ==> r.pc == m.pc + 1
    ensures r.pc == m.pc + 1 || (code[m.pc].result in labels && r.pc == labels[code[m.pc].result])
  {
    var ins := code[m.pc];
    var next := m.(pc := m.pc + 1);
    if IsAssignOp(ins.op) then
      next.(vars := m.vars[ins.result := Assigned(m.vars, ins)])
    else if ins.op == "ifFalse" then
      if GetValue(m.vars, ins.arg1) == 0 then JumpTo(labels, ins.result, m) else next
    else if ins.op == "goto" then
      JumpTo(labels, ins.result, m)
    else if ins.op == "param" then
      next.(params := m.params + [if ins.arg1 != "" then ins.arg1 else ins.result])
    else if ins.op == "call" then
      if ins.result == "prrint" && m.params != [] then
        next.(out := m.out + [OutInt(GetValue(m.vars, m.params[|m.params| - 1]))], params := [])
      else next
    else if ins.op == "print" then
      next.(out := m.out + [PrintLine(m.vars, ins.arg1)])
    else next
  }

  /** `after` is `before`, or `before` with one more line. */
  predicate AppendsAtMostOne(before: seq<Output>, after: seq<Output>) {
    after == before || (|after| == |before| + 1 && after[..|before|] == before)
  }

  /** `after` binds every name but `name` exactly as `before` does. */
  ghost predicate OnlyWrites(before: map<string, int>, after: map<string, int>, name: string) {
    forall x :: x != name ==> (x in after <==> x in before) && (x in before ==> after[x] == before[x])
  }

  /** At most `fuel` iterations, stopping early once `pc` is past the end. */
  function Run(code: seq<Instruction>, labels: map<string, nat>, m: Machine, fuel: nat): (r: Machine)
    ensures m.out <= r.out && |r.out| <= |m.out| + fuel
    decreases fuel
  {
    if fuel == 0 || m.pc >= |code| then m
    else
      Run(code, labels, Step(code, labels, m), fuel - 1)
  }

  /** The machine the source starts from: `pc` 0, an empty parameter stack, nothing printed yet. */
  function Initial(vars: map<string, int>): Machine {
    Machine(0, vars, [], [])
  }

  /** `execute`: the pre-pass into the persisting label table, then at most `fuel` iterations. */
  function Execute(code: seq<Instruction>, vars: map<string, int>, labels: map<string, nat>, fuel: nat): (r: Machine)
    ensures |r.out| <= fuel
  {
    Run(code, LabelTable(labels, code), Initial(vars), fuel)
  }

  /** Once the loop has ended, more fuel changes nothing. */
  lemma {:induction false} RunHalted(code: seq<Instruction>, labels: map<string, nat>, m: Machine, fuel: nat, more: nat)
    ensures Run(code, labels, m, fuel).pc >= |code| ==> Run(code, labels, m, fuel + more) == Run(code, labels, m, fuel)
    decreases fuel
  {
    if m.pc < |code| && fuel > 0 {
      RunHalted(code, labels, Step(code, labels, m), fuel - 1, more);
    }
  }

  /** After one more iteration the run still ends where it would have. */
  lemma RunStep(code: seq<Instruction>, labels: map<string, nat>, m: Machine, fuel: nat, goal: Machine)
    requires fuel > 0 && m.pc < |code| && Run(code, labels, m, fuel) == goal
    ensures Run(code, labels, Step(code, labels, m), fuel - 1) == goal
  {
  }

  /** A run that has no fuel left or has passed the end is where it stops. */
  lemma RunStops(code: seq<Instruction>, labels: map<string, nat>, m: Machine, fuel: nat, goal: Machine)
    requires (fuel == 0 || m.pc >= |code|) && Run(code, labels, m, fuel) == goal
    ensures m == goal
  {
  }

  /** The dispatch loop as the source writes it, counting down the fuel. */
  method ExecuteLoop(code: seq<Instruction>, vars: map<string, int>, labels: map<string, nat>, fuel: nat) returns (r: Machine)
    ensures r == Execute(code, vars, labels, fuel)
  {
    var table := CollectLabels(labels, code);
    r := RunLoop(code, table, Initial(vars), fuel);
  }

  /** The loop `for (pc = …; pc < code.size(); ++pc)`, cut off after `fuel` iterations. */
  method RunLoop(code: seq<Instruction>, labels: map<string, nat>, m: Machine, fuel: nat) returns (r: Machine)
    ensures r == Run(code, labels, m, fuel)
  {
    ghost var goal := Run(code, labels, m, fuel);
    r := m;
    var left := fuel;
    while left > 0 && r.pc < |code|
      invariant Run(code, labels, r, left) == goal
      decreases left
    {
      RunStep(code, labels, r, left, goal);
      r := Step(code, labels, r);
      left := left - 1;
    }
    RunStops(code, labels, r, left, goal);
  }
}

=== FILE: interpreter_props.dfy ===
/**
  Properties of the interpreter: how operands are read, where jumps land,
  what each kind of instruction changes, and how fuel bounds a run.
 */
module InterpreterProps {
  import opened Decimal
  import opened Ir
  import opened Interpreter

  /** Reading back a printed integer (`to_string`) gives the integer: folded constants keep their value. */
  lemma GetValueIntStr(vars: map<string, int>, v: int)
    ensures GetValue(vars, IntStr(v)) == v
  {
    var s := IntStr(v);
    if v < 0 {
      assert s == "-" + NatStr(-v);
    }
    assert IsNumeral(s);
    StoiIntStr(v);
  }

  /** A name (its first character is neither a digit nor '-') reads its binding, or 0 when unbound. */
  lemma GetValueName(vars: map<string, int>, x: string)
    requires x != [] && !IsDigit(x[0]) && x[0] != '-'
    ensures x in vars ==> GetValue(vars, x) == vars[x]
    ensures x !in vars ==> GetValue(vars, x) == 0
  {
    assert !IsNumeral(x);
  }

  /** The pre-pass keeps a name exactly when it was already in the table or some `label` instruction declares it. */
  lemma {:induction false} LabelTableDomain(labels: map<string, nat>, code: seq<Instruction>, x: string)
    ensures x in LabelTable(labels, code) <==> x in labels || exists j :: 0 <= j < |code| && code[j].op == "label" && code[j].result == x
    decreases |code|
  {
    if code != [] {
      var q := code[..|code| - 1];
      LabelTableDomain(labels, q, x);
      if exists j :: 0 <= j < |q| && q[j].op == "label" && q[j].result == x {
        var j :| 0 <= j < |q| && q[j].op == "label" && q[j].result == x;
        assert code[j] == q[j];
      }
      if exists j :: 0 <= j < |code| && code[j].op == "label" && code[j].result == x {
        var j :| 0 <= j < |code| && code[j].op == "label" && code[j].result == x;
        if j < |q| {
          assert q[j] == code[j];
        }
      }
    }
  }

  /** A label declared at `j` and not again later maps to `j`: the last duplicate wins. */
  lemma {:induction false} LabelTableLatest(labels: map<string, nat>, code: seq<Instruction>, j: nat)
    requires j < |code| && code[j].op == "label"
    requires forall k :: j < k < |code| ==> !(code[k].op == "label" && code[k].result == code[j].result)
    ensures code[j].result in LabelTable(labels, code) && LabelTable(labels, code)[code[j].result] == j
    decreases |code|
  {
    if j < |code| - 1 {
      var q := code[..|code| - 1];
      assert q[j] == code[j];
      LabelTableLatest(labels, q, j);
    }
  }

  /** A name no `label` instruction declares keeps the entry it had before the pre-pass. */
  lemma {:induction false} LabelTableKeeps(labels: map<string, nat>, code: seq<Instruction>, x: string)
    requires forall k :: 0 <= k < |code| ==> !(code[k].op == "label" && code[k].result == x)
    ensures x in labels ==> x in LabelTable(labels, code) && LabelTable(labels, code)[x] == labels[x]
    decreases |code|
  {
    if code != [] {
      LabelTableKeeps(labels, code[..|code| - 1], x);
    }
  }

  /** Code without `label` instructions leaves the table as it was. */
  lemma {:induction false} LabelTableWithoutLabels(labels: map<string, nat>, code: seq<Instruction>)
    requires forall k :: 0 <= k < |code| ==> code[k].op != "label"
    ensures LabelTable(labels, code) == labels
    decreases |code|
  {
    if code != [] {
      LabelTableWithoutLabels(labels, code[..|code| - 1]);
    }
  }

  /** Starting from an empty table, every entry points at a `label` instruction of that name. */
  lemma {:induction false} LabelTableTargets(code: seq<Instruction>, x: string)
    requires x in LabelTable(map[], code)
    ensures LabelTable(map[], code)[x] < |code|
    ensures code[LabelTable(map[], code)[x]].op == "label" && code[LabelTable(map[], code)[x]].result == x
    decreases |code|
  {
    var q := code[..|code| - 1];
    var last := code[|code| - 1];
    if !(last.op == "label" && last.result == x) {
      LabelTableTargets(q, x);
      assert code[LabelTable(map[], q)[x]] == q[LabelTable(map[], q)[x]];
    }
  }

  /** An assigning op stores `Assigned` into `result` and changes nothing else but `pc`. */
  lemma AssignWritesResult(code: seq<Instruction>, labels: map<string, nat>, m: Machine)
    requires m.pc < |code| && IsAssignOp(code[m.pc].op)
    ensures Step(code, labels, m) == m.(pc := m.pc + 1, vars := m.vars[code[m.pc].result := Assigned(m.vars, code[m.pc])])
  {
  }

  /** A comparison stores 1 when it holds and 0 when it does not. */
  lemma CompareStoresTruth(vars: map<string, int>, ins: Instruction)
    requires IsCompareOp(ins.op)
    ensures var a, b := GetValue(vars, ins.arg1), GetValue(vars, ins.arg2);
      var holds := match ins.op
        case ">" => a > b
        case "<" => a < b
        case ">=" => a >= b
        case "<=" => a <= b
        case "==" => a == b
        case _ => a != b;
      Assigned(vars, ins) == (if holds then 1 else 0)
  {
  }

  /** `/` and `%` store 0 when the divisor reads as 0. */
  lemma DivisionByZeroStoresZero(vars: map<string, int>, ins: Instruction)
    requires (ins.op == "/" || ins.op == "%") && GetValue(vars, ins.arg2) == 0
    ensures Assigned(vars, ins) == 0
  {
  }

  /** `ifFalse` jumps exactly when its operand reads as 0 and its label is known; nothing else changes. */
  lemma IfFalseJumps(code: seq<Instruction>, labels: map<string, nat>, m: Machine)
    requires m.pc < |code| && code[m.pc].op == "ifFalse"
    ensures var r := Step(code, labels, m);
      var jumps := GetValue(m.vars, code[m.pc].arg1) == 0 && code[m.pc].result in labels;
      r == m.(pc := if jumps then labels[code[m.pc].result] else m.pc + 1)
  {
  }

  /** `goto` jumps whenever its label is known; nothing else changes. */
  lemma GotoJumps(code: seq<Instruction>, labels: map<string, nat>, m: Machine)
    requires m.pc < |code| && code[m.pc].op == "goto"
    ensures var r := Step(code, labels, m);
      r == m.(pc := if code[m.pc].result in labels then labels[code[m.pc].result] else m.pc + 1)
  {
  }

  /** With the table the pre-pass builds from scratch, a taken jump lands on a `label` of the target's name. */
  lemma JumpLandsOnLabel(code: seq<Instruction>, m: Machine)
    requires m.pc < |code| && code[m.pc].op in {"ifFalse", "goto"}
    ensures var r := Step(code, LabelTable(map[], code), m);
      r.pc == m.pc + 1 || (r.pc < |code| && code[r.pc].op == "label" && code[r.pc].result == code[m.pc].result)
  {
    var x := code[m.pc].result;
    if x in LabelTable(map[], code) {
      LabelTableTargets(code, x);
    }
  }

  /** `param` pushes its operand, or its result when the operand is empty. */
  lemma ParamPushes(code: seq<Instruction>, labels: map<string, nat>, m: Machine)
    requires m.pc < |code| && code[m.pc].op == "param"
    ensures var ins := code[m.pc];
      Step(code, labels, m) == m.(pc := m.pc + 1, params := m.params + [if ins.arg1 != "" then ins.arg1 else ins.result])
  {
  }

  /**
    `call` prints the value of the top parameter and empties the stack only
    for the callee "prrint" with a non-empty stack; any other call does nothing.
   */
  lemma CallPrintsOnlyPrrint(code: seq<Instruction>, labels: map<string, nat>, m: Machine)
    requires m.pc < |code| && code[m.pc].op == "call"
    ensures var r := Step(code, labels, m);
      if code[m.pc].result == "prrint" && m.params != [] then
        r == m.(pc := m.pc + 1, params := [], out := m.out + [OutInt(GetValue(m.vars, m.params[|m.params| - 1]))])
      else r == m.(pc := m.pc + 1)
  {
  }

  /** `print` appends exactly one line: the value of a bound name, otherwise the operand's text. */
  lemma PrintAppendsOne(code: seq<Instruction>, labels: map<string, nat>, m: Machine)
    requires m.pc < |code| && code[m.pc].op == "print"
    ensures var r := Step(code, labels, m);
      var x := code[m.pc].arg1;
      r.out == m.out + [if x in m.vars then OutInt(m.vars[x]) else OutText(x)] && r.vars == m.vars && r.pc == m.pc + 1
  {
  }

  /** The empty op that folding produces, `label`, `return` and any unknown op only advance `pc`: `return` does not halt. */
  lemma InertOpsOnlyAdvance(code: seq<Instruction>, labels: map<string, nat>, m: Machine)
    requires m.pc < |code|
    requires var op := code[m.pc].op;
      !IsAssignOp(op) && op !in {"ifFalse", "goto", "param", "call", "print"}
    ensures Step(code, labels, m) == m.(pc := m.pc + 1)
  {
  }

  /** A run with fuel left that has not passed the end takes one iteration and continues. */
  lemma RunUnfolds(code: seq<Instruction>, labels: map<string, nat>, m: Machine, fuel: nat)
    requires fuel > 0 && m.pc < |code|
    ensures Run(code, labels, m, fuel) == Run(code, labels, Step(code, labels, m), fuel - 1)
  {
  }

  /** More fuel only extends what is printed. */
  lemma {:induction false} RunOutputGrows(code: seq<Instruction>, labels: map<string, nat>, m: Machine, fuel: nat, more: nat)
    ensures Run(code, labels, m, fuel).out <= Run(code, labels, m, fuel + more).out
    decreases fuel
  {
    if fuel > 0 && m.pc < |code| {
      RunOutputGrows(code, labels, Step(code, labels, m), fuel - 1, more);
    } else if m.pc < |code| && more > 0 {
      assert Run(code, labels, m, fuel) == m;
    }
  }

  /** A straight-line program without jumps, run with enough fuel, executes each instruction once and halts. */
  lemma {:induction false} StraightLineHalts(code: seq<Instruction>, labels: map<string, nat>, m: Machine, fuel: nat)
    requires forall k :: 0 <= k < |code| ==> code[k].op != "ifFalse" && code[k].op != "goto"
    requires m.pc + fuel >= |code|
    ensures Run(code, labels, m, fuel).pc >= |code|
    decreases fuel
  {
    if fuel > 0 && m.pc < |code| {
      StraightLineHalts(code, labels, Step(code, labels, m), fuel - 1);
    }
  }

  // ---------------------------------------------------------------------
  // Small programs run to the end.

  /** A one-digit numeral reads as its digit. */
  lemma ReadsDigit(vars: map<string, int>, c: char)
    requires IsDigit(c)
    ensures GetValue(vars, [c]) == DigitValue(c)
  {
    assert [c][..0] == [];
    assert IsNumeral([c]);
    StoiDigits([c]);
  }

  /** `return 1` followed by `print x`. */
  const ReturnThenPrint: seq<Instruction> :=
    [Instruction("return", "1", "", ""), Instruction("print", "x", "", "")]

  /** `return` does not halt the interpreter: the instruction after it still runs. */
  lemma ReturnDoesNotHalt()
    ensures Execute(ReturnThenPrint, map[], map[], 2).out == [OutText("x")]
    ensures Execute(ReturnThenPrint, map[], map[], 2).pc == 2
  {
    var code := ReturnThenPrint;
    LabelTableWithoutLabels(map[], code);
    var m0 := Initial(map[]);
    RunUnfolds(code, map[], m0, 2);
    InertOpsOnlyAdvance(code, map[], m0);
    var m1 := m0.(pc := 1);
    RunUnfolds(code, map[], m1, 1);
    PrintAppendsOne(code, map[], m1);
  }

  /** `x = 7 / 0` followed by `print x`. */
  const DivideByZero: seq<Instruction> :=
    [Instruction("/", "7", "0", "x"), Instruction("print", "x", "", "")]

  /** Dividing by zero does not stop the program: the quotient is stored as 0 and printed. */
  lemma DivisionByZeroPrintsZero()
    ensures Execute(DivideByZero, map[], map[], 2).out == [OutInt(0)]
  {
    var code := DivideByZero;
    LabelTableWithoutLabels(map[], code);
    ReadsDigit(map[], '0');
    var m0 := Initial(map[]);
    RunUnfolds(code, map[], m0, 2);
    AssignWritesResult(code, map[], m0);
    DivisionByZeroStoresZero(map[], code[0]);
    var m1 := m0.(pc := 1, vars := map["x" := 0]);
    RunUnfolds(code, map[], m1, 1);
    PrintAppendsOne(code, map[], m1);
  }

  /** `param 5`, a call of some other function `f`, then a call of `prrint`. */
  const ParamThroughOtherCall: seq<Instruction> :=
    [Instruction("param", "5", "", ""), Instruction("call", "", "", "f"), Instruction("call", "", "", "prrint")]

  /** A call of another function leaves the parameter stack as it was, so the later `prrint` call prints 5 and empties it. */
  lemma OtherCallKeepsParameters()
    ensures var r := Execute(ParamThroughOtherCall, map[], map[], 3);
      r.out == [OutInt(5)] && r.params == []
  {
    var code := ParamThroughOtherCall;
    LabelTableWithoutLabels(map[], code);
    ReadsDigit(map[], '5');
    var m0 := Initial(map[]);
    RunUnfolds(code, map[], m0, 3);
    ParamPushes(code, map[], m0);
    var m1 := m0.(pc := 1, params := ["5"]);
    RunUnfolds(code, map[], m1, 2);
    CallPrintsOnlyPrrint(code, map[], m1);
    var m2 := m1.(pc := 2);
    RunUnfolds(code, map[], m2, 1);
    CallPrintsOnlyPrrint(code, map[], m2);
  }

  /** The code `loop (x) { prrint(x); x = x - 1; }` generates. */
  const CountDown: seq<Instruction> :=
    [Instruction("label", "", "", "L0"), Instruction("ifFalse", "x", "", "L1"), Instruction("print", "x", "", ""),
     Instruction("-", "x", "1", "t0"), Instruction("=", "t0", "", "x"), Instruction("goto", "", "", "L0"),
     Instruction("label", "", "", "L1")]

  /** What counting down from n prints: n, n-1, …, 1. */
  function Down(n: nat): seq<Output> {
    if n == 0 then [] else [OutInt(n)] + Down(n - 1)
  }

  /** The loop's two labels, as the pre-pass finds them. */
  predicate CountDownLabels(labels: map<string, nat>) {
    "L0" in labels && labels["L0"] == 0 && "L1" in labels && labels["L1"] == 6
  }

  lemma CountDownTable()
    ensures CountDownLabels(LabelTable(map[], CountDown))
  {
    LabelTableLatest(map[], CountDown, 0);
    LabelTableLatest(map[], CountDown, 6);
  }

  /** `x` reads its binding: it is a name, not a numeral. */
  lemma ReadsX(vars: map<string, int>)
    requires "x" in vars
    ensures GetValue(vars, "x") == vars["x"]
  {
    GetValueName(vars, "x");
  }

  /** A run that has an instruction and fuel left continues from the machine one iteration produces. */
  lemma RunThrough(code: seq<Instruction>, labels: map<string, nat>, m: Machine, fuel: nat, next: Machine)
    requires fuel > 0 && m.pc < |code| && Step(code, labels, m) == next
    ensures Run(code, labels, m, fuel) == Run(code, labels, next, fuel - 1)
  {
  }

  /** The loop's label and the end label only advance `pc`. */
  lemma CountDownLabelStep(labels: map<string, nat>, m: Machine)
    requires m.pc == 0 || m.pc == 6
    ensures Step(CountDown, labels, m) == m.(pc := m.pc + 1)
  {
    InertOpsOnlyAdvance(CountDown, labels, m);
  }

  /** The test jumps to the end label exactly when `x` is 0. */
  lemma CountDownTestStep(labels: map<string, nat>, m: Machine)
    requires CountDownLabels(labels) && m.pc == 1 && "x" in m.vars
    ensures Step(CountDown, labels, m) == m.(pc := if m.vars["x"] == 0 then 6 else 2)
  {
    ReadsX(m.vars);
    IfFalseJumps(CountDown, labels, m);
  }

  /** `print x` prints the value of `x`. */
  lemma CountDownPrintStep(labels: map<string, nat>, m: Machine)
    requires m.pc == 2 && "x" in m.vars
    ensures Step(CountDown, labels, m) == m.(pc := 3, out := m.out + [OutInt(m.vars["x"])])
  {
    PrintAppendsOne(CountDown, labels, m);
  }

  /** `t0 = x - 1`. */
  lemma CountDownSubtractStep(labels: map<string, nat>, m: Machine)
    requires m.pc == 3 && "x" in m.vars
    ensures Step(CountDown, labels, m) == m.(pc := 4, vars := m.vars["t0" := m.vars["x"] - 1])
  {
    ReadsX(m.vars);
    ReadsDigit(m.vars, '1');
    AssignWritesResult(CountDown, labels, m);
  }

  /** `x = t0`. */
  lemma CountDownMoveStep(labels: map<string, nat>, m: Machine)
    requires m.pc == 4 && "t0" in m.vars
    ensures Step(CountDown, labels, m) == m.(pc := 5, vars := m.vars["x" := m.vars["t0"]])
  {
    GetValueName(m.vars, "t0");
    AssignWritesResult(CountDown, labels, m);
  }

  /** The back edge returns to the loop's label. */
  lemma CountDownBackStep(labels: map<string, nat>, m: Machine)
    requires CountDownLabels(labels) && m.pc == 5
    ensures Step(CountDown, labels, m) == m.(pc := 0)
  {
    GotoJumps(CountDown, labels, m);
  }

  /** With `x` at 0 the test jumps to the end label, which is the last instruction: the loop ends. */
  lemma CountDownExit(labels: map<string, nat>, vars: map<string, int>, out: seq<Output>, fuel: nat)
    requires CountDownLabels(labels) && "x" in vars && vars["x"] == 0 && fuel >= 3
    ensures Run(CountDown, labels, Machine(0, vars, [], out), fuel) == Machine(7, vars, [], out)
    ensures out + Down(0) == out
  {
    var m0 := Machine(0, vars, [], out);
    CountDownLabelStep(labels, m0);
    RunThrough(CountDown, labels, m0, fuel, m0.(pc := 1));
    CountDownTestStep(labels, m0.(pc := 1));
    RunThrough(CountDown, labels, m0.(pc := 1), fuel - 1, m0.(pc := 6));
    CountDownLabelStep(labels, m0.(pc := 6));
    RunThrough(CountDown, labels, m0.(pc := 6), fuel - 2, m0.(pc := 7));
  }

  /** The first half of a round with `x` at n > 0: the label, the test that falls through, the print of n. */
  lemma CountDownPrint(labels: map<string, nat>, vars: map<string, int>, out: seq<Output>, fuel: nat, rest: nat, n: nat)
    requires CountDownLabels(labels) && "x" in vars && vars["x"] == n > 0 && fuel == rest + 3
    ensures Run(CountDown, labels, Machine(0, vars, [], out), fuel)
         == Run(CountDown, labels, Machine(3, vars, [], out + [OutInt(n)]), rest)
  {
    var m0 := Machine(0, vars, [], out);
    CountDownLabelStep(labels, m0);
    RunThrough(CountDown, labels, m0, rest + 3, m0.(pc := 1));
    CountDownTestStep(labels, m0.(pc := 1));
    RunThrough(CountDown, labels, m0.(pc := 1), rest + 2, m0.(pc := 2));
    CountDownPrintStep(labels, m0.(pc := 2));
    RunThrough(CountDown, labels, m0.(pc := 2), rest + 1, Machine(3, vars, [], out + [OutInt(n)]));
  }

  /** The second half of a round: t0 receives n - 1, x receives t0, and the back edge returns to the label. */
  lemma CountDownDecrement(labels: map<string, nat>, vars: map<string, int>, out: seq<Output>, fuel: nat, rest: nat, n: nat)
    requires CountDownLabels(labels) && "x" in vars && vars["x"] == n && fuel == rest + 3
    ensures Run(CountDown, labels, Machine(3, vars, [], out), fuel)
         == Run(CountDown, labels, Machine(0, vars["t0" := n - 1]["x" := n - 1], [], out), rest)
  {
    var v1 := vars["t0" := n - 1];
    var v2 := v1["x" := n - 1];
    var m3 := Machine(3, vars, [], out);
    CountDownSubtractStep(labels, m3);
    RunThrough(CountDown, labels, m3, rest + 3, Machine(4, v1, [], out));
    CountDownMoveStep(labels, Machine(4, v1, [], out));
    RunThrough(CountDown, labels, Machine(4, v1, [], out), rest + 2, Machine(5, v2, [], out));
    CountDownBackStep(labels, Machine(5, v2, [], out));
    RunThrough(CountDown, labels, Machine(5, v2, [], out), rest + 1, Machine(0, v2, [], out));
  }

  /** Printing n and then counting down from n - 1 is counting down from n. */
  lemma DownStep(out: seq<Output>, n: nat)
    requires n > 0
    ensures out + [OutInt(n)] + Down(n - 1) == out + Down(n)
  {
  }

  /** One round with `x` at n > 0: n is printed and the loop's label is reached again with `x` at n - 1. */
  lemma CountDownRound(labels: map<string, nat>, vars: map<string, int>, out: seq<Output>, fuel: nat, rest: nat, n: nat)
    requires CountDownLabels(labels) && "x" in vars && vars["x"] == n > 0 && fuel == rest + 6
    ensures Run(CountDown, labels, Machine(0, vars, [], out), fuel)
         == Run(CountDown, labels, Machine(0, vars["t0" := n - 1]["x" := n - 1], [], out + [OutInt(n)]), rest)
  {
    CountDownPrint(labels, vars, out, fuel, rest + 3, n);
    CountDownDecrement(labels, vars, out + [OutInt(n)], rest + 3, rest, n);
  }

  /**
    From the loop's label with `x` at n, enough iterations print n down to
    1 after `out` and end the program.
   */
  lemma {:induction false} CountDownRounds(labels: map<string, nat>, vars: map<string, int>, out: seq<Output>, fuel: nat, n: nat,
                                           r: Machine, printed: seq<Output>)
    requires CountDownLabels(labels) && "x" in vars && vars["x"] == n && fuel >= 6 * n + 3
    requires r == Run(CountDown, labels, Machine(0, vars, [], out), fuel)
    requires printed == out + Down(n)
    ensures r.out == printed && r.pc == |CountDown|
    decreases n
  {
    if n == 0 {
      CountDownExit(labels, vars, out, fuel);
    } else {
      CountDownRound(labels, vars, out, fuel, fuel - 6, n);
      DownStep(out, n);
      CountDownRounds(labels, vars["t0" := n - 1]["x" := n - 1], out + [OutInt(n)], fuel - 6, n - 1, r, printed);
    }
  }

  /** `loop (x) { prrint(x); x = x - 1; }` started with x = n prints n, n-1, …, 1 and has halted within 6n + 3 iterations. */
  lemma CountDownPrintsDown(vars: map<string, int>, n: nat)
    requires "x" in vars && vars["x"] == n
    ensures var r := Execute(CountDown, vars, map[], 6 * n + 3);
      r.out == Down(n) && r.pc == |CountDown|
  {
    CountDownTable();
    var labels := LabelTable(map[], CountDown);
    CountDownRounds(labels, vars, [], 6 * n + 3, n, Run(CountDown, labels, Initial(vars), 6 * n + 3), Down(n));
  }
}

=== FILE: ir.dfy ===
/**
  The three-address instruction list (icg.h) shared by the code generator,
  the optimizer and the interpreter, and the names of the generator's
  temporaries and labels.
 */
module Ir {
  import opened Decimal

  /**
    `op` is kept as text: the generator emits `=`, `ifFalse`, `goto`,
    `label`, `return`, `print`, `param`, `call` and the binary operators;
    folding produces the empty op.
   */
  datatype Instruction = Instruction(op: string, arg1: string, arg2: string, result: string)

  /** `newTemp`: `t` followed by the counter in decimal. */
  function TempName(k: nat): (s: string)
    ensures |s| >= 2 && s[0] == 't' && IsDigits(s[1..])
  {
    var s := "t" + NatStr(k);
    assert s[1..] == NatStr(k);
    s
  }

  /** `newLabel`: `L` followed by the counter in decimal. */
  function LabelName(k: nat): (s: string)
    ensures |s| >= 2 && s[0] == 'L' && IsDigits(s[1..])
  {
    var s := "L" + NatStr(k);
    assert s[1..] == NatStr(k);
    s
  }

  lemma TempNameInjective(a: nat, b: nat)
    ensures TempName(a) == TempName(b) <==> a == b
  {
    if TempName(a) == TempName(b) {
      assert TempName(a)[1..] == NatStr(a);
      assert TempName(b)[1..] == NatStr(b);
      NatStrInjective(a, b);
    }
  }

  lemma LabelNameInjective(a: nat, b: nat)
    ensures LabelName(a) == LabelName(b) <==> a == b
  {
    if LabelName(a) == LabelName(b) {
      assert LabelName(a)[1..] == NatStr(a);
      assert LabelName(b)[1..] == NatStr(b);
      NatStrInjective(a, b);
    }
  }
}

=== FILE: lexer.dfy ===
/**
  The tokenizer (lexer.cpp). Characters are taken as ASCII, so `isspace`,
  `isalpha`, `isalnum` and `isdigit` are the C-locale classes.
 */
module Lexer {
  import opened Decimal

  datatype TokenKind = Keyword | Identifier | Number | StringLiteral | Operator | Delimiter | Unknown

  datatype Token = Token(kind: TokenKind, text: string)

  /** The eleven reserved words. */
  const Keywords: seq<string> :=
    ["intt", "sttring", "mainn", "retturn", "iif", "ellse",
     "loop", "brreak", "conttinue", "prrint", "san"]

  /** Two-character operators, tried before any single character. */
  const TwoCharOperators: seq<string> := ["==", "!=", "<=", ">=", "=>"]

  const OperatorChars: string := "+-*/=<>"

  const DelimiterChars: string := "(){};,"

  predicate IsKeyword(word: string) {
    word in Keywords
  }

  /** C-locale `isspace`: blank, tab, newline, vertical tab, form feed, carriage return. */
  predicate IsSpace(c: char) {
    c == ' ' || 9 <= c as int <= 13
  }

  predicate IsAlpha(c: char) {
    'a' <= c <= 'z' || 'A' <= c <= 'Z'
  }

  predicate IsWordStart(c: char) {
    IsAlpha(c) || c == '_'
  }

  predicate IsWordChar(c: char) {
    IsAlpha(c) || IsDigit(c) || c == '_'
  }

  /** A character that no rule of the tokenizer claims. */
  predicate IsUnknownChar(c: char) {
    !IsSpace(c) && !IsWordChar(c) && c != '"' && c !in OperatorChars && c !in DelimiterChars
  }

  /** Text that starts with a letter or `_` and continues with letters, digits or `_`. */
  predicate IsWord(w: string) {
    |w| > 0 && IsWordStart(w[0]) && forall i :: 0 <= i < |w| ==> IsWordChar(w[i])
  }

  /** What a token of each kind may look like. */
  predicate WellFormed(t: Token) {
    match t.kind
    case Keyword => IsWord(t.text) && IsKeyword(t.text)
    case Identifier => IsWord(t.text) && !IsKeyword(t.text)
    case Number => IsDigits(t.text)
    case StringLiteral =>
      |t.text| > 0 && t.text[0] == '"' && forall i :: 0 < i < |t.text| - 1 ==> t.text[i] != '"'
    case Operator => t.text in TwoCharOperators || (|t.text| == 1 && t.text[0] in OperatorChars)
    case Delimiter => |t.text| == 1 && t.text[0] in DelimiterChars
    case Unknown => |t.text| == 1 && IsUnknownChar(t.text[0])
  }

  /** Length of the longest prefix of word characters. */
  function WordRun(s: string): (n: nat)
    ensures n <= |s|
    ensures forall i :: 0 <= i < n ==> IsWordChar(s[i])
    ensures n == |s| || !IsWordChar(s[n])
  {
    if s == [] || !IsWordChar(s[0]) then 0 else 1 + WordRun(s[1..])
  }

  /** Length of the longest prefix without a double quote. */
  function QuoteFreeRun(s: string): (n: nat)
    ensures n <= |s|
    ensures forall i :: 0 <= i < n ==> s[i] != '"'
    ensures n == |s| || s[n] == '"'
  {
    if s == [] || s[0] == '"' then 0 else 1 + QuoteFreeRun(s[1..])
  }

  /**
    Length of a string literal starting at `s[0]`: through the next quote,
    or to the end of the input when the literal is unterminated.
   */
  function LiteralLength(s: string): (n: nat)
    requires |s| > 0 && s[0] == '"'
    ensures 1 <= n <= |s|
    ensures forall i :: 0 < i < n - 1 ==> s[i] != '"'
    ensures n < |s| ==> n >= 2 && s[n - 1] == '"'
    ensures n == |s| ==> (forall i :: 0 < i < |s| - 1 ==> s[i] != '"')
  {
    var k := QuoteFreeRun(s[1..]);
    if 1 + k < |s| then k + 2 else k + 1
  }

  /** A keyword or identifier: the maximal run of word characters. */
  function ScanWord(s: string): (r: (Token, nat))
    requires |s| > 0 && IsWordStart(s[0])
    ensures 1 <= r.1 <= |s| && r.0.text == s[..r.1]
    ensures WellFormed(r.0) && r.0.kind in {Keyword, Identifier}
    ensures r.1 == |s| || !IsWordChar(s[r.1])
  {
    var n := WordRun(s);
    var word := s[..n];
    (Token(if IsKeyword(word) then Keyword else Identifier, word), n)
  }

  /** An operator, a delimiter or a single unknown character. */
  function ScanSymbol(s: string): (r: (Token, nat))
    requires |s| > 0 && !IsSpace(s[0]) && !IsWordStart(s[0]) && !IsDigit(s[0]) && s[0] != '"'
    ensures 1 <= r.1 <= |s| && r.0.text == s[..r.1]
    ensures WellFormed(r.0) && r.0.kind in {Operator, Delimiter, Unknown}
    ensures |s| >= 2 && s[..2] in TwoCharOperators ==> r == (Token(Operator, s[..2]), 2)
    ensures r.0.kind in {Delimiter, Unknown} ==> r.1 == 1
    ensures forall i :: 0 <= i < r.1 ==> !IsSpace(s[i]) && s[i] != '"'
  {
    var c := s[0];
    if |s| >= 2 && s[..2] in TwoCharOperators then
      assert s[1] == s[..2][1];
      (Token(Operator, s[..2]), 2)
    else if c in OperatorChars then
      (Token(Operator, [c]), 1)
    else if c in DelimiterChars then
      (Token(Delimiter, [c]), 1)
    else
      (Token(Unknown, [c]), 1)
  }

  /**
    One iteration of the tokenizer's loop at a non-blank character: the
    token it emits and how many characters it consumes.
   */
  function Scan(s: string): (r: (Token, nat))
    requires |s| > 0 && !IsSpace(s[0])
    ensures 1 <= r.1 <= |s| && r.0.text == s[..r.1]
    ensures WellFormed(r.0)
    ensures r.0.kind in {Keyword, Identifier} <==> IsWordStart(s[0])
    ensures r.0.kind in {Keyword, Identifier} ==> r.1 == |s| || !IsWordChar(s[r.1])
    ensures r.0.kind == Number <==> IsDigit(s[0])
    ensures r.0.kind == Number ==> r.1 == |s| || !IsDigit(s[r.1])
    ensures r.0.kind == StringLiteral <==> s[0] == '"'
    ensures s[0] == '"' ==> r.1 == LiteralLength(s)
    ensures s[0] != '"' ==> forall i :: 0 <= i < r.1 ==> !IsSpace(s[i]) && s[i] != '"'
    ensures |s| >= 2 && s[..2] in TwoCharOperators ==> r == (Token(Operator, s[..2]), 2)
    ensures r.0.kind in {Delimiter, Unknown} ==> r.1 == 1
  {
    var c := s[0];
    if IsWordStart(c) then
      ScanWord(s)
    else if IsDigit(c) then
      var digits := DigitPrefix(s);
      (Token(Number, digits), |digits|)
    else if c == '"' then
      var n := LiteralLength(s);
      (Token(StringLiteral, s[..n]), n)
    else
      ScanSymbol(s)
  }

  /** `tokenize`: never fails; every token it returns is well formed. */
  function Tokenize(s: string): (ts: seq<Token>)
    ensures forall i :: 0 <= i < |ts| ==> WellFormed(ts[i])
    ensures |ts| <= |s|
    decreases |s|
  {
    if s == [] then []
    else if IsSpace(s[0]) then Tokenize(s[1..])
    else
      var (t, n) := Scan(s);
      [t] + Tokenize(s[n..])
  }

  /** The input with every blank outside a string literal removed. */
  function Unblanked(s: string, inLiteral: bool): string
    decreases |s|
  {
    if s == [] then []
    else if inLiteral then [s[0]] + Unblanked(s[1..], s[0] != '"')
    else if IsSpace(s[0]) then Unblanked(s[1..], false)
    else [s[0]] + Unblanked(s[1..], s[0] == '"')
  }

  function Texts(ts: seq<Token>): string {
    if ts == [] then [] else ts[0].text + Texts(ts[1..])
  }

  lemma {:induction false} UnblankedPlain(s: string, n: nat)
    requires n <= |s|
    requires forall i :: 0 <= i < n ==> !IsSpace(s[i]) && s[i] != '"'
    ensures Unblanked(s, false) == s[..n] + Unblanked(s[n..], false)
    decreases n
  {
    if n > 0 {
      UnblankedPlain(s[1..], n - 1);
      assert s[1..][n - 1..] == s[n..];
      assert s[..n] == [s[0]] + s[1..][..n - 1];
    }
  }

  lemma {:induction false} UnblankedInside(t: string)
    ensures var k := QuoteFreeRun(t);
            var m := if k < |t| then k + 1 else k;
            Unblanked(t, true) == t[..m] + Unblanked(t[m..], false)
    decreases |t|
  {
    if t != [] && t[0] != '"' {
      UnblankedInside(t[1..]);
      var k := QuoteFreeRun(t[1..]);
      var m := if k < |t[1..]| then k + 1 else k;
      assert t[1..][m..] == t[m + 1..];
      assert t[..m + 1] == [t[0]] + t[1..][..m];
    }
  }

  lemma UnblankedAfterQuote(s: string, m: nat)
    requires |s| > 0 && s[0] == '"' && m < |s|
    requires Unblanked(s[1..], true) == s[1..][..m] + Unblanked(s[1..][m..], false)
    ensures Unblanked(s, false) == s[..m + 1] + Unblanked(s[m + 1..], false)
  {
    var t := s[1..];
    var u := Unblanked(s[m + 1..], false);
    assert t[m..] == s[m + 1..];
    assert s[..m + 1] == [s[0]] + t[..m];
    Assoc([s[0]], t[..m], u);
  }

  lemma UnblankedLiteral(s: string)
    requires |s| > 0 && s[0] == '"'
    ensures var n := LiteralLength(s); Unblanked(s, false) == s[..n] + Unblanked(s[n..], false)
  {
    UnblankedInside(s[1..]);
    UnblankedAfterQuote(s, LiteralLength(s) - 1);
  }

  lemma Assoc(a: string, b: string, c: string)
    ensures a + (b + c) == (a + b) + c
  {
  }

  lemma UnblankedScan(s: string)
    requires |s| > 0 && !IsSpace(s[0])
    ensures var (t, n) := Scan(s); Unblanked(s, false) == t.text + Unblanked(s[n..], false)
  {
    if s[0] == '"' {
      UnblankedLiteral(s);
    } else {
      UnblankedPlain(s, Scan(s).1);
    }
  }

  /**
    Concatenating the token texts gives back the input with the blanks
    outside string literals removed: no other character is dropped,
    duplicated or reordered.
   */
  lemma {:induction false} TokenizeKeepsText(s: string)
    ensures Texts(Tokenize(s)) == Unblanked(s, false)
    decreases |s|
  {
    if s != [] {
      if IsSpace(s[0]) {
        TokenizeKeepsText(s[1..]);
      } else {
        var (t, n) := Scan(s);
        UnblankedScan(s);
        TokenizeKeepsText(s[n..]);
        assert ([t] + Tokenize(s[n..]))[1..] == Tokenize(s[n..]);
      }
    }
  }

  /** `==` (and every other two-character operator) is one token, never two. */
  lemma TwoCharOperatorFirst(op: string, rest: string)
    requires op in TwoCharOperators
    ensures Tokenize(op + rest) == [Token(Operator, op)] + Tokenize(rest)
  {
    var s := op + rest;
    assert s[..2] == op;
    assert s[2..] == rest;
  }

  /**
    `&`, `|`, `%`, and a `!` not followed by `=`, are each a one-character
    unknown token: the tokenizer has no `&&`, `||` or `%` operator.
   */
  lemma UnknownSymbol(c: char, rest: string)
    requires c == '&' || c == '|' || c == '%' || (c == '!' && (rest == [] || rest[0] != '='))
    ensures Tokenize([c] + rest) == [Token(Unknown, [c])] + Tokenize(rest)
  {
    var s := [c] + rest;
    assert s[1..] == rest;
    assert !IsSpace(c) && !IsWordStart(c) && !IsDigit(c) && c != '"';
    assert c !in OperatorChars && c !in DelimiterChars;
    if |s| >= 2 {
      assert s[..2][0] == c && s[..2][1] == rest[0];
      assert s[..2] !in TwoCharOperators;
    }
    assert ScanSymbol(s) == (Token(Unknown, [c]), 1);
    assert Scan(s) == ScanSymbol(s);
  }

  /** A delimiter is always a token of its own. */
  lemma DelimiterFirst(c: char, rest: string)
    requires c in DelimiterChars
    ensures Tokenize([c] + rest) == [Token(Delimiter, [c])] + Tokenize(rest)
  {
    var s := [c] + rest;
    assert s[1..] == rest;
    assert !IsSpace(c) && !IsWordStart(c) && !IsDigit(c) && c != '"';
    assert c !in OperatorChars;
    if |s| >= 2 {
      assert s[..2][0] == c;
      assert s[..2] !in TwoCharOperators;
    }
    assert ScanSymbol(s) == (Token(Delimiter, [c]), 1);
    assert Scan(s) == ScanSymbol(s);
  }

  /** A word followed by a character that cannot continue it is one keyword or identifier token. */
  lemma WordFirst(w: string, rest: string)
    requires IsWord(w)
    requires rest == [] || !IsWordChar(rest[0])
    ensures Tokenize(w + rest) == [Token(if IsKeyword(w) then Keyword else Identifier, w)] + Tokenize(rest)
  {
    var s := w + rest;
    var n := WordRun(s);
    assert forall i :: 0 <= i < |w| ==> s[i] == w[i];
    assert rest != [] ==> s[|w|] == rest[0];
    assert n == |w|;
    assert s[..n] == w && s[n..] == rest;
    assert Scan(s) == ScanWord(s);
  }
}

=== FILE: optimizer.dfy ===
/**
  The optimizer (optimizer.cpp): one constant-folding pass over the
  instruction list, then one constant-propagation pass over its result.
  Folding turns an instruction into an op-less move of a decimal constant;
  propagation records such moves and substitutes the constant for later
  uses of the name.
 */
module Optimizer {
  import opened Decimal
  import opened CppArith
  import opened Ir

  /** `isNumber`: a non-empty run of ASCII digits, no sign; the same predicate as `Decimal.IsDigits`, under the source's name. */
  predicate IsNumber(s: string) {
    IsDigits(s)
  }

  /** The four operators folding evaluates. */
  predicate IsFoldOp(op: string) {
    op == "+" || op == "-" || op == "*" || op == "/"
  }

  /** Folding rewrites exactly the arithmetic instructions on two digit strings. */
  predicate Foldable(ins: Instruction) {
    IsNumber(ins.arg1) && IsNumber(ins.arg2) && IsFoldOp(ins.op)
  }

  /** The value folding computes; a zero divisor gives 0. */
  function FoldValue(op: string, a: int, b: int): int
    requires IsFoldOp(op)
  {
    if op == "+" then a + b
    else if op == "-" then a - b
    else if op == "*" then a * b
    else if b != 0 then TruncDiv(a, b) else 0
  }

  /** One iteration of `constantFolding`. */
  function FoldOne(ins: Instruction): (r: Instruction)
    ensures r.result == ins.result
    ensures Foldable(ins) ==> r.op == "" && r.arg2 == "" && Stoi(r.arg1) == FoldValue(ins.op, Stoi(ins.arg1), Stoi(ins.arg2))
    ensures !Foldable(ins) ==> r == ins
  {
    if Foldable(ins) then
      var v := FoldValue(ins.op, Stoi(ins.arg1), Stoi(ins.arg2));
      StoiIntStr(v);
      Instruction("", IntStr(v), "", ins.result)
    else ins
  }

  /** `constantFolding`: every instruction folded in place. */
  function Fold(code: seq<Instruction>): (r: seq<Instruction>)
    ensures |r| == |code|
    ensures forall i :: 0 <= i < |code| ==> r[i] == FoldOne(code[i])
  {
    seq(|code|, i requires 0 <= i < |code| => FoldOne(code[i]))
  }

  /** Propagation records exactly the op-less moves of a digit string. */
  predicate Records(ins: Instruction) {
    ins.op == "" && IsNumber(ins.arg1)
  }

  /**
    The constants recorded after the instructions of `p`: each recording
    instruction binds its result to its argument, later ones overriding
    earlier ones. Nothing is ever removed, and every recorded constant is a
    digit string, so a folded negative value is never recorded.
   */
  function Constants(p: seq<Instruction>): (c: map<string, string>)
    ensures forall x :: x in c ==> IsNumber(c[x])
    decreases |p|
  {
    if p == [] then map[]
    else
      var c := Constants(p[..|p| - 1]);
      var last := p[|p| - 1];
      if Records(last) then c[last.result := last.arg1] else c
  }

  /** A name replaced by its recorded constant, if it has one. */
  function Subst(consts: map<string, string>, x: string): string {
    if x in consts then consts[x] else x
  }

  /**
    How propagation rewrites one instruction, given the constants recorded
    before it: a recording instruction stays as it is; any other keeps its
    op and result, and each argument either stays or becomes the constant
    recorded for it.
   */
  function Rewrite(ins: Instruction, consts: map<string, string>): (r: Instruction)
    ensures r.op == ins.op && r.result == ins.result
    ensures Records(ins) ==> r == ins
    ensures r.arg1 == ins.arg1 || (ins.arg1 in consts && r.arg1 == consts[ins.arg1])
    ensures r.arg2 == ins.arg2 || (ins.arg2 in consts && r.arg2 == consts[ins.arg2])
    ensures !Records(ins) && ins.arg1 in consts ==> r.arg1 == consts[ins.arg1]
    ensures !Records(ins) && ins.arg2 in consts ==> r.arg2 == consts[ins.arg2]
  {
    if Records(ins) then ins else ins.(arg1 := Subst(consts, ins.arg1), arg2 := Subst(consts, ins.arg2))
  }

  /** The result of propagation: each instruction rewritten with the constants of the instructions before it. */
  function Propagate(code: seq<Instruction>): (r: seq<Instruction>)
    ensures |r| == |code|
    ensures forall i :: 0 <= i < |code| ==> r[i].op == code[i].op && r[i].result == code[i].result
    ensures forall i :: 0 <= i < |code| && Records(code[i]) ==> r[i] == code[i]
  {
    seq(|code|, i requires 0 <= i < |code| => Rewrite(code[i], Constants(code[..i])))
  }

  /** `constantPropagation`: the source's single pass with one map, agreeing with `Propagate`. */
  method ConstantPropagation(code: seq<Instruction>) returns (r: seq<Instruction>)
    ensures r == Propagate(code)
  {
    var consts: map<string, string> := map[];
    r := [];
    var i := 0;
    while i < |code|
      invariant 0 <= i <= |code| && |r| == i
      invariant consts == Constants(code[..i])
      invariant Rewritten(code, r)
    {
      var ins := code[i];
      var out := ins;
      if ins.op == "" && IsNumber(ins.arg1) {
        consts := consts[ins.result := ins.arg1];
      } else {
        var a1 := if ins.arg1 in consts then consts[ins.arg1] else ins.arg1;
        var a2 := if ins.arg2 in consts then consts[ins.arg2] else ins.arg2;
        out := ins.(arg1 := a1, arg2 := a2);
      }
      RewrittenStep(code, r, out);
      ConstantsStep(code, i);
      r := r + [out];
      i := i + 1;
    }
    RewrittenAll(code, r);
  }

  /** `r` holds the rewritten forms of the first `|r|` instructions of `code`. */
  ghost predicate Rewritten(code: seq<Instruction>, r: seq<Instruction>) {
    |r| <= |code| && forall k :: 0 <= k < |r| ==> r[k] == Rewrite(code[k], Constants(code[..k]))
  }

  lemma RewrittenStep(code: seq<Instruction>, r: seq<Instruction>, out: Instruction)
    requires Rewritten(code, r) && |r| < |code|
    requires out == Rewrite(code[|r|], Constants(code[..|r|]))
    ensures Rewritten(code, r + [out])
  {
    var r' := r + [out];
    forall k | 0 <= k < |r'|
      ensures r'[k] == Rewrite(code[k], Constants(code[..k]))
    {
      if k < |r| {
        assert r'[k] == r[k];
      }
    }
  }

  lemma RewrittenAll(code: seq<Instruction>, r: seq<Instruction>)
    requires Rewritten(code, r) && |r| == |code|
    ensures r == Propagate(code)
  {
    var p := Propagate(code);
    forall k | 0 <= k < |r|
      ensures r[k] == p[k]
    {
    }
  }

  lemma ConstantsStep(code: seq<Instruction>, i: nat)
    requires i < |code|
    ensures Constants(code[..i + 1]) == if Records(code[i]) then Constants(code[..i])[code[i].result := code[i].arg1] else Constants(code[..i])
  {
    assert code[..i + 1][..i] == code[..i];
  }

  /** `optimize`: propagation over the folded copy; the input itself is a value and stays as it was. */
  function Optimize(code: seq<Instruction>): (r: seq<Instruction>)
    ensures |r| == |code|
    ensures forall i :: 0 <= i < |code| ==> r[i].result == code[i].result
    ensures forall i :: 0 <= i < |code| && !Foldable(code[i]) ==> r[i].op == code[i].op
  {
    Propagate(Fold(code))
  }
}

=== FILE: optimizer_props.dfy ===
/**
  Properties of the optimizer: folding is idempotent and touches only the
  instructions it can evaluate; propagation substitutes the latest
  recorded constant and never forgets one.
 */
module OptimizerProps {
  import opened Decimal
  import opened Ir
  import opened Optimizer

  /** A folded instruction has an empty second argument, so folding it again changes nothing. */
  lemma {:induction false} FoldIdempotent(code: seq<Instruction>)
    ensures Fold(Fold(code)) == Fold(code)
  {
    forall i | 0 <= i < |code|
      ensures FoldOne(FoldOne(code[i])) == FoldOne(code[i])
    {
      if Foldable(code[i]) {
        assert !IsNumber(FoldOne(code[i]).arg2);
      }
    }
  }

  /** Folding rewrites an instruction exactly when both arguments are digit strings and the op is arithmetic. */
  lemma FoldChangesExactlyFoldable(ins: Instruction)
    ensures FoldOne(ins) != ins <==> Foldable(ins)
  {
    if Foldable(ins) {
      assert FoldOne(ins).arg2 == "" != ins.arg2;
    }
  }

  /** `/` by a zero literal folds to the constant 0. */
  lemma DivisionByZeroFoldsToZero(a: string, t: string)
    requires IsNumber(a)
    ensures FoldOne(Instruction("/", a, "0", t)) == Instruction("", "0", "", t)
  {
    assert IsNumber("0");
  }

  /** A comparison is never folded, whatever its arguments. */
  lemma ComparisonNotFolded(ins: Instruction)
    requires ins.op in {">", "<", ">=", "<=", "==", "!="}
    ensures FoldOne(ins) == ins
  {
  }

  /**
    The constant recorded for `x` after `p` is the argument of the last
    recording instruction whose result is `x`.
   */
  lemma {:induction false} ConstantsLatest(p: seq<Instruction>, j: nat, x: string)
    requires j < |p| && Records(p[j]) && p[j].result == x
    requires forall k :: j < k < |p| ==> !(Records(p[k]) && p[k].result == x)
    ensures x in Constants(p) && Constants(p)[x] == p[j].arg1
    decreases |p|
  {
    if j < |p| - 1 {
      var q := p[..|p| - 1];
      assert q[j] == p[j];
      ConstantsLatest(q, j, x);
    }
  }

  /** A name has a recorded constant only if some recording instruction wrote it. */
  lemma {:induction false} ConstantsRecorded(p: seq<Instruction>, x: string)
    requires x in Constants(p)
    ensures exists j :: 0 <= j < |p| && Records(p[j]) && p[j].result == x && Constants(p)[x] == p[j].arg1
    decreases |p|
  {
    var last := p[|p| - 1];
    if !(Records(last) && last.result == x) {
      var q := p[..|p| - 1];
      ConstantsRecorded(q, x);
      var j :| 0 <= j < |q| && Records(q[j]) && q[j].result == x && Constants(q)[x] == q[j].arg1;
      assert p[j] == q[j];
    }
  }

  /** Without a recording instruction no constant is ever recorded. */
  lemma {:induction false} ConstantsWithoutRecords(p: seq<Instruction>)
    requires forall i :: 0 <= i < |p| ==> !Records(p[i])
    ensures Constants(p) == map[]
    decreases |p|
  {
    if p != [] {
      ConstantsWithoutRecords(p[..|p| - 1]);
    }
  }

  /** Code that has nothing to fold and nothing to record comes out of the optimizer unchanged. */
  lemma NothingToOptimize(code: seq<Instruction>)
    requires forall i :: 0 <= i < |code| ==> !Foldable(code[i]) && !Records(code[i])
    ensures Optimize(code) == code
  {
    assert Fold(code) == code;
    forall i | 0 <= i < |code|
      ensures Propagate(code)[i] == code[i]
    {
      ConstantsWithoutRecords(code[..i]);
    }
  }

  // ---------------------------------------------------------------------
  // Small programs, one instruction at a time.

  /** A one-digit numeral is a digit string whose `stoi` is its digit and whose `to_string` gives it back. */
  lemma Digit(c: char)
    requires IsDigit(c)
    ensures IsNumber([c]) && Stoi([c]) == DigitValue(c) && IntStr(DigitValue(c)) == [c]
  {
    assert [c][..0] == [];
    StoiDigits([c]);
  }

  /** Two digit strings under a folding operator become the op-less move of the computed value. */
  lemma FoldLiterals(ins: Instruction, v: int)
    requires IsFoldOp(ins.op) && IsNumber(ins.arg1) && IsNumber(ins.arg2)
    requires FoldValue(ins.op, Stoi(ins.arg1), Stoi(ins.arg2)) == v
    ensures FoldOne(ins) == Instruction("", IntStr(v), "", ins.result)
  {
  }

  /** An instruction whose first argument is empty or starts with a non-digit is not folded. */
  lemma FoldSkipsName(ins: Instruction)
    requires ins.arg1 == [] || !IsDigit(ins.arg1[0])
    ensures FoldOne(ins) == ins
  {
  }

  /** The instruction at `i` after propagation: rewritten with the constants recorded before it. */
  lemma PropagateAt(code: seq<Instruction>, i: nat)
    requires i < |code|
    ensures Propagate(code)[i] == Rewrite(code[i], Constants(code[..i]))
  {
  }

  /** No constants are recorded before the first instruction. */
  lemma ConstantsNone(code: seq<Instruction>)
    ensures Constants(code[..0]) == map[]
  {
    assert code[..0] == [];
  }

  /** An instruction that is not an op-less move rewrites both arguments through the recorded constants. */
  lemma RewriteOther(ins: Instruction, consts: map<string, string>)
    requires ins.op != ""
    ensures Rewrite(ins, consts) == ins.(arg1 := Subst(consts, ins.arg1), arg2 := Subst(consts, ins.arg2))
  {
  }

  /** The code `intt x = 2 * 3 + 1;` generates. */
  const ProductPlusOne: seq<Instruction> :=
    [Instruction("*", "2", "3", "t0"), Instruction("+", "t0", "1", "t1"), Instruction("=", "t1", "", "x")]

  /** Folding `ProductPlusOne` evaluates only the product. */
  lemma ProductPlusOneFolded()
    ensures Fold(ProductPlusOne) == [Instruction("", "6", "", "t0"), ProductPlusOne[1], ProductPlusOne[2]]
  {
    var code := ProductPlusOne;
    Digit('2');
    Digit('3');
    Digit('6');
    FoldLiterals(code[0], 6);
    FoldSkipsName(code[1]);
    FoldSkipsName(code[2]);
  }

  /**
    `intt x = 2 * 3 + 1;`: folding is a single pass, so the sum whose
    operand only becomes constant during propagation stays an addition.
   */
  lemma SinglePassLeavesArithmetic()
    ensures Optimize(ProductPlusOne)
         == [Instruction("", "6", "", "t0"), Instruction("+", "6", "1", "t1"), Instruction("=", "t1", "", "x")]
  {
    ProductPlusOneFolded();
    var folded := [Instruction("", "6", "", "t0"), ProductPlusOne[1], ProductPlusOne[2]];
    Digit('6');
    ConstantsNone(folded);
    ConstantsStep(folded, 0);
    ConstantsStep(folded, 1);
    var c := map["t0" := "6"];
    assert Constants(folded[..2]) == c;
    PropagateAt(folded, 0);
    PropagateAt(folded, 1);
    PropagateAt(folded, 2);
    RewriteOther(folded[1], c);
    RewriteOther(folded[2], c);
  }

  /**
    Hand-built code, not generator output: an op-less move of 5 into `x`
    (the form folding leaves), a recomputation of `x`, and a print of `x`.
   */
  const RecomputedName: seq<Instruction> :=
    [Instruction("", "5", "", "x"), Instruction("+", "a", "b", "x"), Instruction("print", "x", "", "")]

  /**
    A constant stays recorded after its name is recomputed: the later use
    of `x` still becomes 5.
   */
  lemma StaleConstantPropagated()
    ensures Propagate(RecomputedName)[2] == Instruction("print", "5", "", "")
  {
    var code := RecomputedName;
    Digit('5');
    ConstantsNone(code);
    ConstantsStep(code, 0);
    ConstantsStep(code, 1);
    PropagateAt(code, 2);
    RewriteOther(code[2], map["x" := "5"]);
  }

  /**
    A move with op `=` records nothing, whatever it moves: the constants
    after it are the ones before it.
   */
  lemma MoveNotRecorded(p: seq<Instruction>, ins: Instruction)
    requires ins.op == "="
    ensures Constants(p + [ins]) == Constants(p)
  {
    var code := p + [ins];
    assert code[..|p|] == p;
    assert code[..|p| + 1] == code;
    ConstantsStep(code, |p|);
  }

  /** `x = 5` with op `=` is not recorded: the later use of `x` keeps its name. */
  lemma MoveKeepsName()
    ensures Propagate([Instruction("=", "5", "", "x"), Instruction("print", "x", "", "")])[1] == Instruction("print", "x", "", "")
  {
    var code := [Instruction("=", "5", "", "x"), Instruction("print", "x", "", "")];
    MoveNotRecorded([], code[0]);
    assert [] + [code[0]] == code[..1];
    PropagateAt(code, 1);
  }

  /** The code `prrint(2 - 5);` generates, written out by hand. */
  const NegativeDifference: seq<Instruction> :=
    [Instruction("-", "2", "5", "t0"), Instruction("print", "t0", "", "")]

  /** Folding `2 - 5` gives the text "-3". */
  lemma NegativeDifferenceFolded()
    ensures Fold(NegativeDifference) == [Instruction("", "-3", "", "t0"), NegativeDifference[1]]
  {
    var code := NegativeDifference;
    Digit('2');
    Digit('5');
    Digit('3');
    assert IntStr(-3) == "-" + NatStr(3) == "-3";
    FoldLiterals(code[0], -3);
    FoldSkipsName(code[1]);
  }

  /** `2 - 5` folds to "-3", which is not a digit string, so uses of its temporary keep the name. */
  lemma NegativeFoldNotRecorded()
    ensures Optimize(NegativeDifference) == [Instruction("", "-3", "", "t0"), Instruction("print", "t0", "", "")]
  {
    NegativeDifferenceFolded();
    var folded := [Instruction("", "-3", "", "t0"), NegativeDifference[1]];
    assert !IsDigit(folded[0].arg1[0]);
    ConstantsNone(folded);
    ConstantsStep(folded, 0);
    PropagateAt(folded, 0);
    PropagateAt(folded, 1);
  }
}

=== FILE: parser.dfy ===
/**
  The recursive-descent parser (parser.cpp). Each parse function takes the
  token sequence and a cursor and returns the node it built together with
  the cursor after it, or the syntax error that stops the run. Reading a
  token past the end of the input (undefined in the source) is an error
  here too.
 */
module Parser {
  import opened Lexer
  import opened Syntax
  import opened Results

  datatype Parsed = Parsed(node: Node, next: nat)

  /** `match(kind, value)` would consume the token at `pos`. */
  predicate At(toks: seq<Token>, pos: nat, kind: TokenKind, value: string) {
    pos < |toks| && toks[pos].kind == kind && (value == "" || toks[pos].text == value)
  }

  /** `if (!match(kind, value)) error(what)`: the cursor after the token. */
  function Expect(toks: seq<Token>, pos: nat, kind: TokenKind, value: string, what: string): (r: Result<nat>)
    ensures r.Ok? <==> At(toks, pos, kind, value)
    ensures r.Ok? ==> r.value == pos + 1 <= |toks|
  {
    if At(toks, pos, kind, value) then Ok(pos + 1) else Err("Syntax Error: " + what)
  }

  /** Precedence levels: 4 logic, 3 comparison, 2 term, 1 factor, 0 primary. */
  const ExprLevel: nat := 4

  function OpsAt(level: nat): seq<string>
    requires 1 <= level <= ExprLevel
  {
    if level == 4 then LogicOps
    else if level == 3 then ComparisonOps
    else if level == 2 then TermOps
    else FactorOps
  }

  predicate OperatorAt(toks: seq<Token>, pos: nat, level: nat)
    requires 1 <= level <= ExprLevel
  {
    pos < |toks| && toks[pos].kind == Operator && toks[pos].text in OpsAt(level)
  }

  /** `parseExpr`, which is `parseLogic`. */
  function ParseExpr(toks: seq<Token>, pos: nat): (r: Result<Parsed>)
    requires pos <= |toks|
    ensures r.Ok? ==> pos < r.value.next <= |toks| && IsExpr(r.value.node)
  {
    ParseLevel(toks, pos, ExprLevel)
  }

  /** `parseLogic`, `parseComparison`, `parseTerm`, `parseFactor` and `parsePrimary`. */
  function ParseLevel(toks: seq<Token>, pos: nat, level: nat): (r: Result<Parsed>)
    requires pos <= |toks| && level <= ExprLevel
    ensures r.Ok? ==> pos < r.value.next <= |toks| && IsExpr(r.value.node)
    decreases |toks| - pos, level, 1
  {
    if level == 0 then ParsePrimary(toks, pos)
    else
      var left :- ParseLevel(toks, pos, level - 1);
      ParseChain(toks, level, left.node, left.next)
  }

  /** The loop of one precedence level: folds operands to the left. */
  function ParseChain(toks: seq<Token>, level: nat, left: Node, pos: nat): (r: Result<Parsed>)
    requires 1 <= level <= ExprLevel && pos <= |toks|
    ensures r.Ok? ==> pos <= r.value.next <= |toks|
    ensures r.Ok? && IsExpr(left) ==> IsExpr(r.value.node)
    decreases |toks| - pos, level, 2
  {
    if OperatorAt(toks, pos, level) then
      var right :- ParseLevel(toks, pos + 1, level - 1);
      ParseChain(toks, level, Node(ExpressionNode, toks[pos].text, [left, right.node]), right.next)
    else
      Ok(Parsed(left, pos))
  }

  function ParsePrimary(toks: seq<Token>, pos: nat): (r: Result<Parsed>)
    requires pos <= |toks|
    ensures r.Ok? ==> pos < r.value.next <= |toks| && IsExpr(r.value.node)
    decreases |toks| - pos, 0, 0
  {
    if pos == |toks| then Err("Syntax Error: unexpected end of input")
    else if At(toks, pos, Number, "") then
      Ok(Parsed(Node(NumberNode, toks[pos].text, []), pos + 1))
    else if At(toks, pos, StringLiteral, "") then
      Ok(Parsed(Node(ExpressionNode, toks[pos].text, []), pos + 1))
    else if At(toks, pos, Identifier, "") then
      Ok(Parsed(Node(IdentifierNode, toks[pos].text, []), pos + 1))
    else if At(toks, pos, Delimiter, "(") then
      var inner :- ParseLevel(toks, pos + 1, ExprLevel);
      var close :- Expect(toks, inner.next, Delimiter, ")", "Expected ')' after expression");
      Ok(Parsed(inner.node, close))
    else
      Err("Syntax Error: Invalid factor")
  }

  /** `parseStmtList`: statements up to (not including) a `}` or the end of input. */
  function ParseStmtList(toks: seq<Token>, pos: nat): (r: Result<Parsed>)
    requires pos <= |toks|
    ensures r.Ok? ==> pos <= r.value.next <= |toks| && IsStmtList(r.value.node)
    ensures r.Ok? ==> r.value.next == |toks| || toks[r.value.next].text == "}"
    decreases |toks| - pos, 2
  {
    if pos < |toks| && toks[pos].text != "}" then
      var first :- ParseStmt(toks, pos);
      var rest :- ParseStmtList(toks, first.next);
      Ok(Parsed(Node(StatementList, "stmt_list", [first.node] + rest.node.children), rest.next))
    else
      Ok(Parsed(Node(StatementList, "stmt_list", []), pos))
  }

  /** `parseStmt`: dispatch on the first token, in the source's order. */
  function ParseStmt(toks: seq<Token>, pos: nat): (r: Result<Parsed>)
    requires pos <= |toks|
    ensures r.Ok? ==> pos < r.value.next <= |toks| && IsStmt(r.value.node)
    decreases |toks| - pos, 1
  {
    if At(toks, pos, Keyword, "intt") || At(toks, pos, Keyword, "sttring") then
      ParseDeclaration(toks, pos)
    else if At(toks, pos, Identifier, "") then
      ParseAssignment(toks, pos)
    else if At(toks, pos, Keyword, "retturn") then
      ParseReturn(toks, pos)
    else if At(toks, pos, Keyword, "prrint") || At(toks, pos, Keyword, "san") then
      ParseCall(toks, pos)
    else if At(toks, pos, Keyword, "iif") then
      ParseIf(toks, pos)
    else if At(toks, pos, Keyword, "loop") then
      ParseLoop(toks, pos)
    else if At(toks, pos, Keyword, "brreak") then
      var end :- Expect(toks, pos + 1, Delimiter, ";", "Expected ';' after 'brreak'");
      Ok(Parsed(Node(BreakStatement, "brreak", []), end))
    else if At(toks, pos, Keyword, "conttinue") then
      var end :- Expect(toks, pos + 1, Delimiter, ";", "Expected ';' after 'conttinue'");
      Ok(Parsed(Node(ContinueStatement, "conttinue", []), end))
    else
      Err("Syntax Error: Unknown or invalid statement")
  }

  /** `intt x;`, `intt x = e;` (and the same with `sttring`). */
  function ParseDeclaration(toks: seq<Token>, pos: nat): (r: Result<Parsed>)
    requires At(toks, pos, Keyword, "intt") || At(toks, pos, Keyword, "sttring")
    ensures r.Ok? ==> pos < r.value.next <= |toks| && IsStmt(r.value.node)
    decreases |toks| - pos, 0
  {
    var ty := toks[pos].text;
    if !At(toks, pos + 1, Identifier, "") then Err("Syntax Error: Expected identifier after type")
    else
      var value := ty + " " + toks[pos + 1].text;
      assert value[..|ty| + 1] == ty + " ";
      if At(toks, pos + 2, Operator, "=") then
        var init :- ParseExpr(toks, pos + 3);
        var end :- Expect(toks, init.next, Delimiter, ";", "Expected ';' after declaration");
        Ok(Parsed(Node(Declaration, value, [init.node]), end))
      else
        var end :- Expect(toks, pos + 2, Delimiter, ";", "Expected ';' after declaration");
        Ok(Parsed(Node(Declaration, value, []), end))
  }

  /** `x = e;`: an identifier must be followed by `=`. */
  function ParseAssignment(toks: seq<Token>, pos: nat): (r: Result<Parsed>)
    requires At(toks, pos, Identifier, "")
    ensures r.Ok? ==> pos < r.value.next <= |toks| && IsStmt(r.value.node)
    decreases |toks| - pos, 0
  {
    if At(toks, pos + 1, Operator, "=") then
      var rhs :- ParseExpr(toks, pos + 2);
      var end :- Expect(toks, rhs.next, Delimiter, ";", "Expected ';' after assignment");
      Ok(Parsed(Node(Assignment, toks[pos].text, [rhs.node]), end))
    else
      Err("Syntax Error: Expected '=' after identifier")
  }

  /** `retturn;` or `retturn e;`. */
  function ParseReturn(toks: seq<Token>, pos: nat): (r: Result<Parsed>)
    requires At(toks, pos, Keyword, "retturn")
    ensures r.Ok? ==> pos < r.value.next <= |toks| && IsStmt(r.value.node)
    decreases |toks| - pos, 0
  {
    if pos + 1 == |toks| then Err("Syntax Error: unexpected end of input")
    else if toks[pos + 1].text != ";" then
      var e :- ParseExpr(toks, pos + 1);
      var end :- Expect(toks, e.next, Delimiter, ";", "Expected ';' after retturn");
      Ok(Parsed(Node(ReturnStatement, "retturn", [e.node]), end))
    else
      var end :- Expect(toks, pos + 1, Delimiter, ";", "Expected ';' after retturn");
      Ok(Parsed(Node(ReturnStatement, "retturn", []), end))
  }

  /** `prrint(e);`, `san(e);`, or either with no argument. */
  function ParseCall(toks: seq<Token>, pos: nat): (r: Result<Parsed>)
    requires At(toks, pos, Keyword, "prrint") || At(toks, pos, Keyword, "san")
    ensures r.Ok? ==> pos < r.value.next <= |toks| && IsStmt(r.value.node)
    decreases |toks| - pos, 0
  {
    var callee := toks[pos].text;
    var open :- Expect(toks, pos + 1, Delimiter, "(", "Expected '(' after function name");
    if open == |toks| then Err("Syntax Error: unexpected end of input")
    else if !At(toks, open, Delimiter, ")") then
      var arg :- ParseExpr(toks, open);
      var close :- Expect(toks, arg.next, Delimiter, ")", "Expected ')' after args");
      var end :- Expect(toks, close, Delimiter, ";", "Expected ';' after function call");
      Ok(Parsed(Node(FunctionCall, callee, [arg.node]), end))
    else
      var end :- Expect(toks, open + 1, Delimiter, ";", "Expected ';' after function call");
      Ok(Parsed(Node(FunctionCall, callee, []), end))
  }

  /**
    `{ statements }` after an `iif (…)`, an `ellse` or a `loop (…)`: the
    statement list and the cursor after the closing brace.
   */
  function ParseBlock(toks: seq<Token>, pos: nat, openWhat: string, closeWhat: string): (r: Result<Parsed>)
    ensures r.Ok? ==> pos < r.value.next <= |toks| && IsStmtList(r.value.node)
    ensures r.Ok? ==> At(toks, pos, Delimiter, "{") && At(toks, r.value.next - 1, Delimiter, "}")
    decreases |toks| - pos, 3
  {
    var brace :- Expect(toks, pos, Delimiter, "{", openWhat);
    var body :- ParseStmtList(toks, brace);
    var end :- Expect(toks, body.next, Delimiter, "}", closeWhat);
    Ok(Parsed(body.node, end))
  }

  /** `iif (c) { … }`, optionally followed by `ellse { … }`. */
  function ParseIf(toks: seq<Token>, pos: nat): (r: Result<Parsed>)
    requires At(toks, pos, Keyword, "iif")
    ensures r.Ok? ==> pos < r.value.next <= |toks| && IsStmt(r.value.node)
    decreases |toks| - pos, 0
  {
    var open :- Expect(toks, pos + 1, Delimiter, "(", "Expected '(' after iif");
    var cond :- ParseExpr(toks, open);
    var close :- Expect(toks, cond.next, Delimiter, ")", "Expected ')' after condition");
    var body :- ParseBlock(toks, close, "Expected '{' after iif()", "Expected '}' after if body");
    ParseElse(toks, cond.node, body)
  }

  /** The optional `ellse { … }` after the body of an `iif`. */
  function ParseElse(toks: seq<Token>, cond: Node, body: Parsed): (r: Result<Parsed>)
    requires IsExpr(cond) && IsStmtList(body.node) && body.next <= |toks|
    ensures r.Ok? ==> body.next <= r.value.next <= |toks| && IsStmt(r.value.node)
    decreases |toks| - body.next, 0
  {
    if At(toks, body.next, Keyword, "ellse") then
      var alt :- ParseBlock(toks, body.next + 1, "Expected '{' after ellse", "Expected '}' after else body");
      Ok(Parsed(Node(IfStatement, "iif", [cond, body.node, alt.node]), alt.next))
    else
      Ok(Parsed(Node(IfStatement, "iif", [cond, body.node]), body.next))
  }

  /** `loop (c) { … }`. */
  function ParseLoop(toks: seq<Token>, pos: nat): (r: Result<Parsed>)
    requires At(toks, pos, Keyword, "loop")
    ensures r.Ok? ==> pos < r.value.next <= |toks| && IsStmt(r.value.node)
    decreases |toks| - pos, 0
  {
    var open :- Expect(toks, pos + 1, Delimiter, "(", "Expected '(' after 'loop'");
    var cond :- ParseExpr(toks, open);
    var close :- Expect(toks, cond.next, Delimiter, ")", "Expected ')' after loop condition");
    var body :- ParseBlock(toks, close, "Expected '{' after loop condition", "Expected '}' after loop body");
    Ok(Parsed(Node(LoopStatement, "loop", [cond.node, body.node]), body.next))
  }

  /**
    `parseProgram`: an optional `intt`/`sttring`, then `mainn ( ) {`, the
    statements, and `}`. Whatever follows the closing brace is not read.
   */
  function ParseProgram(toks: seq<Token>): (r: Result<Parsed>)
    ensures r.Ok? ==> IsProgram(r.value.node) && 5 <= r.value.next <= |toks|
    ensures r.Ok? ==> toks[r.value.next - 1] == Token(Delimiter, "}")
  {
    var start := if At(toks, 0, Keyword, "intt") || At(toks, 0, Keyword, "sttring") then 1 else 0;
    var afterMain :- Expect(toks, start, Keyword, "mainn", "Expected 'mainn'");
    var afterOpen :- Expect(toks, afterMain, Delimiter, "(", "Expected '(' after 'mainn'");
    var afterClose :- Expect(toks, afterOpen, Delimiter, ")", "Expected ')' after '('");
    var brace :- Expect(toks, afterClose, Delimiter, "{", "Expected '{' after mainn()");
    ParseMainBody(toks, brace)
  }

  /** The statements of `mainn` after its `{`, and the closing `}`. */
  function ParseMainBody(toks: seq<Token>, brace: nat): (r: Result<Parsed>)
    requires brace <= |toks|
    ensures r.Ok? ==> IsProgram(r.value.node) && brace < r.value.next <= |toks|
    ensures r.Ok? ==> toks[r.value.next - 1] == Token(Delimiter, "}")
  {
    if brace < |toks| && toks[brace].text != "}" then
      var body :- ParseStmtList(toks, brace);
      var end :- Expect(toks, body.next, Delimiter, "}", "Expected '}' at end of mainn");
      Ok(Parsed(Node(ProgramNode, "mainn", [body.node]), end))
    else
      var end :- Expect(toks, brace, Delimiter, "}", "Expected '}' at end of mainn");
      Ok(Parsed(Node(ProgramNode, "mainn", []), end))
  }

  /** `parse()`: the tree, or the syntax error that ends the run. */
  function Parse(toks: seq<Token>): (r: Result<Node>)
    ensures r.Ok? ==> IsProgram(r.value)
    ensures r.Ok? <==> ParseProgram(toks).Ok?
  {
    var p :- ParseProgram(toks);
    Ok(p.node)
  }
}

=== FILE: parser_props.dfy ===
/** Properties of the parser: associativity, precedence, program framing. */
module ParserProps {
  import opened Lexer
  import opened Syntax
  import opened Results
  import opened Parser

  function Id(name: string): Token { Token(Identifier, name) }
  function Op(op: string): Token { Token(Operator, op) }
  function Leaf(name: string): Node { Node(IdentifierNode, name, []) }
  function Bin(op: string, l: Node, r: Node): Node { Node(ExpressionNode, op, [l, r]) }

  // ---------------------------------------------------------------------
  // One precedence level at a time.

  /** A level's loop with no operator of that level at the cursor returns its left operand. */
  lemma ChainEnd(toks: seq<Token>, level: nat, left: Node, pos: nat)
    requires 1 <= level <= ExprLevel && pos <= |toks| && !OperatorAt(toks, pos, level)
    ensures ParseChain(toks, level, left, pos) == Ok(Parsed(left, pos))
  {
  }

  /** An operator of the level combines the left operand with the next operand of the level below. */
  lemma ChainOperator(toks: seq<Token>, level: nat, left: Node, pos: nat, right: Parsed)
    requires 1 <= level <= ExprLevel && pos < |toks| && OperatorAt(toks, pos, level)
    requires ParseLevel(toks, pos + 1, level - 1) == Ok(right)
    ensures right.next <= |toks|
    ensures ParseChain(toks, level, left, pos) == ParseChain(toks, level, Bin(toks[pos].text, left, right.node), right.next)
  {
  }

  /** A level starts with an operand of the level below. */
  lemma LevelFromBelow(toks: seq<Token>, pos: nat, level: nat, x: Parsed)
    requires pos <= |toks| && 1 <= level <= ExprLevel && ParseLevel(toks, pos, level - 1) == Ok(x)
    ensures x.next <= |toks|
    ensures ParseLevel(toks, pos, level) == ParseChain(toks, level, x.node, x.next)
  {
  }

  /** An operand not followed by an operator of a higher level is also the operand of that level. */
  lemma {:induction false} LiftToLevel(toks: seq<Token>, pos: nat, lo: nat, level: nat, x: Parsed)
    requires pos <= |toks| && lo <= level <= ExprLevel
    requires ParseLevel(toks, pos, lo) == Ok(x)
    requires forall k :: lo < k <= level ==> !OperatorAt(toks, x.next, k)
    ensures ParseLevel(toks, pos, level) == Ok(x)
    decreases level
  {
    if level > lo {
      LiftToLevel(toks, pos, lo, level - 1, x);
      LevelFromBelow(toks, pos, level, x);
      ChainEnd(toks, level, x.node, x.next);
    }
  }

  /** An identifier not followed by an operator of levels 1, …, `level` is a whole operand of `level`. */
  lemma Operand(toks: seq<Token>, pos: nat, level: nat)
    requires pos < |toks| && toks[pos].kind == Identifier && level <= ExprLevel
    requires pos + 1 == |toks| || toks[pos + 1].kind != Operator || forall k :: 1 <= k <= level ==> toks[pos + 1].text !in OpsAt(k)
    ensures ParseLevel(toks, pos, level) == Ok(Parsed(Leaf(toks[pos].text), pos + 1))
  {
    assert ParseLevel(toks, pos, 0) == Ok(Parsed(Leaf(toks[pos].text), pos + 1));
    LiftToLevel(toks, pos, 0, level, Parsed(Leaf(toks[pos].text), pos + 1));
  }

  /**
    `( e )`: a parenthesized expression is the node of `e` itself, with no
    wrapper, and the cursor moves past the closing parenthesis.
   */
  lemma ParenthesesAreUnwrapped(toks: seq<Token>, pos: nat, inner: Parsed)
    requires At(toks, pos, Delimiter, "(")
    requires ParseExpr(toks, pos + 1) == Ok(inner)
    requires At(toks, inner.next, Delimiter, ")")
    ensures ParsePrimary(toks, pos) == Ok(Parsed(inner.node, inner.next + 1))
  {
    assert Expect(toks, inner.next, Delimiter, ")", "Expected ')' after expression") == Ok(inner.next + 1);
  }

  /** A missing closing parenthesis is a syntax error. */
  lemma UnclosedParenthesisFails(toks: seq<Token>, pos: nat, inner: Parsed)
    requires At(toks, pos, Delimiter, "(")
    requires ParseExpr(toks, pos + 1) == Ok(inner)
    requires !At(toks, inner.next, Delimiter, ")")
    ensures ParsePrimary(toks, pos).Err?
  {
  }

  /** `a - b - c` groups as `(a - b) - c`. */
  lemma SubtractionIsLeftAssociative()
    ensures ParseExpr([Id("a"), Op("-"), Id("b"), Op("-"), Id("c")], 0)
         == Ok(Parsed(Bin("-", Bin("-", Leaf("a"), Leaf("b")), Leaf("c")), 5))
  {
    var toks := [Id("a"), Op("-"), Id("b"), Op("-"), Id("c")];
    Operand(toks, 0, 1);
    Operand(toks, 2, 1);
    Operand(toks, 4, 1);
    LevelFromBelow(toks, 0, 2, Parsed(Leaf("a"), 1));
    ChainOperator(toks, 2, Leaf("a"), 1, Parsed(Leaf("b"), 3));
    var ab := Bin("-", Leaf("a"), Leaf("b"));
    ChainOperator(toks, 2, ab, 3, Parsed(Leaf("c"), 5));
    ChainEnd(toks, 2, Bin("-", ab, Leaf("c")), 5);
    LiftToLevel(toks, 0, 2, ExprLevel, Parsed(Bin("-", ab, Leaf("c")), 5));
  }

  /** `a + b * c` groups as `a + (b * c)`. */
  lemma ProductBindsTighterOnTheRight()
    ensures ParseExpr([Id("a"), Op("+"), Id("b"), Op("*"), Id("c")], 0)
         == Ok(Parsed(Bin("+", Leaf("a"), Bin("*", Leaf("b"), Leaf("c"))), 5))
  {
    var toks := [Id("a"), Op("+"), Id("b"), Op("*"), Id("c")];
    Operand(toks, 0, 1);
    Operand(toks, 2, 0);
    Operand(toks, 4, 0);
    LevelFromBelow(toks, 2, 1, Parsed(Leaf("b"), 3));
    ChainOperator(toks, 1, Leaf("b"), 3, Parsed(Leaf("c"), 5));
    var bc := Bin("*", Leaf("b"), Leaf("c"));
    ChainEnd(toks, 1, bc, 5);
    LevelFromBelow(toks, 0, 2, Parsed(Leaf("a"), 1));
    ChainOperator(toks, 2, Leaf("a"), 1, Parsed(bc, 5));
    ChainEnd(toks, 2, Bin("+", Leaf("a"), bc), 5);
    LiftToLevel(toks, 0, 2, ExprLevel, Parsed(Bin("+", Leaf("a"), bc), 5));
  }

  /** `a * b + c` groups as `(a * b) + c`. */
  lemma ProductBindsTighterOnTheLeft()
    ensures ParseExpr([Id("a"), Op("*"), Id("b"), Op("+"), Id("c")], 0)
         == Ok(Parsed(Bin("+", Bin("*", Leaf("a"), Leaf("b")), Leaf("c")), 5))
  {
    var toks := [Id("a"), Op("*"), Id("b"), Op("+"), Id("c")];
    Operand(toks, 0, 0);
    Operand(toks, 2, 0);
    Operand(toks, 4, 1);
    LevelFromBelow(toks, 0, 1, Parsed(Leaf("a"), 1));
    ChainOperator(toks, 1, Leaf("a"), 1, Parsed(Leaf("b"), 3));
    var ab := Bin("*", Leaf("a"), Leaf("b"));
    ChainEnd(toks, 1, ab, 3);
    LevelFromBelow(toks, 0, 2, Parsed(ab, 3));
    ChainOperator(toks, 2, ab, 3, Parsed(Leaf("c"), 5));
    ChainEnd(toks, 2, Bin("+", ab, Leaf("c")), 5);
    LiftToLevel(toks, 0, 2, ExprLevel, Parsed(Bin("+", ab, Leaf("c")), 5));
  }

  /** `a < b + c` groups as `a < (b + c)`: sums bind tighter than comparisons. */
  lemma SumBindsTighterThanComparison()
    ensures ParseExpr([Id("a"), Op("<"), Id("b"), Op("+"), Id("c")], 0)
         == Ok(Parsed(Bin("<", Leaf("a"), Bin("+", Leaf("b"), Leaf("c"))), 5))
  {
    var toks := [Id("a"), Op("<"), Id("b"), Op("+"), Id("c")];
    Operand(toks, 0, 2);
    Operand(toks, 2, 1);
    Operand(toks, 4, 1);
    LevelFromBelow(toks, 2, 2, Parsed(Leaf("b"), 3));
    ChainOperator(toks, 2, Leaf("b"), 3, Parsed(Leaf("c"), 5));
    var bc := Bin("+", Leaf("b"), Leaf("c"));
    ChainEnd(toks, 2, bc, 5);
    LevelFromBelow(toks, 0, 3, Parsed(Leaf("a"), 1));
    ChainOperator(toks, 3, Leaf("a"), 1, Parsed(bc, 5));
    ChainEnd(toks, 3, Bin("<", Leaf("a"), bc), 5);
    LiftToLevel(toks, 0, 3, ExprLevel, Parsed(Bin("<", Leaf("a"), bc), 5));
  }

  /**
    The program node gets its statement-list child exactly when the token
    after `{` is not `}`; the optional leading type is skipped.
   */
  lemma ProgramBodyPresence(toks: seq<Token>)
    requires ParseProgram(toks).Ok?
    ensures var brace := if At(toks, 0, Keyword, "intt") || At(toks, 0, Keyword, "sttring") then 4 else 3;
            brace < |toks| && toks[brace] == Token(Delimiter, "{")
            && (|ParseProgram(toks).value.node.children| == 1 <==> toks[brace + 1].text != "}")
  {
  }

  /** `mainn ( ) {` without its closing brace is a syntax error. */
  lemma MissingClosingBraceFails()
    ensures ParseProgram([Token(Keyword, "mainn"), Token(Delimiter, "("), Token(Delimiter, ")"), Token(Delimiter, "{")]).Err?
  {
  }

  /** An identifier that does not start an assignment is a syntax error. */
  lemma IdentifierNeedsAssignment(toks: seq<Token>, pos: nat)
    requires pos <= |toks| && At(toks, pos, Identifier, "") && !At(toks, pos + 1, Operator, "=")
    ensures ParseStmt(toks, pos).Err?
  {
  }

  // ---------------------------------------------------------------------
  // The parser reads no token beyond the one after the construct it builds.

  /** `a` and `b` agree on their first `k` tokens. */
  predicate SamePrefix(a: seq<Token>, b: seq<Token>, k: nat) {
    k <= |a| && k <= |b| && a[..k] == b[..k]
  }

  lemma SamePrefixAt(a: seq<Token>, b: seq<Token>, k: nat)
    requires SamePrefix(a, b, k)
    ensures forall p :: 0 <= p < k ==> a[p] == b[p]
  {
    forall p | 0 <= p < k
      ensures a[p] == b[p]
    {
      assert a[p] == a[..k][p];
    }
  }

  lemma SameAt(a: seq<Token>, b: seq<Token>, k: nat, p: nat)
    requires SamePrefix(a, b, k) && p < k
    ensures a[p] == b[p]
  {
    assert a[p] == a[..k][p];
  }

  lemma SamePrefixShrink(a: seq<Token>, b: seq<Token>, k: nat, j: nat)
    requires SamePrefix(a, b, k) && j <= k
    ensures SamePrefix(a, b, j)
  {
    assert a[..j] == a[..k][..j];
    assert b[..j] == b[..k][..j];
  }

  /** The conclusion shared by the expression- and statement-level lemmas. */
  predicate Settled(r: Result<Parsed>, a: seq<Token>, b: seq<Token>) {
    r.Ok? && r.value.next < |a| && SamePrefix(a, b, r.value.next + 1)
  }

  lemma {:induction false} LevelReadsPrefix(a: seq<Token>, b: seq<Token>, pos: nat, level: nat)
    requires pos <= |a| && level <= ExprLevel
    requires Settled(ParseLevel(a, pos, level), a, b)
    ensures pos <= |b| && ParseLevel(b, pos, level) == ParseLevel(a, pos, level)
    decreases |a| - pos, level, 1
  {
    var x := ParseLevel(a, pos, level).value;
    if level == 0 {
      PrimaryReadsPrefix(a, b, pos);
    } else {
      var left := ParseLevel(a, pos, level - 1).value;
      SamePrefixShrink(a, b, x.next + 1, left.next + 1);
      LevelReadsPrefix(a, b, pos, level - 1);
      ChainReadsPrefix(a, b, level, left.node, left.next);
    }
  }

  lemma {:induction false} ChainReadsPrefix(a: seq<Token>, b: seq<Token>, level: nat, left: Node, pos: nat)
    requires 1 <= level <= ExprLevel && pos <= |a|
    requires Settled(ParseChain(a, level, left, pos), a, b)
    ensures pos <= |b| && ParseChain(b, level, left, pos) == ParseChain(a, level, left, pos)
    decreases |a| - pos, level, 2
  {
    var x := ParseChain(a, level, left, pos).value;
    SamePrefixAt(a, b, x.next + 1);
    assert OperatorAt(a, pos, level) == OperatorAt(b, pos, level);
    if OperatorAt(a, pos, level) {
      var right := ParseLevel(a, pos + 1, level - 1).value;
      SamePrefixShrink(a, b, x.next + 1, right.next + 1);
      LevelReadsPrefix(a, b, pos + 1, level - 1);
      ChainReadsPrefix(a, b, level, Node(ExpressionNode, a[pos].text, [left, right.node]), right.next);
    }
  }

  lemma {:induction false} PrimaryReadsPrefix(a: seq<Token>, b: seq<Token>, pos: nat)
    requires pos <= |a|
    requires Settled(ParsePrimary(a, pos), a, b)
    ensures pos <= |b| && ParsePrimary(b, pos) == ParsePrimary(a, pos)
    decreases |a| - pos, 0, 0
  {
    var x := ParsePrimary(a, pos).value;
    SameAt(a, b, x.next + 1, pos);
    if At(a, pos, Delimiter, "(") {
      var inner := ParseLevel(a, pos + 1, ExprLevel).value;
      SamePrefixShrink(a, b, x.next + 1, inner.next + 1);
      LevelReadsPrefix(a, b, pos + 1, ExprLevel);
      SameAt(a, b, x.next + 1, inner.next);
    }
  }

  lemma {:induction false} StmtListReadsPrefix(a: seq<Token>, b: seq<Token>, pos: nat)
    requires pos <= |a|
    requires Settled(ParseStmtList(a, pos), a, b)
    ensures pos <= |b| && ParseStmtList(b, pos) == ParseStmtList(a, pos)
    decreases |a| - pos, 2, 1
  {
    var x := ParseStmtList(a, pos).value;
    SameAt(a, b, x.next + 1, pos);
    if a[pos].text != "}" {
      NonEmptyListReadsPrefix(a, b, pos);
    } else {
      StmtListEnd(a, pos);
      StmtListEnd(b, pos);
    }
  }

  lemma {:induction false} NonEmptyListReadsPrefix(a: seq<Token>, b: seq<Token>, pos: nat)
    requires pos < |a| && a[pos].text != "}"
    requires Settled(ParseStmtList(a, pos), a, b)
    ensures pos < |b| && ParseStmtList(b, pos) == ParseStmtList(a, pos)
    decreases |a| - pos, 2, 0
  {
    var k := ParseStmtList(a, pos).value.next + 1;
    var first, rest := StmtListParts(a, pos);
    SameAt(a, b, k, pos);
    SamePrefixShrink(a, b, k, first.next + 1);
    StmtReadsPrefix(a, b, pos);
    StmtListReadsPrefix(a, b, first.next);
    StmtListJoin(b, pos, first, rest);
  }

  /** A statement list that does not start at `}` is a statement followed by a statement list. */
  lemma StmtListParts(t: seq<Token>, pos: nat) returns (first: Parsed, rest: Parsed)
    requires pos < |t| && t[pos].text != "}" && ParseStmtList(t, pos).Ok?
    ensures ParseStmt(t, pos) == Ok(first) && first.next <= |t| && ParseStmtList(t, first.next) == Ok(rest)
    ensures ParseStmtList(t, pos) == Ok(Parsed(Node(StatementList, "stmt_list", [first.node] + rest.node.children), rest.next))
  {
    first := ParseStmt(t, pos).value;
    rest := ParseStmtList(t, first.next).value;
  }

  /** A statement followed by a statement list makes a statement list. */
  lemma StmtListJoin(t: seq<Token>, pos: nat, first: Parsed, rest: Parsed)
    requires pos < |t| && t[pos].text != "}"
    requires ParseStmt(t, pos) == Ok(first) && first.next <= |t| && ParseStmtList(t, first.next) == Ok(rest)
    ensures ParseStmtList(t, pos) == Ok(Parsed(Node(StatementList, "stmt_list", [first.node] + rest.node.children), rest.next))
  {
  }

  /** A statement list is empty at `}`. */
  lemma StmtListEnd(t: seq<Token>, pos: nat)
    requires pos < |t| && t[pos].text == "}"
    ensures ParseStmtList(t, pos) == Ok(Parsed(Node(StatementList, "stmt_list", []), pos))
  {
  }

  lemma {:induction false} StmtReadsPrefix(a: seq<Token>, b: seq<Token>, pos: nat)
    requires pos <= |a|
    requires Settled(ParseStmt(a, pos), a, b)
    ensures pos <= |b| && ParseStmt(b, pos) == ParseStmt(a, pos)
    decreases |a| - pos, 1
  {
    var x := ParseStmt(a, pos).value;
    SameAt(a, b, x.next + 1, pos);
    SameAt(a, b, x.next + 1, pos + 1);
    if At(a, pos, Keyword, "intt") || At(a, pos, Keyword, "sttring") {
      DeclarationReadsPrefix(a, b, pos);
    } else if At(a, pos, Identifier, "") {
      AssignmentReadsPrefix(a, b, pos);
    } else if At(a, pos, Keyword, "retturn") {
      ReturnReadsPrefix(a, b, pos);
    } else if At(a, pos, Keyword, "prrint") || At(a, pos, Keyword, "san") {
      CallReadsPrefix(a, b, pos);
    } else if At(a, pos, Keyword, "iif") {
      IfReadsPrefix(a, b, pos);
    } else if At(a, pos, Keyword, "loop") {
      LoopReadsPrefix(a, b, pos);
    }
  }

  lemma {:induction false} DeclarationReadsPrefix(a: seq<Token>, b: seq<Token>, pos: nat)
    requires At(a, pos, Keyword, "intt") || At(a, pos, Keyword, "sttring")
    requires Settled(ParseDeclaration(a, pos), a, b)
    ensures (At(b, pos, Keyword, "intt") || At(b, pos, Keyword, "sttring"))
         && ParseDeclaration(b, pos) == ParseDeclaration(a, pos)
    decreases |a| - pos, 0
  {
    var x := ParseDeclaration(a, pos).value;
    SameAt(a, b, x.next + 1, pos);
    SameAt(a, b, x.next + 1, pos + 1);
    SameAt(a, b, x.next + 1, pos + 2);
    if At(a, pos + 2, Operator, "=") {
      var init := ParseExpr(a, pos + 3).value;
      SamePrefixShrink(a, b, x.next + 1, init.next + 1);
      LevelReadsPrefix(a, b, pos + 3, ExprLevel);
      SameAt(a, b, x.next + 1, init.next);
    }
  }

  lemma {:induction false} AssignmentReadsPrefix(a: seq<Token>, b: seq<Token>, pos: nat)
    requires At(a, pos, Identifier, "")
    requires Settled(ParseAssignment(a, pos), a, b)
    ensures At(b, pos, Identifier, "") && ParseAssignment(b, pos) == ParseAssignment(a, pos)
    decreases |a| - pos, 0
  {
    var x := ParseAssignment(a, pos).value;
    SameAt(a, b, x.next + 1, pos);
    SameAt(a, b, x.next + 1, pos + 1);
    var rhs := ParseExpr(a, pos + 2).value;
    SamePrefixShrink(a, b, x.next + 1, rhs.next + 1);
    LevelReadsPrefix(a, b, pos + 2, ExprLevel);
    SameAt(a, b, x.next + 1, rhs.next);
  }

  lemma {:induction false} ReturnReadsPrefix(a: seq<Token>, b: seq<Token>, pos: nat)
    requires At(a, pos, Keyword, "retturn")
    requires Settled(ParseReturn(a, pos), a, b)
    ensures At(b, pos, Keyword, "retturn") && ParseReturn(b, pos) == ParseReturn(a, pos)
    decreases |a| - pos, 0
  {
    var x := ParseReturn(a, pos).value;
    SameAt(a, b, x.next + 1, pos);
    SameAt(a, b, x.next + 1, pos + 1);
    if a[pos + 1].text != ";" {
      var e := ParseExpr(a, pos + 1).value;
      SamePrefixShrink(a, b, x.next + 1, e.next + 1);
      LevelReadsPrefix(a, b, pos + 1, ExprLevel);
      SameAt(a, b, x.next + 1, e.next);
    }
  }

  lemma {:induction false} CallReadsPrefix(a: seq<Token>, b: seq<Token>, pos: nat)
    requires At(a, pos, Keyword, "prrint") || At(a, pos, Keyword, "san")
    requires Settled(ParseCall(a, pos), a, b)
    ensures (At(b, pos, Keyword, "prrint") || At(b, pos, Keyword, "san"))
         && ParseCall(b, pos) == ParseCall(a, pos)
    decreases |a| - pos, 0
  {
    var x := ParseCall(a, pos).value;
    var k := x.next + 1;
    SameAt(a, b, k, pos);
    SameAt(a, b, k, pos + 1);
    SameAt(a, b, k, pos + 2);
    if !At(a, pos + 2, Delimiter, ")") {
      CallParts(a, pos);
      var arg := ParseExpr(a, pos + 2).value;
      SamePrefixShrink(a, b, k, arg.next + 1);
      LevelReadsPrefix(a, b, pos + 2, ExprLevel);
      SameAt(a, b, k, arg.next);
      SameAt(a, b, k, arg.next + 1);
      CallJoin(b, pos, arg);
    } else {
      SameAt(a, b, k, pos + 3);
    }
  }

  /** A parsed call with an argument has its `(`, argument, `)` and `;`. */
  lemma CallParts(t: seq<Token>, pos: nat)
    requires (At(t, pos, Keyword, "prrint") || At(t, pos, Keyword, "san")) && ParseCall(t, pos).Ok?
    requires !At(t, pos + 2, Delimiter, ")")
    ensures At(t, pos + 1, Delimiter, "(") && pos + 2 < |t| && ParseExpr(t, pos + 2).Ok?
    ensures var arg := ParseExpr(t, pos + 2).value;
      At(t, arg.next, Delimiter, ")") && At(t, arg.next + 1, Delimiter, ";")
      && ParseCall(t, pos) == Ok(Parsed(Node(FunctionCall, t[pos].text, [arg.node]), arg.next + 2))
  {
  }

  /** A call with its `(`, argument, `)` and `;` in place ends after the `;`. */
  lemma CallJoin(t: seq<Token>, pos: nat, arg: Parsed)
    requires At(t, pos, Keyword, "prrint") || At(t, pos, Keyword, "san")
    requires At(t, pos + 1, Delimiter, "(") && pos + 2 < |t| && !At(t, pos + 2, Delimiter, ")")
    requires ParseExpr(t, pos + 2) == Ok(arg) && At(t, arg.next, Delimiter, ")") && At(t, arg.next + 1, Delimiter, ";")
    ensures ParseCall(t, pos) == Ok(Parsed(Node(FunctionCall, t[pos].text, [arg.node]), arg.next + 2))
  {
  }

  lemma {:induction false} BlockReadsPrefix(a: seq<Token>, b: seq<Token>, pos: nat, openWhat: string, closeWhat: string)
    requires Settled(ParseBlock(a, pos, openWhat, closeWhat), a, b)
    ensures ParseBlock(b, pos, openWhat, closeWhat) == ParseBlock(a, pos, openWhat, closeWhat)
    decreases |a| - pos, 3
  {
    var x := ParseBlock(a, pos, openWhat, closeWhat).value;
    var k := x.next + 1;
    BlockShape(a, pos, openWhat, closeWhat);
    var body := ParseStmtList(a, pos + 1).value;
    SameAt(a, b, k, pos);
    SameAt(a, b, k, body.next);
    SamePrefixShrink(a, b, k, body.next + 1);
    StmtListReadsPrefix(a, b, pos + 1);
    BlockShape(b, pos, openWhat, closeWhat);
  }

  /** A block is `{`, a statement list, and `}`. */
  lemma BlockShape(t: seq<Token>, pos: nat, openWhat: string, closeWhat: string)
    ensures ParseBlock(t, pos, openWhat, closeWhat).Ok?
        <==> At(t, pos, Delimiter, "{") && ParseStmtList(t, pos + 1).Ok? && At(t, ParseStmtList(t, pos + 1).value.next, Delimiter, "}")
    ensures ParseBlock(t, pos, openWhat, closeWhat).Ok? ==>
        ParseBlock(t, pos, openWhat, closeWhat).value == Parsed(ParseStmtList(t, pos + 1).value.node, ParseStmtList(t, pos + 1).value.next + 1)
  {
  }

  lemma {:induction false} IfReadsPrefix(a: seq<Token>, b: seq<Token>, pos: nat)
    requires At(a, pos, Keyword, "iif")
    requires Settled(ParseIf(a, pos), a, b)
    ensures At(b, pos, Keyword, "iif") && ParseIf(b, pos) == ParseIf(a, pos)
    decreases |a| - pos, 0
  {
    var x := ParseIf(a, pos).value;
    var k := x.next + 1;
    IfParts(a, pos);
    SameAt(a, b, k, pos);
    SameAt(a, b, k, pos + 1);
    var cond := ParseExpr(a, pos + 2).value;
    SamePrefixShrink(a, b, k, cond.next + 1);
    LevelReadsPrefix(a, b, pos + 2, ExprLevel);
    SameAt(a, b, k, cond.next);
    var close := cond.next + 1;
    var body := ParseBlock(a, close, "Expected '{' after iif()", "Expected '}' after if body").value;
    SamePrefixShrink(a, b, k, body.next + 1);
    BlockReadsPrefix(a, b, close, "Expected '{' after iif()", "Expected '}' after if body");
    ElseReadsPrefix(a, b, cond.node, body);
    IfJoin(b, pos, cond, body);
  }

  /** A parsed `iif` has its `(`, condition, `)` and body block. */
  lemma IfParts(t: seq<Token>, pos: nat)
    requires At(t, pos, Keyword, "iif") && ParseIf(t, pos).Ok?
    ensures At(t, pos + 1, Delimiter, "(") && ParseExpr(t, pos + 2).Ok?
    ensures var cond := ParseExpr(t, pos + 2).value;
      At(t, cond.next, Delimiter, ")")
      && ParseBlock(t, cond.next + 1, "Expected '{' after iif()", "Expected '}' after if body").Ok?
      && ParseIf(t, pos) == ParseElse(t, cond.node, ParseBlock(t, cond.next + 1, "Expected '{' after iif()", "Expected '}' after if body").value)
  {
  }

  /** With its `(`, condition, `)` and body block in place, an `iif` is what follows the body. */
  lemma IfJoin(t: seq<Token>, pos: nat, cond: Parsed, body: Parsed)
    requires At(t, pos, Keyword, "iif") && At(t, pos + 1, Delimiter, "(") && ParseExpr(t, pos + 2) == Ok(cond)
    requires At(t, cond.next, Delimiter, ")")
    requires ParseBlock(t, cond.next + 1, "Expected '{' after iif()", "Expected '}' after if body") == Ok(body)
    ensures ParseIf(t, pos) == ParseElse(t, cond.node, body)
  {
  }

  lemma {:induction false} ElseReadsPrefix(a: seq<Token>, b: seq<Token>, cond: Node, body: Parsed)
    requires IsExpr(cond) && IsStmtList(body.node) && body.next <= |a|
    requires Settled(ParseElse(a, cond, body), a, b)
    ensures body.next <= |b| && ParseElse(b, cond, body) == ParseElse(a, cond, body)
    decreases |a| - body.next, 0
  {
    var x := ParseElse(a, cond, body).value;
    SameAt(a, b, x.next + 1, body.next);
    if At(a, body.next, Keyword, "ellse") {
      BlockReadsPrefix(a, b, body.next + 1, "Expected '{' after ellse", "Expected '}' after else body");
    }
  }

  lemma {:induction false} LoopReadsPrefix(a: seq<Token>, b: seq<Token>, pos: nat)
    requires At(a, pos, Keyword, "loop")
    requires Settled(ParseLoop(a, pos), a, b)
    ensures At(b, pos, Keyword, "loop") && ParseLoop(b, pos) == ParseLoop(a, pos)
    decreases |a| - pos, 0
  {
    var x := ParseLoop(a, pos).value;
    SameAt(a, b, x.next + 1, pos);
    SameAt(a, b, x.next + 1, pos + 1);
    var cond := ParseExpr(a, pos + 2).value;
    SamePrefixShrink(a, b, x.next + 1, cond.next + 1);
    LevelReadsPrefix(a, b, pos + 2, ExprLevel);
    SameAt(a, b, x.next + 1, cond.next);
    BlockReadsPrefix(a, b, cond.next + 1, "Expected '{' after loop condition", "Expected '}' after loop body");
  }

  /**
    Tokens after the closing `}` of `mainn` are never examined: replacing
    them by anything at all gives the same tree.
   */
  lemma TrailingTokensIgnored(toks: seq<Token>, extra: seq<Token>)
    requires ParseProgram(toks).Ok?
    ensures var x := ParseProgram(toks).value;
            ParseProgram(toks[..x.next] + extra) == ParseProgram(toks)
  {
    var x := ParseProgram(toks).value;
    var b := toks[..x.next] + extra;
    assert b[..x.next] == toks[..x.next];
    var start := if At(toks, 0, Keyword, "intt") || At(toks, 0, Keyword, "sttring") then 1 else 0;
    SameAt(toks, b, x.next, 0);
    SameAt(toks, b, x.next, start);
    SameAt(toks, b, x.next, start + 1);
    SameAt(toks, b, x.next, start + 2);
    SameAt(toks, b, x.next, start + 3);
    MainBodyReadsPrefix(toks, b, start + 4);
  }

  lemma MainBodyReadsPrefix(a: seq<Token>, b: seq<Token>, brace: nat)
    requires brace <= |a| && ParseMainBody(a, brace).Ok?
    requires SamePrefix(a, b, ParseMainBody(a, brace).value.next)
    ensures brace <= |b| && ParseMainBody(b, brace) == ParseMainBody(a, brace)
  {
    var x := ParseMainBody(a, brace).value;
    SameAt(a, b, x.next, brace);
    MainBodyShape(a, brace);
    MainBodyShape(b, brace);
    if a[brace].text != "}" {
      var body := ParseStmtList(a, brace).value;
      SamePrefixShrink(a, b, x.next, body.next + 1);
      StmtListReadsPrefix(a, b, brace);
      SameAt(a, b, x.next, body.next);
    }
  }

  /** The body of `mainn` is `}` alone, or a statement list and `}`. */
  lemma MainBodyShape(t: seq<Token>, brace: nat)
    requires brace < |t|
    ensures t[brace].text == "}" ==> (ParseMainBody(t, brace).Ok? <==> At(t, brace, Delimiter, "}"))
    ensures t[brace].text == "}" && ParseMainBody(t, brace).Ok? ==>
      ParseMainBody(t, brace).value == Parsed(Node(ProgramNode, "mainn", []), brace + 1)
    ensures t[brace].text != "}" ==>
      (ParseMainBody(t, brace).Ok? <==> ParseStmtList(t, brace).Ok? && At(t, ParseStmtList(t, brace).value.next, Delimiter, "}"))
    ensures t[brace].text != "}" && ParseMainBody(t, brace).Ok? ==>
      ParseMainBody(t, brace).value == Parsed(Node(ProgramNode, "mainn", [ParseStmtList(t, brace).value.node]), ParseStmtList(t, brace).value.next + 1)
  {
  }
}

=== FILE: parser_round_trip.dfy ===
/**
  The expression grammar of parser.cpp against an independent reference:
  a printer that writes an expression tree as tokens, parenthesising an
  operand only where the precedence levels and left associativity of
  `parseLogic` … `parseFactor` demand it. Every tree the parser can build
  is parsed back from its printed tokens, which states precedence and
  associativity for all expressions at once.
 */
module ParserRoundTrip {
  import opened Lexer
  import opened Syntax
  import opened Results
  import opened Parser
  import opened ParserProps

  /** The precedence level of a binary operator: 1 for `*` `/`, 2 for `+` `-`, 3 for comparisons, 4 for `&&` `||`. */
  function OpLevel(op: string): (k: nat)
    ensures 1 <= k <= ExprLevel
  {
    if op in FactorOps then 1
    else if op in TermOps then 2
    else if op in ComparisonOps then 3
    else 4
  }

  /** An operator belongs to the operator list of exactly its own level. */
  lemma OpLevelExact(op: string, k: nat)
    requires IsBinaryOp(op) && 1 <= k <= ExprLevel
    ensures op in OpsAt(k) <==> k == OpLevel(op)
  {
  }

  /** The level a node binds at: 0 for an operand without operator, its operator's level otherwise. */
  function Prec(n: Node): (k: nat)
    ensures k <= ExprLevel
  {
    if n.kind == ExpressionNode && |n.children| == 2 then OpLevel(n.value) else 0
  }

  /** A size that shrinks from a node to its operands. */
  function Size(n: Node): (s: nat)
    ensures s >= 1
  {
    if |n.children| == 2 then 1 + Size(n.children[0]) + Size(n.children[1]) else 1
  }

  function Paren(s: seq<Token>): seq<Token> {
    [Token(Delimiter, "(")] + s + [Token(Delimiter, ")")]
  }

  /**
    The printed tokens of an expression: a leaf is its one token (a string
    literal keeps its text), an operation is its left operand at its own
    level, the operator, and its right operand one level tighter.
   */
  function Show(n: Node): seq<Token>
    requires IsExpr(n)
    decreases Size(n), 0
  {
    if n.kind == NumberNode then [Token(Number, n.value)]
    else if n.kind == IdentifierNode then [Token(Identifier, n.value)]
    else if n.children == [] then [Token(StringLiteral, n.value)]
    else
      var k := OpLevel(n.value);
      ShowAt(n.children[0], k) + [Token(Operator, n.value)] + ShowAt(n.children[1], k - 1)
  }

  /** The tokens of `n` as an operand of level `k`: in parentheses when `n` binds looser than `k`. */
  function ShowAt(n: Node, k: nat): seq<Token>
    requires IsExpr(n)
    decreases Size(n), 1
  {
    if Prec(n) <= k then Show(n) else Paren(Show(n))
  }

  /** The printed form of a leaf or a parenthesised operand has no operator of its own. */
  lemma ShowAtUnchanged(n: Node, k: nat)
    requires IsExpr(n) && 1 <= k
    ensures Prec(n) != k ==> ShowAt(n, k - 1) == ShowAt(n, k)
  {
  }

  /** An operation is printed as its left operand at its own level, its operator, and its right operand one level tighter. */
  lemma ShowOperation(n: Node)
    requires IsExpr(n) && 1 <= Prec(n)
    ensures |n.children| == 2 && IsBinaryOp(n.value) && IsExpr(n.children[0]) && IsExpr(n.children[1])
    ensures ShowAt(n, Prec(n)) == Show(n)
      == ShowAt(n.children[0], Prec(n)) + [Token(Operator, n.value)] + ShowAt(n.children[1], Prec(n) - 1)
  {
  }

  /** The operand a level-`k` chain starts from: the leftmost operand of the left spine of level-`k` operators. */
  function Bottom(n: Node, k: nat): (b: Node)
    requires IsExpr(n) && 1 <= k <= ExprLevel
    ensures IsExpr(b) && (Prec(n) != k ==> b == n) && (Prec(n) == k ==> Size(b) < Size(n))
    ensures Prec(n) == k ==> |ShowAt(b, k - 1)| < |ShowAt(n, k)|
    decreases Size(n)
  {
    if Prec(n) == k then
      var l := n.children[0];
      ShowOperation(n);
      ShowAtUnchanged(l, k);
      Bottom(l, k)
    else n
  }

  /** The printed bottom of an operation of level `k` is followed, within the operation's tokens, by an operator of level `k`. */
  lemma {:induction false} BottomPrefix(n: Node, k: nat)
    requires IsExpr(n) && 1 <= k <= ExprLevel && Prec(n) == k
    ensures var s, sb := ShowAt(n, k), ShowAt(Bottom(n, k), k - 1);
      |sb| < |s| && sb == s[..|sb|] && s[|sb|].kind == Operator && s[|sb|].text in OpsAt(k)
    decreases Size(n)
  {
    var l, r := n.children[0], n.children[1];
    var sl := ShowAt(l, k);
    var s := ShowAt(n, k);
    ShowOperation(n);
    OpLevelExact(n.value, k);
    if Prec(l) == k {
      BottomPrefix(l, k);
      var sb := ShowAt(Bottom(l, k), k - 1);
      assert s[..|sb|] == sl[..|sb|];
      assert s[|sb|] == sl[|sb|];
    } else {
      ShowAtUnchanged(l, k);
      assert s[..|sl|] == sl;
    }
  }

  /** The tokens `s` stand at `pos` in `toks`. */
  predicate Occurs(toks: seq<Token>, pos: nat, s: seq<Token>) {
    pos + |s| <= |toks| && toks[pos..pos + |s|] == s
  }

  /** No operator of levels 1, …, `k` at `p`: an operand of level `k` ends there. */
  predicate EndsAt(toks: seq<Token>, p: nat, k: nat) {
    p < |toks| && toks[p].kind == Operator && IsBinaryOp(toks[p].text) ==> k < OpLevel(toks[p].text)
  }

  /** Where an operand of level `k` ends, no loop of levels 1, …, `k` goes on. */
  lemma EndsAtNoOperator(toks: seq<Token>, p: nat, k: nat)
    requires k <= ExprLevel && EndsAt(toks, p, k)
    ensures forall j :: 1 <= j <= k ==> !OperatorAt(toks, p, j)
  {
    forall j | 1 <= j <= k
      ensures !OperatorAt(toks, p, j)
    {
      if p < |toks| && toks[p].kind == Operator && IsBinaryOp(toks[p].text) {
        OpLevelExact(toks[p].text, j);
      }
    }
  }

  /** The parts of tokens that stand at `pos` stand one after the other. */
  lemma OccursParts(toks: seq<Token>, pos: nat, a: seq<Token>, t: Token, b: seq<Token>)
    requires Occurs(toks, pos, a + [t] + b)
    ensures Occurs(toks, pos, a) && toks[pos + |a|] == t && Occurs(toks, pos + |a| + 1, b)
  {
    var s := a + [t] + b;
    assert toks[pos..pos + |a|] == s[..|a|];
    assert toks[pos + |a|] == s[|a|];
    assert toks[pos + |a| + 1..pos + |s|] == s[|a| + 1..];
  }

  /** A prefix of tokens that stand at `pos` stands there too. */
  lemma OccursPrefix(toks: seq<Token>, pos: nat, s: seq<Token>, k: nat)
    requires Occurs(toks, pos, s) && k < |s|
    ensures Occurs(toks, pos, s[..k]) && toks[pos + k] == s[k]
  {
    assert toks[pos..pos + k] == s[..k];
    assert toks[pos + k] == toks[pos..pos + |s|][k];
  }

  /** The token at `p` is an operator of level `k`, so an operand of any tighter level ends there. */
  lemma OperatorEnds(toks: seq<Token>, p: nat, k: nat)
    requires 1 <= k <= ExprLevel && p < |toks| && toks[p].kind == Operator && toks[p].text in OpsAt(k)
    ensures OperatorAt(toks, p, k) && EndsAt(toks, p, k - 1)
  {
    OpLevelExact(toks[p].text, k);
  }

  /**
    The main induction: the printed tokens of `n` as an operand of level
    `k`, followed by anything but an operator of levels 1, …, `k`, parse at
    level `k` into `n` and stop right after them.
   */
  lemma {:induction false} LevelRoundTrip(toks: seq<Token>, pos: nat, n: Node, k: nat)
    requires IsExpr(n) && k <= ExprLevel
    requires Occurs(toks, pos, ShowAt(n, k)) && EndsAt(toks, pos + |ShowAt(n, k)|, k)
    ensures ParseLevel(toks, pos, k) == Ok(Parsed(n, pos + |ShowAt(n, k)|))
    decreases Size(n), if Prec(n) <= k then 5 else 7
  {
    if Prec(n) > k {
      ParenthesisedOperand(toks, pos, n, k, pos + |ShowAt(n, k)|);
    } else if Prec(n) == 0 {
      LeafOperand(toks, pos, n, k);
    } else {
      OperationOperand(toks, pos, n, k, pos + |ShowAt(n, k)|);
    }
  }

  /** An operand that binds looser than its level is read between parentheses, as the whole expression inside. */
  lemma {:induction false} ParenthesisedOperand(toks: seq<Token>, pos: nat, n: Node, k: nat, e: nat)
    requires IsExpr(n) && k < Prec(n)
    requires e == pos + |ShowAt(n, k)| && Occurs(toks, pos, ShowAt(n, k)) && EndsAt(toks, e, k)
    ensures ParseLevel(toks, pos, k) == Ok(Parsed(n, e))
    decreases Size(n), 6
  {
    var s := Show(n);
    assert ShowAt(n, k) == Paren(s) && ShowAt(n, ExprLevel) == s;
    OccursInParentheses(toks, pos, s);
    LevelRoundTrip(toks, pos + 1, n, ExprLevel);
    ParenthesisedPrimary(toks, pos, Parsed(n, pos + 1 + |s|));
    PrimaryToLevel(toks, pos, k, Parsed(n, e));
  }

  /** A primary followed by no operator of levels 1, …, `k` is the operand of level `k`. */
  lemma PrimaryToLevel(toks: seq<Token>, pos: nat, k: nat, x: Parsed)
    requires pos <= |toks| && k <= ExprLevel && ParseLevel(toks, pos, 0) == Ok(x) && EndsAt(toks, x.next, k)
    ensures ParseLevel(toks, pos, k) == Ok(x)
  {
    EndsAtNoOperator(toks, x.next, k);
    LiftToLevel(toks, pos, 0, k, x);
  }

  /** The tokens of a parenthesised operand: `(`, the operand, `)`, and no operator after it. */
  lemma OccursInParentheses(toks: seq<Token>, pos: nat, s: seq<Token>)
    requires Occurs(toks, pos, Paren(s))
    ensures At(toks, pos, Delimiter, "(") && Occurs(toks, pos + 1, s) && At(toks, pos + 1 + |s|, Delimiter, ")")
    ensures EndsAt(toks, pos + 1 + |s|, ExprLevel)
  {
    var open, close := Token(Delimiter, "("), Token(Delimiter, ")");
    assert Paren(s) == [] + [open] + (s + [close]);
    OccursParts(toks, pos, [], open, s + [close]);
    assert s + [close] == s + [close] + [];
    OccursParts(toks, pos + 1, s, close, []);
  }

  /** A parenthesised expression is a primary, at level 0. */
  lemma ParenthesisedPrimary(toks: seq<Token>, pos: nat, inner: Parsed)
    requires At(toks, pos, Delimiter, "(") && ParseLevel(toks, pos + 1, ExprLevel) == Ok(inner)
    requires At(toks, inner.next, Delimiter, ")")
    ensures ParseLevel(toks, pos, 0) == Ok(Parsed(inner.node, inner.next + 1))
  {
    ParenthesesAreUnwrapped(toks, pos, inner);
  }

  /** A number, a name or a string literal is read as the leaf it was printed from, at any level. */
  lemma LeafOperand(toks: seq<Token>, pos: nat, n: Node, k: nat)
    requires IsExpr(n) && Prec(n) == 0 && k <= ExprLevel
    requires Occurs(toks, pos, ShowAt(n, k)) && EndsAt(toks, pos + |ShowAt(n, k)|, k)
    ensures ParseLevel(toks, pos, k) == Ok(Parsed(n, pos + |ShowAt(n, k)|))
  {
    var s := ShowAt(n, k);
    assert s == Show(n) && |s| == 1;
    assert toks[pos] == s[0] by {
      OccursPrefix(toks, pos, s, 0);
    }
    assert ParseLevel(toks, pos, 0) == Ok(Parsed(n, pos + 1));
    PrimaryToLevel(toks, pos, k, Parsed(n, pos + 1));
  }

  /**
    An operation of level `L` is read at level `L` as the bottom of its left
    spine, then the loop of level `L` folds the spine back into it; higher
    levels pass it through.
   */
  lemma {:induction false} OperationOperand(toks: seq<Token>, pos: nat, n: Node, k: nat, e: nat)
    requires IsExpr(n) && 1 <= Prec(n) <= k <= ExprLevel
    requires e == pos + |ShowAt(n, k)| && Occurs(toks, pos, ShowAt(n, k)) && EndsAt(toks, e, k)
    ensures ParseLevel(toks, pos, k) == Ok(Parsed(n, e))
    decreases Size(n), 4
  {
    var L := Prec(n);
    var b := Bottom(n, L);
    var q := pos + |ShowAt(b, L - 1)|;
    ShowOperation(n);
    assert ShowAt(n, k) == ShowAt(n, L);
    BottomOperand(toks, pos, n, L, b, q);
    SpineRoundTrip(toks, pos, n, L, b, q, e);
    ChainToLevel(toks, pos, L, k, Parsed(b, q), Parsed(n, e));
  }

  /** The bottom `b` of the left spine of an operation `n` of level `L` is read as an operand of level `L - 1`, up to `q`. */
  lemma {:induction false} BottomOperand(toks: seq<Token>, pos: nat, n: Node, L: nat, b: Node, q: nat)
    requires IsExpr(n) && 1 <= L <= ExprLevel && Prec(n) == L
    requires b == Bottom(n, L) && q == pos + |ShowAt(b, L - 1)| && Occurs(toks, pos, ShowAt(n, L))
    ensures pos <= |toks| && ParseLevel(toks, pos, L - 1) == Ok(Parsed(b, q))
    decreases Size(n), 3
  {
    BottomPrefix(n, L);
    OccursPrefix(toks, pos, ShowAt(n, L), |ShowAt(b, L - 1)|);
    OperatorEnds(toks, q, L);
    LevelRoundTrip(toks, pos, b, L - 1);
  }

  /** The loop of level `L`, started after the bottom `b` of an operation's left spine, folds the spine back into the operation. */
  lemma SpineRoundTrip(toks: seq<Token>, pos: nat, n: Node, L: nat, b: Node, q: nat, e: nat)
    requires IsExpr(n) && 1 <= L <= ExprLevel && Prec(n) == L
    requires b == Bottom(n, L) && q == pos + |ShowAt(b, L - 1)| && e == pos + |ShowAt(n, L)|
    requires Occurs(toks, pos, ShowAt(n, L)) && EndsAt(toks, e, L - 1)
    ensures q <= e <= |toks| && ChainFrom(toks, L)(b, q) == ChainFrom(toks, L)(n, e)
    decreases Size(n), 3
  {
    SpineFromTokens(toks, pos, n, L);
    ChainRoundTrip(ChainFrom(toks, L), pos, n, L, b, q, e);
  }

  /**
    A level's operand followed by its loop, which ends with `x` where an
    operand of level `k` ends: the level and every level up to `k` read `x`.
   */
  lemma ChainToLevel(toks: seq<Token>, pos: nat, L: nat, k: nat, first: Parsed, x: Parsed)
    requires pos <= |toks| && 1 <= L <= k <= ExprLevel && ParseLevel(toks, pos, L - 1) == Ok(first)
    requires first.next <= |toks| && x.next <= |toks|
    requires ChainFrom(toks, L)(first.node, first.next) == ChainFrom(toks, L)(x.node, x.next)
    requires EndsAt(toks, x.next, k)
    ensures ParseLevel(toks, pos, k) == Ok(x)
  {
    EndsAtNoOperator(toks, x.next, k);
    LevelFromBelow(toks, pos, L, first);
    ChainEnd(toks, L, x.node, x.next);
    LiftToLevel(toks, pos, L, k, x);
  }


  /** The loop of level `L` as a function of its left operand and cursor. */
  function ChainFrom(toks: seq<Token>, L: nat): (Node, nat) -> Result<Parsed> {
    (left: Node, p: nat) => if 1 <= L <= ExprLevel && p <= |toks| then ParseChain(toks, L, left, p) else Err("")
  }

  /**
    The loop `fold` of level `L` folds each operation on the left spine of
    level-`L` operations in `n`: run from right after its left operand, it
    ends as it would right after the operation itself.
   */
  predicate SpineFolds(fold: (Node, nat) -> Result<Parsed>, pos: nat, n: Node, L: nat)
    requires IsExpr(n) && 1 <= L <= ExprLevel
    decreases Size(n)
  {
    Prec(n) == L ==>
      var l := n.children[0];
      fold(l, pos + |ShowAt(l, L)|) == fold(n, pos + |ShowAt(n, L)|) && SpineFolds(fold, pos, l, L)
  }

  /**
    One operation of level `L`, printed and ended by no tighter operator:
    its left operand is printed the same way, and the loop of level `L`
    folds its operator and right operand onto it.
   */
  lemma FoldStep(toks: seq<Token>, pos: nat, n: Node, L: nat, l: Node, p1: nat, e: nat)
    requires IsExpr(n) && 1 <= L <= ExprLevel && Prec(n) == L && l == n.children[0]
    requires p1 == pos + |ShowAt(l, L)| && e == pos + |ShowAt(n, L)|
    requires Occurs(toks, pos, ShowAt(n, L)) && EndsAt(toks, e, L - 1)
    ensures Occurs(toks, pos, ShowAt(l, L)) && EndsAt(toks, p1, L - 1)
    ensures ChainFrom(toks, L)(l, p1) == ChainFrom(toks, L)(n, e)
    decreases Size(n), 1
  {
    OperationTokens(toks, pos, n, L, l, p1, e);
    OperatorStep(toks, p1, n, L, l, e);
  }

  /** Where the tokens of an operation of level `L` stand: its left operand, then its operator, then its right operand. */
  lemma OperationTokens(toks: seq<Token>, pos: nat, n: Node, L: nat, l: Node, p1: nat, e: nat)
    requires IsExpr(n) && 1 <= L <= ExprLevel && Prec(n) == L && l == n.children[0]
    requires p1 == pos + |ShowAt(l, L)| && e == pos + |ShowAt(n, L)| && Occurs(toks, pos, ShowAt(n, L))
    ensures Occurs(toks, pos, ShowAt(l, L)) && OperatorAt(toks, p1, L) && toks[p1].text == n.value
    ensures EndsAt(toks, p1, L - 1)
    ensures var sr := ShowAt(n.children[1], L - 1); e == p1 + 1 + |sr| && Occurs(toks, p1 + 1, sr)
  {
    ShowOperation(n);
    var sl, sr := ShowAt(l, L), ShowAt(n.children[1], L - 1);
    var t := Token(Operator, n.value);
    assert ShowAt(n, L) == sl + [t] + sr;
    OccursParts(toks, pos, sl, t, sr);
    OpLevelExact(n.value, L);
    OperatorEnds(toks, p1, L);
  }

  /** The operator of `n` at `p1`, then its right operand printed and ended by no tighter operator: the loop folds them onto the left operand. */
  lemma OperatorStep(toks: seq<Token>, p1: nat, n: Node, L: nat, l: Node, end: nat)
    requires IsExpr(n) && 1 <= L <= ExprLevel && Prec(n) == L && l == n.children[0]
    requires OperatorAt(toks, p1, L) && toks[p1].text == n.value
    requires var r := n.children[1];
      end == p1 + 1 + |ShowAt(r, L - 1)| && Occurs(toks, p1 + 1, ShowAt(r, L - 1)) && EndsAt(toks, end, L - 1)
    ensures end <= |toks| && ChainFrom(toks, L)(l, p1) == ChainFrom(toks, L)(n, end)
    decreases Size(n), 0
  {
    ShowOperation(n);
    var r := n.children[1];
    LevelRoundTrip(toks, p1 + 1, r, L - 1);
    assert Bin(toks[p1].text, l, r) == n by {
      assert n.children == [l, r];
    }
    ChainOperator(toks, L, l, p1, Parsed(r, end));
  }

  /** The printed spine of an operation of level `L`, ended by no tighter operator, folds as `SpineFolds` says. */
  lemma {:induction false} SpineFromTokens(toks: seq<Token>, pos: nat, n: Node, L: nat)
    requires IsExpr(n) && 1 <= L <= ExprLevel
    requires Occurs(toks, pos, ShowAt(n, L)) && EndsAt(toks, pos + |ShowAt(n, L)|, L - 1)
    ensures SpineFolds(ChainFrom(toks, L), pos, n, L)
    decreases Size(n), 2
  {
    if Prec(n) == L {
      var l := n.children[0];
      var p1, e := pos + |ShowAt(l, L)|, pos + |ShowAt(n, L)|;
      FoldStep(toks, pos, n, L, l, p1, e);
      SpineFromTokens(toks, pos, l, L);
      SpineGrows(ChainFrom(toks, L), pos, n, L, l, p1, e);
    }
  }

  /** One more fold on top of the left operand's spine gives the operation's spine. */
  lemma SpineGrows(fold: (Node, nat) -> Result<Parsed>, pos: nat, n: Node, L: nat, l: Node, p1: nat, e: nat)
    requires IsExpr(n) && 1 <= L <= ExprLevel && Prec(n) == L && l == n.children[0]
    requires p1 == pos + |ShowAt(l, L)| && e == pos + |ShowAt(n, L)|
    requires fold(l, p1) == fold(n, e) && SpineFolds(fold, pos, l, L)
    ensures SpineFolds(fold, pos, n, L)
  {
  }

  /**
    The loop of level `L` started from the bottom of the left spine of an
    operation of level `L` folds the spine back into it: it reaches the
    state it would be in right after the operation.
   */
  lemma {:induction false} ChainRoundTrip(fold: (Node, nat) -> Result<Parsed>, pos: nat, n: Node, L: nat, b: Node, q: nat, e: nat)
    requires IsExpr(n) && 1 <= L <= ExprLevel && Prec(n) == L && SpineFolds(fold, pos, n, L)
    requires b == Bottom(n, L) && q == pos + |ShowAt(b, L - 1)| && e == pos + |ShowAt(n, L)|
    ensures fold(b, q) == fold(n, e)
    decreases Size(n)
  {
    var l := n.children[0];
    var m := pos + |ShowAt(l, L)|;
    assert Bottom(n, L) == Bottom(l, L);
    if Prec(l) == L {
      ChainRoundTrip(fold, pos, l, L, b, q, m);
    } else {
      ShowAtUnchanged(l, L);
      assert b == l;
    }
  }

  /**
    The round trip: every expression the parser can build is read back
    from its printed tokens, whatever follows them as long as it does not
    start with a binary operator.
   */
  lemma ParseShow(n: Node, rest: seq<Token>)
    requires IsExpr(n)
    requires rest == [] || rest[0].kind != Operator || !IsBinaryOp(rest[0].text)
    ensures ParseExpr(Show(n) + rest, 0) == Ok(Parsed(n, |Show(n)|))
  {
    var toks := Show(n) + rest;
    assert ShowAt(n, ExprLevel) == Show(n);
    assert toks[0..|Show(n)|] == Show(n);
    assert rest != [] ==> toks[|Show(n)|] == rest[0];
    LevelRoundTrip(toks, 0, n, ExprLevel);
  }

  /** Two expressions with the same printed tokens are the same expression: the printer loses nothing the parser needs. */
  lemma ShowIsInjective(n1: Node, n2: Node)
    requires IsExpr(n1) && IsExpr(n2) && Show(n1) == Show(n2)
    ensures n1 == n2
  {
    ParseShow(n1, []);
    ParseShow(n2, []);
  }
}

=== FILE: pipeline.dfy ===
/**
  The compiler driver (executable.cpp): tokenize, parse, analyze, and only
  for a program without diagnostics generate, optimize and run it with a
  fresh interpreter. Reading the source text, the stage listings and the
  assembly stub are output only and are not modelled.
 */
module Pipeline {
  import opened Results
  import opened Lexer
  import opened Syntax
  import opened Parser
  import opened Semantic
  import opened Ir
  import opened Icg
  import opened Optimizer
  import opened Interpreter

  /** How a run of the driver ends. */
  datatype Outcome =
    | SyntaxError(message: string)
    | SemanticErrors(errors: seq<Diagnostic>)
    | Executed(ir: seq<Instruction>, optimized: seq<Instruction>, final: Machine)

  /** The driver, with at most `fuel` interpreter steps. */
  function Compile(source: string, fuel: nat): (r: Outcome)
    ensures r.SyntaxError? <==> Parse(Tokenize(source)).Err?
    ensures Parse(Tokenize(source)).Ok? ==> (r.SemanticErrors? <==> HasErrors(Analyze(Parse(Tokenize(source)).value)))
    ensures r.SemanticErrors? ==> r.errors != [] && r.errors == Analyze(Parse(Tokenize(source)).value).errors
    ensures r.Executed? ==> Parse(Tokenize(source)).Ok? && !HasErrors(Analyze(Parse(Tokenize(source)).value))
    ensures r.Executed? ==> r.ir == Generate(Parse(Tokenize(source)).value) && r.optimized == Optimize(r.ir)
    ensures r.Executed? ==> |r.optimized| == |r.ir| && |r.final.out| <= fuel
    ensures r.Executed? ==> r.final == Execute(r.optimized, map[], map[], fuel)
  {
    match Parse(Tokenize(source))
    case Err(msg) => SyntaxError(msg)
    case Ok(root) =>
      var a := Analyze(root);
      if HasErrors(a) then SemanticErrors(a.errors)
      else
        var ir := Generate(root);
        var optimized := Optimize(ir);
        Executed(ir, optimized, Execute(optimized, map[], map[], fuel))
  }

  // ---------------------------------------------------------------------
  // The smallest program the driver runs, `mainn(){}`. Its text is written
  // as a word followed by one-character displays, so that each lexer step
  // is one lemma call.

  const EmptyMainTokens: seq<Token> :=
    [Token(Keyword, "mainn"), Token(Delimiter, "("), Token(Delimiter, ")"), Token(Delimiter, "{"), Token(Delimiter, "}")]

  lemma BracesTokens()
    ensures Tokenize(['{'] + ['}']) == EmptyMainTokens[3..]
  {
    DelimiterFirst('}', []);
    assert ['}'] + [] == ['}'];
    DelimiterFirst('{', ['}']);
  }

  lemma CloseThenBracesTokens()
    ensures Tokenize([')'] + (['{'] + ['}'])) == EmptyMainTokens[2..]
  {
    BracesTokens();
    DelimiterFirst(')', ['{'] + ['}']);
  }

  lemma ParensThenBracesTokens()
    ensures Tokenize(['('] + ([')'] + (['{'] + ['}']))) == EmptyMainTokens[1..]
  {
    CloseThenBracesTokens();
    DelimiterFirst('(', [')'] + (['{'] + ['}']));
  }

  /** `mainn` is a word, and a reserved one. */
  lemma MainnIsKeyword()
    ensures IsWord("mainn") && IsKeyword("mainn")
  {
    var w := "mainn";
    assert forall i :: 0 <= i < |w| ==> IsAlpha(w[i]);
    assert Keywords[2] == w;
  }

  /** `mainn(){}` is five tokens: the keyword and four delimiters. */
  lemma EmptyMainTokenized()
    ensures Tokenize("mainn" + (['('] + ([')'] + (['{'] + ['}'])))) == EmptyMainTokens
  {
    ParensThenBracesTokens();
    MainnIsKeyword();
    WordFirst("mainn", ['('] + ([')'] + (['{'] + ['}'])));
  }

  /** Those tokens parse to a `mainn` node without a statement list. */
  lemma EmptyMainParses()
    ensures Parse(EmptyMainTokens) == Ok(Node(ProgramNode, "mainn", []))
  {
    assert ParseProgram(EmptyMainTokens) == ParseMainBody(EmptyMainTokens, 4);
  }

  /** `mainn(){}` passes every check and is run: the driver's last stage is reachable. */
  lemma EmptyMainRuns()
    ensures Compile("mainn" + (['('] + ([')'] + (['{'] + ['}']))), 0).Executed?
  {
    EmptyMainTokenized();
    EmptyMainParses();
    assert !HasErrors(Analyze(Node(ProgramNode, "mainn", [])));
  }
}

=== FILE: pipeline_props.dfy ===
/**
  Properties of the stages composed: optimizing keeps every jump and label
  of the generated code, so in the program the driver runs every jump
  lands on the one `label` instruction of its name; and the outputs of a
  few small programs through the optimizer and the interpreter.
 */
module PipelineProps {
  import opened Decimal
  import opened Syntax
  import opened Parser
  import opened Lexer
  import opened Ir
  import opened Icg
  import opened IcgProps
  import opened Optimizer
  import opened Interpreter
  import opened InterpreterProps
  import OptimizerProps
  import opened Pipeline

  /** Folding never produces or removes a `label` or a jump, and propagation keeps every op. */
  lemma OptimizeKeepsControl(code: seq<Instruction>, k: nat)
    requires k < |code|
    ensures var o := Optimize(code);
      (o[k].op == "label" <==> code[k].op == "label")
      && (IsJump(o[k].op) <==> IsJump(code[k].op))
      && o[k].result == code[k].result
  {
    var f := Fold(code);
    assert Optimize(code)[k].op == f[k].op;
  }

  /** A `goto` or `ifFalse` at index `k` contributes its target to `Targets`. */
  lemma {:induction false} TargetsHas(code: seq<Instruction>, k: nat)
    requires k < |code| && IsJump(code[k].op)
    ensures code[k].result in Targets(code)
    decreases |code|
  {
    if k < |code| - 1 {
      var q := code[..|code| - 1];
      assert q[k] == code[k];
      TargetsHas(q, k);
    }
  }

  /** A name with a defining `label` instruction has one at some index. */
  lemma {:induction false} DefsWitness(code: seq<Instruction>, t: string)
    requires Defs(code, t) > 0
    ensures exists j :: 0 <= j < |code| && code[j].op == "label" && code[j].result == t
    decreases |code|
  {
    var q := code[..|code| - 1];
    var last := code[|code| - 1];
    if !(last.op == "label" && last.result == t) {
      DefsWitness(q, t);
      var j :| 0 <= j < |q| && q[j].op == "label" && q[j].result == t;
      assert code[j] == q[j];
    }
  }

  /**
    In the optimized code of any tree the parser builds, the label table the
    interpreter builds resolves every jump to a `label` instruction of the
    jump's target.
   */
  lemma JumpTargetsResolve(root: Node, k: nat)
    requires IsSyntax(root)
    requires var code := Optimize(Generate(root)); k < |code| && IsJump(code[k].op)
    ensures var code := Optimize(Generate(root));
      var table := LabelTable(map[], code);
      var t := code[k].result;
      t in table && table[t] < |code| && code[table[t]].op == "label" && code[table[t]].result == t
  {
    var ir := Generate(root);
    var code := Optimize(ir);
    var t := code[k].result;
    OptimizeKeepsControl(ir, k);
    TargetsHas(ir, k);
    GenerateWellFormed(root);
    DefsWitness(ir, t);
    var j :| 0 <= j < |ir| && ir[j].op == "label" && ir[j].result == t;
    OptimizeKeepsControl(ir, j);
    LabelTableDomain(map[], code, t);
    LabelTableTargets(code, t);
  }

  /** A program the driver runs (`Pipeline.EmptyMainRuns` shows there are some) has code in which every jump resolves. */
  lemma ExecutedJumpsResolve(source: string, fuel: nat, k: nat)
    requires Compile(source, fuel).Executed?
    requires var code := Compile(source, fuel).optimized; k < |code| && IsJump(code[k].op)
    ensures var code := Compile(source, fuel).optimized;
      var table := LabelTable(map[], code);
      var t := code[k].result;
      t in table && table[t] < |code| && code[table[t]].op == "label" && code[table[t]].result == t
  {
    var root := Parse(Tokenize(source)).value;
    assert IsSyntax(root);
    JumpTargetsResolve(root, k);
  }

  /** A hand-built tree of `mainn() { intt x = 2 + 3; prrint(x); }`. */
  const SumTree: Node :=
    Node(ProgramNode, "mainn", [Node(StatementList, "stmt_list", [SumDeclare, SumPrint])])

  const SumDeclare: Node :=
    Node(Declaration, "intt x", [Node(ExpressionNode, "+", [Node(NumberNode, "2", []), Node(NumberNode, "3", [])])])

  const SumPrint: Node := Node(FunctionCall, "prrint", [Node(IdentifierNode, "x", [])])

  /** The code `SumTree` generates. */
  const SumProgram: seq<Instruction> :=
    [Instruction("+", "2", "3", "t0"), Instruction("=", "t0", "", "x"), Instruction("print", "x", "", "")]

  /** `intt x = 2 + 3;` with no temporary allocated yet computes the sum into t0 and moves it into x. */
  lemma SumDeclareCode(g: Gen)
    requires g.temps == 0
    ensures Traverse(g, SumDeclare) == Emit(Emit(g.(temps := 1), SumProgram[0]), SumProgram[1])
  {
    FirstNames();
    assert "intt " + "x" == "intt x";
    BinaryOfLeaves(g, "+", Node(NumberNode, "2", []), Node(NumberNode, "3", []));
    IntDeclarationCode(g, "x", SumDeclare.children[0]);
  }

  /** The generator turns `SumTree` into exactly `SumProgram`. */
  lemma SumGenerated()
    ensures Generate(SumTree) == SumProgram
  {
    var list := SumTree.children[0];
    var g2 := Emit(Emit(Start.(temps := 1), SumProgram[0]), SumProgram[1]);
    var g3 := Emit(g2, SumProgram[2]);
    SumDeclareCode(Start);
    assert EvaluateFirst(g2, SumPrint) == (g2, "x");
    assert Traverse(g2, SumPrint) == g3;
    assert [SumDeclare, SumPrint][1..] == [SumPrint];
    assert [SumPrint][1..] == [];
    assert TraverseAll(Start, [SumDeclare, SumPrint]) == TraverseAll(g2, [SumPrint]);
    assert TraverseAll(g2, [SumPrint]) == TraverseAll(g3, []);
    assert Traverse(Start, list) == TraverseAll(Start, [SumDeclare, SumPrint]);
    assert [list][1..] == [];
    assert Traverse(Start, SumTree) == TraverseAll(Start, [list]);
    assert TraverseAll(Start, [list]) == TraverseAll(Traverse(Start, list), []);
  }

  /** The optimized code of `SumProgram`: the sum folded into t0 and propagated into the move. */
  const SumProgramOptimized: seq<Instruction> :=
    [Instruction("", "5", "", "t0"), Instruction("=", "5", "", "x"), Instruction("print", "x", "", "")]

  /** Folding `SumProgram` evaluates only the sum. */
  lemma SumFolded()
    ensures Fold(SumProgram) == [Instruction("", "5", "", "t0"), SumProgram[1], SumProgram[2]]
  {
    var code := SumProgram;
    OptimizerProps.Digit('2');
    OptimizerProps.Digit('3');
    OptimizerProps.Digit('5');
    OptimizerProps.FoldLiterals(code[0], 5);
    OptimizerProps.FoldSkipsName(code[1]);
    OptimizerProps.FoldSkipsName(code[2]);
  }

  /** The constant of the folded sum replaces t0 in the move, and `x` (moved with `=`) is not recorded. */
  lemma SumOptimized()
    ensures Optimize(SumProgram) == SumProgramOptimized
  {
    SumFolded();
    var folded := [Instruction("", "5", "", "t0"), SumProgram[1], SumProgram[2]];
    OptimizerProps.Digit('5');
    OptimizerProps.ConstantsNone(folded);
    ConstantsStep(folded, 0);
    ConstantsStep(folded, 1);
    var c := map["t0" := "5"];
    assert Constants(folded[..2]) == c;
    OptimizerProps.PropagateAt(folded, 0);
    OptimizerProps.PropagateAt(folded, 1);
    OptimizerProps.PropagateAt(folded, 2);
    OptimizerProps.RewriteOther(folded[1], c);
    OptimizerProps.RewriteOther(folded[2], c);
  }

  /** The generated code of `intt x = 2 + 3; prrint(x);` prints 5 once optimized. */
  lemma SumPrintsFive()
    ensures Execute(Optimize(Generate(SumTree)), map[], map[], 3).out == [OutInt(5)]
  {
    SumGenerated();
    SumOptimized();
    var opt := SumProgramOptimized;
    LabelTableWithoutLabels(map[], opt);
    var m0 := Initial(map[]);
    RunUnfolds(opt, map[], m0, 3);
    InertOpsOnlyAdvance(opt, map[], m0);
    SumTail();
  }

  /** The last two iterations of `SumProgramOptimized`: x receives 5, and its print writes 5. */
  lemma SumTail()
    ensures Run(SumProgramOptimized, map[], Machine(1, map[], [], []), 2).out == [OutInt(5)]
  {
    var opt := SumProgramOptimized;
    var m1 := Machine(1, map[], [], []);
    RunUnfolds(opt, map[], m1, 2);
    AssignWritesResult(opt, map[], m1);
    OptimizerProps.Digit('5');
    assert IsNumeral("5");
    var m2 := m1.(pc := 2, vars := map["x" := 5]);
    RunUnfolds(opt, map[], m2, 1);
    PrintAppendsOne(opt, map[], m2);
  }

  /**
    `prrint(2 - 5);`: the folded "-3" is never recorded, the interpreter
    ignores the op-less move, and the name of the temporary is printed.
   */
  lemma NegativeResultPrintsTemporaryName()
    ensures Execute(Optimize(OptimizerProps.NegativeDifference), map[], map[], 2).out == [OutText("t0")]
  {
    OptimizerProps.NegativeFoldNotRecorded();
    var opt := [Instruction("", "-3", "", "t0"), Instruction("print", "t0", "", "")];
    LabelTableWithoutLabels(map[], opt);
    var m0 := Initial(map[]);
    RunUnfolds(opt, map[], m0, 2);
    InertOpsOnlyAdvance(opt, map[], m0);
    var m1 := m0.(pc := 1);
    RunUnfolds(opt, map[], m1, 1);
    PrintAppendsOne(opt, map[], m1);
  }

  /** A hand-built tree of `mainn() { intt t0 = 7; intt y = 1 + 2; prrint(t0); }`. */
  const ShadowedProgram: Node :=
    Node(ProgramNode, "mainn", [Node(StatementList, "stmt_list", [DeclareT0, DeclareY, PrintT0])])

  const DeclareT0: Node := Node(Declaration, "intt t0", [Node(NumberNode, "7", [])])

  const DeclareY: Node :=
    Node(Declaration, "intt y", [Node(ExpressionNode, "+", [Node(NumberNode, "1", []), Node(NumberNode, "2", [])])])

  const PrintT0: Node := Node(FunctionCall, "prrint", [Node(IdentifierNode, "t0", [])])

  /** The code `ShadowedProgram` generates. */
  const ShadowedTemporary: seq<Instruction> :=
    [Instruction("=", "7", "", "t0"), Instruction("+", "1", "2", "t0"),
     Instruction("=", "t0", "", "y"), Instruction("print", "t0", "", "")]

  /** `intt t0 = 7;` moves 7 into the user's t0. */
  lemma DeclareT0Code(g: Gen)
    ensures Traverse(g, DeclareT0) == Emit(g, Instruction("=", "7", "", "t0"))
  {
    assert "intt " + "t0" == "intt t0";
    assert Evaluate(g, Node(NumberNode, "7", [])) == (g, "7");
    IntDeclarationCode(g, "t0", Node(NumberNode, "7", []));
  }

  /** `intt y = 1 + 2;` with no temporary allocated yet computes the sum into t0 and moves it into y. */
  lemma DeclareYCode(g: Gen)
    requires g.temps == 0
    ensures Traverse(g, DeclareY)
         == Emit(Emit(g.(temps := 1), Instruction("+", "1", "2", "t0")), Instruction("=", "t0", "", "y"))
  {
    FirstNames();
    assert "intt " + "y" == "intt y";
    BinaryOfLeaves(g, "+", Node(NumberNode, "1", []), Node(NumberNode, "2", []));
    IntDeclarationCode(g, "y", DeclareY.children[0]);
  }

  /** `prrint(t0);` prints t0. */
  lemma PrintT0Code(g: Gen)
    ensures Traverse(g, PrintT0) == Emit(g, Instruction("print", "t0", "", ""))
  {
    assert EvaluateFirst(g, PrintT0) == (g, "t0");
  }

  /** The three statements, generated from a fresh generator, give `ShadowedTemporary`. */
  lemma ShadowedStatements()
    ensures TraverseAll(Start, [DeclareT0, DeclareY, PrintT0]).code == ShadowedTemporary
  {
    var g1 := Emit(Start, ShadowedTemporary[0]);
    var g2 := Emit(Emit(g1.(temps := 1), ShadowedTemporary[1]), ShadowedTemporary[2]);
    var g3 := Emit(g2, ShadowedTemporary[3]);
    DeclareT0Code(Start);
    DeclareYCode(g1);
    PrintT0Code(g2);
    assert [DeclareT0, DeclareY, PrintT0][1..] == [DeclareY, PrintT0];
    assert [DeclareY, PrintT0][1..] == [PrintT0];
    assert [PrintT0][1..] == [];
    assert TraverseAll(Start, [DeclareT0, DeclareY, PrintT0]) == TraverseAll(g1, [DeclareY, PrintT0]);
    assert TraverseAll(g1, [DeclareY, PrintT0]) == TraverseAll(g2, [PrintT0]);
    assert TraverseAll(g2, [PrintT0]) == TraverseAll(g3, []);
  }

  /** The generator turns the program into exactly `ShadowedTemporary`: the sum's temporary is the user's t0. */
  lemma ShadowedGenerated()
    ensures Generate(ShadowedProgram) == ShadowedTemporary
  {
    var list := ShadowedProgram.children[0];
    ShadowedStatements();
    assert Traverse(Start, list) == TraverseAll(Start, [DeclareT0, DeclareY, PrintT0]);
    assert [list][1..] == [];
    assert Traverse(Start, ShadowedProgram) == TraverseAll(Start, [list]);
    assert TraverseAll(Start, [list]) == TraverseAll(Traverse(Start, list), []);
  }

  /** Folding `ShadowedTemporary` evaluates only the sum. */
  lemma ShadowedFolded()
    ensures Fold(ShadowedTemporary)
         == [ShadowedTemporary[0], Instruction("", "3", "", "t0"), ShadowedTemporary[2], ShadowedTemporary[3]]
  {
    var code := ShadowedTemporary;
    OptimizerProps.Digit('1');
    OptimizerProps.Digit('2');
    OptimizerProps.Digit('3');
    OptimizerProps.FoldLiterals(code[1], 3);
    assert !IsFoldOp(code[0].op);
    OptimizerProps.FoldSkipsName(code[2]);
    OptimizerProps.FoldSkipsName(code[3]);
  }

  /** The optimized code of `ShadowedTemporary`: the folded 3 is propagated into every later use of t0. */
  const ShadowedOptimized: seq<Instruction> :=
    [Instruction("=", "7", "", "t0"), Instruction("", "3", "", "t0"),
     Instruction("=", "3", "", "y"), Instruction("print", "3", "", "")]

  /** Propagation records the folded sum under t0, the user's name too, and substitutes it in the move and the print. */
  lemma ShadowedPropagated()
    ensures Optimize(ShadowedTemporary) == ShadowedOptimized
  {
    ShadowedFolded();
    var folded := [ShadowedTemporary[0], Instruction("", "3", "", "t0"), ShadowedTemporary[2], ShadowedTemporary[3]];
    OptimizerProps.Digit('3');
    OptimizerProps.ConstantsNone(folded);
    ConstantsStep(folded, 0);
    ConstantsStep(folded, 1);
    ConstantsStep(folded, 2);
    var c := map["t0" := "3"];
    assert Constants(folded[..1]) == map[];
    assert Constants(folded[..3]) == c;
    OptimizerProps.PropagateAt(folded, 0);
    OptimizerProps.PropagateAt(folded, 1);
    OptimizerProps.PropagateAt(folded, 2);
    OptimizerProps.PropagateAt(folded, 3);
    OptimizerProps.RewriteOther(folded[0], map[]);
    OptimizerProps.RewriteOther(folded[2], c);
    OptimizerProps.RewriteOther(folded[3], c);
  }

  /**
    `intt t0 = 7; intt y = 1 + 2; prrint(t0);`: the first temporary is also
    named t0, so its folded constant is propagated into the user's `prrint`,
    which prints the text 3 instead of the value 7.
   */
  lemma TemporaryShadowsUserName()
    ensures Execute(Optimize(Generate(ShadowedProgram)), map[], map[], 4).out == [OutText("3")]
  {
    ShadowedGenerated();
    ShadowedPropagated();
    ShadowedRun();
  }

  /** Running `ShadowedOptimized`: t0 receives 7, the op-less move is skipped, then the tail prints the text 3. */
  lemma ShadowedRun()
    ensures Execute(ShadowedOptimized, map[], map[], 4).out == [OutText("3")]
  {
    var opt := ShadowedOptimized;
    LabelTableWithoutLabels(map[], opt);
    OptimizerProps.Digit('7');
    assert IsNumeral("7");
    var m0 := Initial(map[]);
    RunUnfolds(opt, map[], m0, 4);
    AssignWritesResult(opt, map[], m0);
    var m1 := m0.(pc := 1, vars := map["t0" := 7]);
    RunUnfolds(opt, map[], m1, 3);
    InertOpsOnlyAdvance(opt, map[], m1);
    ShadowedTail();
  }

  /** The last two iterations of `ShadowedOptimized`: y receives 3, and the print of "3" writes the text 3. */
  lemma ShadowedTail()
    ensures Run(ShadowedOptimized, map[], Machine(2, map["t0" := 7], [], []), 2).out == [OutText("3")]
  {
    var opt := ShadowedOptimized;
    OptimizerProps.Digit('3');
    assert IsNumeral("3");
    var m2 := Machine(2, map["t0" := 7], [], []);
    RunUnfolds(opt, map[], m2, 2);
    AssignWritesResult(opt, map[], m2);
    var m3 := m2.(pc := 3, vars := map["t0" := 7, "y" := 3]);
    RunUnfolds(opt, map[], m3, 1);
    PrintAppendsOne(opt, map[], m3);
  }

  /** The first names the generator hands out. */
  lemma FirstNames()
    ensures TempName(0) == "t0" && LabelName(0) == "L0" && LabelName(1) == "L1"
  {
    assert NatStr(0) == "0" && NatStr(1) == "1";
  }

  /** A hand-built tree of `loop (x) { prrint(x); x = x - 1; }`. */
  const CountDownLoop: Node :=
    Node(LoopStatement, "loop", [Node(IdentifierNode, "x", []), CountDownBody])

  const PrintX: Node := Node(FunctionCall, "prrint", [Node(IdentifierNode, "x", [])])

  const DecrementX: Node :=
    Node(Assignment, "x", [Node(ExpressionNode, "-", [Node(IdentifierNode, "x", []), Node(NumberNode, "1", [])])])

  const CountDownBody: Node := Node(StatementList, "stmt_list", [PrintX, DecrementX])

  /** `prrint(x);` prints x. */
  lemma PrintXCode(g: Gen)
    ensures Traverse(g, PrintX) == Emit(g, Instruction("print", "x", "", ""))
  {
    assert EvaluateFirst(g, PrintX) == (g, "x");
  }

  /** `x = x - 1;` computes x - 1 into the next temporary and moves it into x. */
  lemma DecrementXCode(g: Gen)
    ensures var t := TempName(g.temps);
      Traverse(g, DecrementX) == Emit(Emit(g.(temps := g.temps + 1), Instruction("-", "x", "1", t)), Instruction("=", t, "", "x"))
  {
    var e := DecrementX.children[0];
    BinaryOfLeaves(g, "-", Node(IdentifierNode, "x", []), Node(NumberNode, "1", []));
    assert Evaluate(g, e).1 == TempName(g.temps) != "";
    AssignmentCode(g, "x", e);
  }

  /** The body prints x, computes x - 1 into the next temporary and moves it into x. */
  lemma CountDownBodyCode(g: Gen)
    ensures var t := TempName(g.temps);
      Traverse(g, CountDownBody)
        == g.(temps := g.temps + 1,
              code := g.code + [Instruction("print", "x", "", ""), Instruction("-", "x", "1", t), Instruction("=", t, "", "x")])
  {
    var t := TempName(g.temps);
    var gp := Emit(g, Instruction("print", "x", "", ""));
    PrintXCode(g);
    DecrementXCode(gp);
    var ga := Emit(Emit(gp.(temps := g.temps + 1), Instruction("-", "x", "1", t)), Instruction("=", t, "", "x"));
    assert TraverseAll(g, [PrintX, DecrementX]) == ga by {
      assert [PrintX, DecrementX][1..] == [DecrementX];
      assert [DecrementX][1..] == [];
      assert TraverseAll(g, [PrintX, DecrementX]) == TraverseAll(gp, [DecrementX]);
      assert TraverseAll(gp, [DecrementX]) == TraverseAll(ga, []);
    }
    assert ga.code == g.code + [Instruction("print", "x", "", ""), Instruction("-", "x", "1", t), Instruction("=", t, "", "x")];
  }

  /** Inside the loop, after its label and test, the body appends its three instructions using t0. */
  lemma CountDownInside()
    ensures Traverse(Gen(0, 2, [("L0", "L1")], CountDown[..2]), CountDownBody)
         == Gen(1, 2, [("L0", "L1")], CountDown[..5])
  {
    FirstNames();
    var g5 := Gen(0, 2, [("L0", "L1")], CountDown[..2]);
    CountDownBodyCode(g5);
    assert CountDown[..2] + [CountDown[2], CountDown[3], CountDown[4]] == CountDown[..5];
  }

  /** The generator turns the counting loop into exactly the code `CountDown` runs. */
  lemma CountDownGenerated()
    ensures Generate(CountDownLoop) == CountDown
  {
    FirstNames();
    var n := CountDownLoop;
    var g3 := Gen(0, 2, [("L0", "L1")], CountDown[..1]);
    assert Emit(Start.(labels := 2, loops := [] + [("L0", "L1")]), CountDown[0]) == g3;
    assert EvaluateFirst(g3, n) == (g3, "x");
    assert Emit(g3, CountDown[1]) == Gen(0, 2, [("L0", "L1")], CountDown[..2]);
    CountDownInside();
    var g7 := Emit(Emit(Gen(1, 2, [("L0", "L1")], CountDown[..5]), CountDown[5]), CountDown[6]);
    LoopUnfolds(Start, n);
    assert Traverse(Start, n) == g7.(loops := []);
    assert g7.code == CountDown;
  }

  /** Nothing in the counting loop's code is folded or recorded, so optimizing leaves it as it is. */
  lemma CountDownOptimized()
    ensures Optimize(CountDown) == CountDown
  {
    var code := CountDown;
    assert "x"[0] == 'x' && "t0"[0] == 't';
    assert !IsNumber("") && !IsNumber("x") && !IsNumber("t0");
    forall i | 0 <= i < |code|
      ensures !Foldable(code[i]) && !Records(code[i])
    {
      assert code[i].arg1 == "" || code[i].arg1 == "x" || code[i].arg1 == "t0";
    }
    OptimizerProps.NothingToOptimize(code);
  }

  /**
    The whole back end on a hand-built tree of `loop (x) { prrint(x); x = x - 1; }`: generated,
    optimized and run with x at n, it prints n, n-1, …, 1 and halts.
   */
  lemma CountDownCompiledPrints(vars: map<string, int>, n: nat)
    requires "x" in vars && vars["x"] == n
    ensures var r := Execute(Optimize(Generate(CountDownLoop)), vars, map[], 6 * n + 3);
      r.out == Down(n) && r.pc == |CountDown|
  {
    CountDownGenerated();
    CountDownOptimized();
    CountDownPrintsDown(vars, n);
  }
}

=== FILE: results.dfy ===
/** The failure-compatible result of a stage that can stop the pipeline. */
module Results {

  datatype Result<+T> = Ok(value: T) | Err(message: string) {

    predicate IsFailure() {
      Err?
    }

    function PropagateFailure<U>(): Result<U>
      requires Err?
    {
      Err(message)
    }

    function Extract(): T
      requires Ok?
    {
      value
    }
  }
}

=== FILE: semantic.dfy ===
/**
  The semantic analyzer (semantic.cpp): one traversal of the parse tree
  that fills a symbol table and appends diagnostics. The analyzer never
  stops the traversal; diagnostics only accumulate.
 */
module Semantic {
  import opened Decimal
  import opened Syntax

  datatype Symbol = Symbol(ty: string, name: string)

  /** One diagnostic per `errors.push_back` of the analyzer. */
  datatype Diagnostic =
    | Redeclaration(name: string)
    | AssignMismatch(exprType: string, name: string, varType: string)
    | AssignUndeclared(name: string)
    | Undeclared(name: string)
    | ReturnMismatch(retType: string, expected: string)
    | PrintArity
    | PrintType(argType: string)
    | SanArity
    | SanType(argType: string)
    | UnknownFunction(callee: string)
    | OutsideLoop(keyword: string)
    | OperandMismatch(left: string, right: string, op: string)

  /** The text the analyzer stores for each diagnostic. */
  function Message(d: Diagnostic): string {
    match d
    case Redeclaration(x) => "Error: Redeclaration of variable '" + x + "'"
    case AssignMismatch(e, x, t) =>
      "Type Error: Cannot assign type '" + e + "' to variable '" + x + "' of type '" + t + "'"
    case AssignUndeclared(x) => "Error: Assignment to undeclared variable '" + x + "'"
    case Undeclared(x) => "Error: Undeclared variable '" + x + "'"
    case ReturnMismatch(r, f) =>
      "Type Error: Return type '" + r + "' does not match function return type '" + f + "'"
    case PrintArity => "Error: 'prrint' expects exactly one argument"
    case PrintType(t) => "Type Error: 'prrint' argument must be intt or sttring, got '" + t + "'"
    case SanArity => "Error: 'san' expects exactly one argument"
    case SanType(t) => "Type Error: 'san' argument must be of type intt, got '" + t + "'"
    case UnknownFunction(f) => "Error: Unknown function '" + f + "'"
    case OutsideLoop(w) => "Error: '" + w + "' used outside of loop"
    case OperandMismatch(l, r, op) =>
      "Type Error: Mismatched types '" + l + "' and '" + r + "' in operation '" + op + "'"
  }

  type Table = map<string, Symbol>

  /** The analyzer's members: symbol table, diagnostics, loop depth, return type. */
  datatype Analyzer = Analyzer(table: Table, errors: seq<Diagnostic>, loopDepth: nat, returnType: string)

  /** The state `analyze` starts from. */
  const Initial: Analyzer := Analyzer(map[], [], 0, "intt")

  /**
    The type and name of a declaration value, split at its first blank.
    Without a blank, `find` returns `npos` and `npos + 1` wraps to 0, so both
    halves are the whole value.
   */
  function SplitDecl(v: string): (r: (string, string))
    ensures ' ' in v ==> v == r.0 + " " + r.1 && ' ' !in r.0
    ensures ' ' !in v ==> r == (v, v)
  {
    var p := FindSpace(v, 0);
    if p < |v| then
      assert v == v[..p] + " " + v[p + 1..];
      (v[..p], v[p + 1..])
    else (v, v)
  }

  /** A declaration value built from a blank-free type and a name splits back into the two. */
  lemma SplitTypedName(ty: string, x: string)
    requires ' ' !in ty
    ensures SplitDecl(ty + " " + x) == (ty, x)
  {
    var v := ty + " " + x;
    var p := FindSpace(v, 0);
    assert v[|ty|] == ' ';
    assert p == |ty|;
    assert v[..p] == ty;
    assert v[p + 1..] == x;
  }

  /** The types `getExprType` can report against `table`. */
  function KnownTypes(table: Table): set<string> {
    {"intt", "sttring", "unknown"} + set x | x in table :: table[x].ty
  }

  predicate IsQuoted(v: string) {
    |v| >= 2 && v[0] == '"' && v[|v| - 1] == '"'
  }

  /** The two diagnostics type inference can append. */
  predicate IsInferenceDiagnostic(d: Diagnostic) {
    d.Undeclared? || d.OperandMismatch?
  }

  /**
    `getExprType`: the type of an expression and the diagnostics inference
    appends, in order. The table is only read.
   */
  function ExprType(table: Table, n: Node): (r: (string, seq<Diagnostic>))
    ensures r.0 in KnownTypes(table)
    ensures forall i :: 0 <= i < |r.1| ==> IsInferenceDiagnostic(r.1[i])
    ensures n.kind == NumberNode ==> r == ("intt", [])
    ensures n.kind == IdentifierNode ==>
              r == if n.value in table then (table[n.value].ty, []) else ("unknown", [Undeclared(n.value)])
    decreases n
  {
    match n.kind
    case NumberNode => ("intt", [])
    case IdentifierNode =>
      if n.value in table then (table[n.value].ty, []) else ("unknown", [Undeclared(n.value)])
    case ExpressionNode =>
      if IsQuoted(n.value) then ("sttring", [])
      else if IsDigits(n.value) then ("intt", [])
      else if IsBinaryOp(n.value) then
        if |n.children| < 2 then ("unknown", [])
        else
          var (lt, ld) := ExprType(table, n.children[0]);
          var (rt, rd) := ExprType(table, n.children[1]);
          if n.value in LogicOps then ("intt", ld + rd)
          else if lt != rt then ("unknown", ld + rd + [OperandMismatch(lt, rt, n.value)])
          else if n.value in ComparisonOps then ("intt", ld + rd)
          else (lt, ld + rd)
      else if n.value in table then (table[n.value].ty, [])
      else ("unknown", [])
    case _ => ("unknown", [])
  }

  /** What every traversal step keeps: depth, return type, earlier diagnostics and bindings. */
  predicate Extends(a: Analyzer, r: Analyzer) {
    r.loopDepth == a.loopDepth && r.returnType == a.returnType
    && a.errors <= r.errors
    && a.table.Keys <= r.table.Keys
    && forall x :: x in a.table ==> r.table[x] == a.table[x]
  }

  /** Appends the diagnostics inference produced and, when `bad` holds, one more. */
  function Report(a: Analyzer, inferred: seq<Diagnostic>, bad: bool, d: Diagnostic): (r: Analyzer)
    ensures Extends(a, r) && r.table == a.table
    ensures r.errors == a.errors + inferred + (if bad then [d] else [])
  {
    a.(errors := a.errors + inferred + (if bad then [d] else []))
  }

  /** `traverse`. */
  function Traverse(a: Analyzer, n: Node): (r: Analyzer)
    ensures Extends(a, r)
    decreases n, 1
  {
    match n.kind
    case Declaration => TraverseDeclaration(a, n)
    case Assignment => TraverseAssignment(a, n)
    case IdentifierNode =>
      if n.value in a.table then a else a.(errors := a.errors + [Undeclared(n.value)])
    case ReturnStatement =>
      if n.children == [] then a
      else
        var (t, d) := ExprType(a.table, n.children[0]);
        Traverse(Report(a, d, t != a.returnType, ReturnMismatch(t, a.returnType)), n.children[0])
    case FunctionCall => TraverseCall(a, n)
    case LoopStatement =>
      var inner := TraverseAll(a.(loopDepth := a.loopDepth + 1), n.children);
      inner.(loopDepth := inner.loopDepth - 1)
    case BreakStatement | ContinueStatement =>
      if a.loopDepth == 0 then a.(errors := a.errors + [OutsideLoop(n.value)]) else a
    case _ => TraverseAll(a, n.children)
  }

  /** `for (auto* child : children) traverse(child)`. */
  function TraverseAll(a: Analyzer, ns: seq<Node>): (r: Analyzer)
    ensures Extends(a, r)
    decreases ns
  {
    if ns == [] then a else TraverseAll(Traverse(a, ns[0]), ns[1..])
  }

  /** Binds `name` to `ty`, unless it is bound already: then the first binding stays and is reported. */
  function Bind(a: Analyzer, ty: string, name: string): (r: Analyzer)
    ensures Extends(a, r) && r.table.Keys == a.table.Keys + {name}
    ensures r.table[name] == if name in a.table then a.table[name] else Symbol(ty, name)
    ensures r.errors == a.errors + if name in a.table then [Redeclaration(name)] else []
  {
    if name in a.table then a.(errors := a.errors + [Redeclaration(name)])
    else a.(table := a.table[name := Symbol(ty, name)])
  }

  /**
    A declaration binds its name before the initializer is inspected; a
    name already bound keeps its first binding and is reported.
   */
  function TraverseDeclaration(a: Analyzer, n: Node): (r: Analyzer)
    requires n.kind == Declaration
    ensures Extends(a, r)
    decreases n, 0
  {
    var (ty, name) := SplitDecl(n.value);
    var b := Bind(a, ty, name);
    if n.children == [] then b
    else
      var (t, d) := ExprType(b.table, n.children[0]);
      Traverse(Report(b, d, t != ty, AssignMismatch(t, name, ty)), n.children[0])
  }

  /** An assignment to an unbound name is reported and its right side is not looked at. */
  function TraverseAssignment(a: Analyzer, n: Node): (r: Analyzer)
    requires n.kind == Assignment
    ensures Extends(a, r)
    decreases n, 0
  {
    if n.value !in a.table then a.(errors := a.errors + [AssignUndeclared(n.value)])
    else if n.children == [] then a
    else
      var ty := a.table[n.value].ty;
      var (t, d) := ExprType(a.table, n.children[0]);
      Traverse(Report(a, d, t != ty, AssignMismatch(t, n.value, ty)), n.children[0])
  }

  /** The built-in calls `prrint` and `san`; any other callee is unknown. */
  function TraverseCall(a: Analyzer, n: Node): (r: Analyzer)
    requires n.kind == FunctionCall
    ensures Extends(a, r)
    decreases n, 0
  {
    if n.value == "prrint" then
      if |n.children| != 1 then a.(errors := a.errors + [PrintArity])
      else
        var (t, d) := ExprType(a.table, n.children[0]);
        Traverse(Report(a, d, t != "intt" && t != "sttring", PrintType(t)), n.children[0])
    else if n.value == "san" then
      if |n.children| != 1 then a.(errors := a.errors + [SanArity])
      else
        var (t, d) := ExprType(a.table, n.children[0]);
        Traverse(Report(a, d, t != "intt", SanType(t)), n.children[0])
    else a.(errors := a.errors + [UnknownFunction(n.value)])
  }

  /** `analyze`: a traversal from the initial state. */
  function Analyze(root: Node): (r: Analyzer)
    ensures r.loopDepth == 0 && r.returnType == "intt"
  {
    Traverse(Initial, root)
  }

  /** `hasErrors`. */
  predicate HasErrors(a: Analyzer) {
    |a.errors| > 0
  }
}

=== FILE: semantic_props.dfy ===
/** Properties of the semantic analyzer over the trees the parser builds. */
module SemanticProps {
  import opened Syntax
  import opened Semantic
  import opened Decimal

  // ---------------------------------------------------------------------
  // Expressions: what traversal and type inference report about them.

  /** The undeclared-variable diagnostics for the identifiers of `n`, left to right. */
  function Undeclareds(table: Table, n: Node): (ds: seq<Diagnostic>)
    ensures forall i :: 0 <= i < |ds| ==> ds[i].Undeclared?
    decreases n
  {
    match n.kind
    case IdentifierNode => if n.value in table then [] else [Undeclared(n.value)]
    case ExpressionNode => UndeclaredsAll(table, n.children)
    case _ => []
  }

  function UndeclaredsAll(table: Table, ns: seq<Node>): (ds: seq<Diagnostic>)
    ensures forall i :: 0 <= i < |ds| ==> ds[i].Undeclared?
    decreases ns
  {
    if ns == [] then [] else Undeclareds(table, ns[0]) + UndeclaredsAll(table, ns[1..])
  }

  lemma UndeclaredsPair(table: Table, l: Node, r: Node)
    ensures UndeclaredsAll(table, [l, r]) == Undeclareds(table, l) + Undeclareds(table, r)
  {
    assert [l, r][1..] == [r];
    assert [r][1..] == [];
    assert UndeclaredsAll(table, [r]) == Undeclareds(table, r) + UndeclaredsAll(table, []);
    assert Undeclareds(table, r) + [] == Undeclareds(table, r);
  }

  /**
    Traversing an expression binds nothing and reports exactly one
    undeclared-variable diagnostic per unbound identifier, left to right.
   */
  lemma {:induction false} ExprTraversal(a: Analyzer, n: Node)
    requires IsExpr(n)
    ensures Traverse(a, n) == a.(errors := a.errors + Undeclareds(a.table, n))
    decreases n, 1
  {
    if n.kind == ExpressionNode {
      ExprChildren(n);
      ExprsTraversal(a, n.children);
    }
  }

  lemma {:induction false} ExprsTraversal(a: Analyzer, ns: seq<Node>)
    requires forall i :: 0 <= i < |ns| ==> IsExpr(ns[i])
    ensures TraverseAll(a, ns) == a.(errors := a.errors + UndeclaredsAll(a.table, ns))
    decreases ns
  {
    if ns != [] {
      ExprTraversal(a, ns[0]);
      var b := Traverse(a, ns[0]);
      ExprsTraversal(b, ns[1..]);
      assert a.errors + Undeclareds(a.table, ns[0]) + UndeclaredsAll(a.table, ns[1..])
          == a.errors + (Undeclareds(a.table, ns[0]) + UndeclaredsAll(a.table, ns[1..]));
    }
  }

  /** The undeclared-variable diagnostics of a sequence, in order. */
  function UndeclaredOnly(ds: seq<Diagnostic>): seq<Diagnostic> {
    if ds == [] then [] else (if ds[0].Undeclared? then [ds[0]] else []) + UndeclaredOnly(ds[1..])
  }

  lemma {:induction false} UndeclaredOnlyAppend(x: seq<Diagnostic>, y: seq<Diagnostic>)
    ensures UndeclaredOnly(x + y) == UndeclaredOnly(x) + UndeclaredOnly(y)
    decreases |x|
  {
    if x != [] {
      assert (x + y)[0] == x[0] && (x + y)[1..] == x[1..] + y;
      UndeclaredOnlyAppend(x[1..], y);
      var h := if x[0].Undeclared? then [x[0]] else [];
      assert h + (UndeclaredOnly(x[1..]) + UndeclaredOnly(y)) == (h + UndeclaredOnly(x[1..])) + UndeclaredOnly(y);
    } else {
      assert x + y == y;
    }
  }

  /** Operator names are neither quoted nor digit strings, so `getExprType` reaches its operator rule. */
  lemma OperatorIsPlain(op: string)
    requires IsBinaryOp(op)
    ensures !IsQuoted(op) && !IsDigits(op)
  {
    assert op[0] == '"' ==> false;
    assert !IsDigit(op[0]);
  }

  /** The operator rule of `getExprType` for a two-operand node. */
  lemma BinaryType(table: Table, n: Node)
    requires n.kind == ExpressionNode && IsBinaryOp(n.value) && |n.children| == 2
    ensures var l := ExprType(table, n.children[0]);
            var r := ExprType(table, n.children[1]);
            ExprType(table, n)
            == if n.value in LogicOps then ("intt", l.1 + r.1)
               else if l.0 != r.0 then ("unknown", l.1 + r.1 + [OperandMismatch(l.0, r.0, n.value)])
               else if n.value in ComparisonOps then ("intt", l.1 + r.1)
               else (l.0, l.1 + r.1)
  {
    OperatorIsPlain(n.value);
  }

  /**
    Type inference reports the same undeclared identifiers as traversal,
    in the same order; its only other diagnostics are operand mismatches.
   */
  lemma {:induction false} InferenceReportsUndeclared(table: Table, n: Node)
    requires IsExpr(n)
    ensures UndeclaredOnly(ExprType(table, n).1) == Undeclareds(table, n)
    decreases n
  {
    if n.kind == ExpressionNode && n.children != [] {
      ExprChildren(n);
      var l := n.children[0];
      var r := n.children[1];
      InferenceReportsUndeclared(table, l);
      InferenceReportsUndeclared(table, r);
      var ld := ExprType(table, l).1;
      var rd := ExprType(table, r).1;
      BinaryType(table, n);
      UndeclaredOnlyAppend(ld, rd);
      UndeclaredOnlyAppend(ld + rd, [OperandMismatch(ExprType(table, l).0, ExprType(table, r).0, n.value)]);
      UndeclaredsPair(table, l, r);
    }
  }

  /** An expression over numbers and `intt` variables, without string literals. */
  predicate IntOnly(table: Table, n: Node)
    decreases n
  {
    match n.kind
    case NumberNode => n.children == []
    case IdentifierNode => n.children == [] && n.value in table && table[n.value].ty == "intt"
    case ExpressionNode =>
      |n.children| == 2 && IsBinaryOp(n.value)
      && IntOnly(table, n.children[0]) && IntOnly(table, n.children[1])
    case _ => false
  }

  /** Such an expression is `intt` and draws no diagnostic, whatever its operators. */
  lemma {:induction false} IntExpressionsTypeCheck(table: Table, n: Node)
    requires IntOnly(table, n)
    ensures ExprType(table, n) == ("intt", [])
    decreases n
  {
    if n.kind == ExpressionNode {
      IntExpressionsTypeCheck(table, n.children[0]);
      IntExpressionsTypeCheck(table, n.children[1]);
      BinaryType(table, n);
      assert ExprType(table, n.children[0]).1 + ExprType(table, n.children[1]).1 == [];
    }
  }

  function Num(v: string): Node { Node(NumberNode, v, []) }
  function Str(v: string): Node { Node(ExpressionNode, v, []) }

  /** `1 + "a"`: mismatched operand types give one diagnostic and type `unknown`. */
  lemma MixedOperandsMismatch(table: Table)
    ensures ExprType(table, Node(ExpressionNode, "+", [Num("1"), Str("\"a\"")]))
         == ("unknown", [OperandMismatch("intt", "sttring", "+")])
  {
    assert ExprType(table, Num("1")) == ("intt", []);
    assert ExprType(table, Str("\"a\"")) == ("sttring", []);
    BinaryType(table, Node(ExpressionNode, "+", [Num("1"), Str("\"a\"")]));
    assert "+" !in LogicOps;
    assert [] + [] + [OperandMismatch("intt", "sttring", "+")] == [OperandMismatch("intt", "sttring", "+")];
  }

  /** `"a" < "b"`: comparing two strings is `intt`. */
  lemma StringComparisonIsInt(table: Table)
    ensures ExprType(table, Node(ExpressionNode, "<", [Str("\"a\""), Str("\"b\"")])) == ("intt", [])
  {
    assert ExprType(table, Str("\"a\"")) == ("sttring", []);
    assert ExprType(table, Str("\"b\"")) == ("sttring", []);
    BinaryType(table, Node(ExpressionNode, "<", [Str("\"a\""), Str("\"b\"")]));
    assert "<" !in LogicOps && "<" in ComparisonOps;
    assert ExprType(table, Str("\"a\"")).1 + ExprType(table, Str("\"b\"")).1 == [];
  }

  /** `&&` and `||` are `intt` even when their operands disagree, and add no mismatch. */
  lemma LogicIsAlwaysInt(table: Table, op: string, l: Node, r: Node)
    requires op in LogicOps
    ensures ExprType(table, Node(ExpressionNode, op, [l, r]))
         == ("intt", ExprType(table, l).1 + ExprType(table, r).1)
  {
    BinaryType(table, Node(ExpressionNode, op, [l, r]));
  }

  // ---------------------------------------------------------------------
  // Statements: bindings and the loop-depth rule.

  /** Names declared anywhere in a statement tree. */
  function Declared(n: Node): set<string>
    decreases n
  {
    match n.kind
    case Declaration => {SplitDecl(n.value).1}
    case ProgramNode | StatementList | IfStatement | LoopStatement => DeclaredAll(n.children)
    case _ => {}
  }

  function DeclaredAll(ns: seq<Node>): set<string>
    decreases ns
  {
    if ns == [] then {} else Declared(ns[0]) + DeclaredAll(ns[1..])
  }

  /** `brreak` and `conttinue` statements not enclosed by a `loop`; `iif` is transparent. */
  function Stray(n: Node): nat
    decreases n
  {
    match n.kind
    case BreakStatement | ContinueStatement => 1
    case ProgramNode | StatementList | IfStatement => StrayAll(n.children)
    case _ => 0
  }

  function StrayAll(ns: seq<Node>): nat
    decreases ns
  {
    if ns == [] then 0 else Stray(ns[0]) + StrayAll(ns[1..])
  }

  /** How many outside-of-loop diagnostics a sequence holds. */
  function OutsideCount(ds: seq<Diagnostic>): nat {
    if ds == [] then 0 else (if ds[0].OutsideLoop? then 1 else 0) + OutsideCount(ds[1..])
  }

  lemma {:induction false} OutsideCountAppend(x: seq<Diagnostic>, y: seq<Diagnostic>)
    ensures OutsideCount(x + y) == OutsideCount(x) + OutsideCount(y)
    decreases |x|
  {
    if x != [] {
      assert (x + y)[0] == x[0] && (x + y)[1..] == x[1..] + y;
      OutsideCountAppend(x[1..], y);
    } else {
      assert x + y == y;
    }
  }

  lemma {:induction false} OutsideCountNone(ds: seq<Diagnostic>)
    requires forall i :: 0 <= i < |ds| ==> !ds[i].OutsideLoop?
    ensures OutsideCount(ds) == 0
    decreases |ds|
  {
    if ds != [] {
      OutsideCountNone(ds[1..]);
    }
  }

  /**
    Checking an expression's type and then traversing it (the pattern of
    declarations, assignments, returns and calls) binds nothing and adds no
    outside-of-loop diagnostic.
   */
  lemma CheckedExpression(b: Analyzer, d: seq<Diagnostic>, bad: bool, dg: Diagnostic, e: Node)
    requires IsExpr(e) && !dg.OutsideLoop?
    requires forall i :: 0 <= i < |d| ==> IsInferenceDiagnostic(d[i])
    ensures var r := Traverse(Report(b, d, bad, dg), e);
            r.table == b.table && OutsideCount(r.errors) == OutsideCount(b.errors)
  {
    var c := Report(b, d, bad, dg);
    ExprTraversal(c, e);
    var extra := if bad then [dg] else [];
    OutsideCountNone(d);
    OutsideCountNone(extra);
    OutsideCountNone(Undeclareds(c.table, e));
    OutsideCountAppend(b.errors, d);
    OutsideCountAppend(b.errors + d, extra);
    OutsideCountAppend(c.errors, Undeclareds(c.table, e));
  }

  lemma DeclarationStep(a: Analyzer, n: Node)
    requires IsStmt(n) && n.kind == Declaration
    ensures var r := TraverseDeclaration(a, n);
            r.table.Keys == a.table.Keys + {SplitDecl(n.value).1}
            && OutsideCount(r.errors) == OutsideCount(a.errors)
  {
    var (ty, name) := SplitDecl(n.value);
    var b := Bind(a, ty, name);
    OutsideCountAppend(a.errors, [Redeclaration(name)]);
    if n.children != [] {
      var (t, d) := ExprType(b.table, n.children[0]);
      CheckedExpression(b, d, t != ty, AssignMismatch(t, name, ty), n.children[0]);
    }
  }

  lemma AssignmentStep(a: Analyzer, n: Node)
    requires IsStmt(n) && n.kind == Assignment
    ensures var r := TraverseAssignment(a, n);
            r.table == a.table && OutsideCount(r.errors) == OutsideCount(a.errors)
  {
    OutsideCountAppend(a.errors, [AssignUndeclared(n.value)]);
    if n.value in a.table {
      var ty := a.table[n.value].ty;
      var (t, d) := ExprType(a.table, n.children[0]);
      CheckedExpression(a, d, t != ty, AssignMismatch(t, n.value, ty), n.children[0]);
    }
  }

  lemma ReturnStep(a: Analyzer, n: Node)
    requires IsStmt(n) && n.kind == ReturnStatement
    ensures var r := Traverse(a, n);
            r.table == a.table && OutsideCount(r.errors) == OutsideCount(a.errors)
  {
    if n.children != [] {
      var (t, d) := ExprType(a.table, n.children[0]);
      CheckedExpression(a, d, t != a.returnType, ReturnMismatch(t, a.returnType), n.children[0]);
    }
  }

  lemma CallStep(a: Analyzer, n: Node)
    requires IsStmt(n) && n.kind == FunctionCall
    ensures var r := TraverseCall(a, n);
            r.table == a.table && OutsideCount(r.errors) == OutsideCount(a.errors)
  {
    OutsideCountAppend(a.errors, [PrintArity]);
    OutsideCountAppend(a.errors, [SanArity]);
    if |n.children| == 1 {
      var (t, d) := ExprType(a.table, n.children[0]);
      if n.value == "prrint" {
        CheckedExpression(a, d, t != "intt" && t != "sttring", PrintType(t), n.children[0]);
      } else {
        CheckedExpression(a, d, t != "intt", SanType(t), n.children[0]);
      }
    }
  }

  /**
    Traversal binds exactly the names declared in the tree (keeping every
    earlier binding), and reports one outside-of-loop diagnostic per stray
    `brreak`/`conttinue` when it starts outside every loop, none otherwise.
   */
  lemma {:induction false} StatementTraversal(a: Analyzer, n: Node)
    requires IsSyntax(n)
    ensures Traverse(a, n).table.Keys == a.table.Keys + Declared(n)
    ensures OutsideCount(Traverse(a, n).errors)
         == OutsideCount(a.errors) + (if a.loopDepth == 0 then Stray(n) else 0)
    decreases n, 1
  {
    SyntaxChildren(n);
    match n.kind
    case IdentifierNode | NumberNode | ExpressionNode =>
      ExprTraversal(a, n);
      OutsideCountNone(Undeclareds(a.table, n));
      OutsideCountAppend(a.errors, Undeclareds(a.table, n));
    case Declaration => DeclarationStep(a, n);
    case Assignment => AssignmentStep(a, n);
    case ReturnStatement => ReturnStep(a, n);
    case FunctionCall => CallStep(a, n);
    case LoopStatement => StatementsTraversal(a.(loopDepth := a.loopDepth + 1), n.children);
    case BreakStatement | ContinueStatement => OutsideCountAppend(a.errors, [OutsideLoop(n.value)]);
    case ProgramNode | StatementList | IfStatement => StatementsTraversal(a, n.children);
  }

  lemma {:induction false} StatementsTraversal(a: Analyzer, ns: seq<Node>)
    requires forall i :: 0 <= i < |ns| ==> IsSyntax(ns[i])
    ensures TraverseAll(a, ns).table.Keys == a.table.Keys + DeclaredAll(ns)
    ensures OutsideCount(TraverseAll(a, ns).errors)
         == OutsideCount(a.errors) + (if a.loopDepth == 0 then StrayAll(ns) else 0)
    decreases ns
  {
    if ns != [] {
      StatementTraversal(a, ns[0]);
      StatementsTraversal(Traverse(a, ns[0]), ns[1..]);
    }
  }

  /**
    After `analyze`, the symbol table's names are exactly the declared
    names, and every stray `brreak`/`conttinue` has been reported, so such
    a program always has errors.
   */
  lemma AnalyzeProgram(root: Node)
    requires IsProgram(root)
    ensures Analyze(root).table.Keys == Declared(root)
    ensures OutsideCount(Analyze(root).errors) == Stray(root)
    ensures Stray(root) > 0 ==> HasErrors(Analyze(root))
  {
    StatementTraversal(Initial, root);
  }

  // ---------------------------------------------------------------------
  // Declarations, assignments and calls.

  /** A declaration with an initializer: bind, check the initializer's type, traverse it. */
  lemma DeclarationWithInit(a: Analyzer, v: string, e: Node)
    ensures var (ty, x) := SplitDecl(v);
            var b := Bind(a, ty, x);
            var (t, d) := ExprType(b.table, e);
            Traverse(a, Node(Declaration, v, [e])) == Traverse(Report(b, d, t != ty, AssignMismatch(t, x, ty)), e)
  {
  }

  /**
    A declaration `ty x …` binds `x` to `ty` when `x` is fresh; a second
    declaration of a bound name is reported first and keeps the first binding.
   */
  lemma DeclarationBinding(a: Analyzer, ty: string, x: string, init: seq<Node>)
    requires ty in {"intt", "sttring"}
    requires IsStmt(Node(Declaration, ty + " " + x, init))
    ensures var r := Traverse(a, Node(Declaration, ty + " " + x, init));
            r.table == (if x in a.table then a.table else a.table[x := Symbol(ty, x)])
            && (x in a.table ==> a.errors + [Redeclaration(x)] <= r.errors)
  {
    SplitTypedName(ty, x);
    var b := Bind(a, ty, x);
    assert b.table == (if x in a.table then a.table else a.table[x := Symbol(ty, x)]);
    if init != [] {
      DeclarationWithInit(a, ty + " " + x, init[0]);
      var (t, d) := ExprType(b.table, init[0]);
      ExprTraversal(Report(b, d, t != ty, AssignMismatch(t, x, ty)), init[0]);
    }
  }

  /**
    `intt x = x;` (a declaration whose value splits into `intt` and `x`, as
    `SplitTypedName` shows for the parser's `intt x`) draws no diagnostic:
    `x` is bound before its initializer is checked.
   */
  lemma SelfInitialization(a: Analyzer, v: string, x: string)
    requires SplitDecl(v) == ("intt", x) && x !in a.table
    ensures Traverse(a, Node(Declaration, v, [Node(IdentifierNode, x, [])]))
         == a.(table := a.table[x := Symbol("intt", x)])
  {
    var e := Node(IdentifierNode, x, []);
    DeclarationWithInit(a, v, e);
    var b := Bind(a, "intt", x);
    assert b == a.(table := a.table[x := Symbol("intt", x)]);
    assert ExprType(b.table, e) == ("intt", []);
    assert Report(b, [], false, AssignMismatch("intt", x, "intt")) == b;
    assert Traverse(b, e) == b;
  }

  /**
    `intt x = y;` with `y` unbound draws three diagnostics: `y` is undeclared
    (inference), `unknown` cannot be assigned to `x`, and `y` is undeclared
    (traversal).
   */
  lemma UndeclaredInitializer(a: Analyzer, v: string, x: string, y: string)
    requires SplitDecl(v) == ("intt", x) && y !in a.table && y != x
    ensures Traverse(a, Node(Declaration, v, [Node(IdentifierNode, y, [])])).errors
         == a.errors + (if x in a.table then [Redeclaration(x)] else [])
            + [Undeclared(y), AssignMismatch("unknown", x, "intt"), Undeclared(y)]
  {
    var e := Node(IdentifierNode, y, []);
    var b := Bind(a, "intt", x);
    assert y !in b.table;
    var c := Report(b, [Undeclared(y)], true, AssignMismatch("unknown", x, "intt"));
    InitializerChecked(a, v, e, "intt", x, "unknown", [Undeclared(y)]);
    IdentifierStep(c, y);
    var redeclared := if x in a.table then [Redeclaration(x)] else [];
    assert c.errors == a.errors + redeclared + [Undeclared(y)] + [AssignMismatch("unknown", x, "intt")];
  }

  /** `DeclarationWithInit` with the declared and the inferred type named. */
  lemma InitializerChecked(a: Analyzer, v: string, e: Node, ty: string, x: string, t: string, d: seq<Diagnostic>)
    requires SplitDecl(v) == (ty, x) && ExprType(Bind(a, ty, x).table, e) == (t, d)
    ensures Traverse(a, Node(Declaration, v, [e])) == Traverse(Report(Bind(a, ty, x), d, t != ty, AssignMismatch(t, x, ty)), e)
  {
    DeclarationWithInit(a, v, e);
  }

  /** Traversing a name reports it once when it is unbound and does nothing when it is bound. */
  lemma IdentifierStep(a: Analyzer, y: string)
    ensures Traverse(a, Node(IdentifierNode, y, []))
         == if y in a.table then a else a.(errors := a.errors + [Undeclared(y)])
  {
  }

  /**
    `x = e`: an unbound target draws one diagnostic and the right side is not
    looked at, so its own unbound names go unreported; a bound target draws
    inference's diagnostics, one mismatch when the types differ, and then one
    diagnostic per unbound name of `e`. The table never changes.
   */
  lemma AssignmentRule(a: Analyzer, x: string, e: Node)
    requires IsExpr(e)
    ensures var r := Traverse(a, Node(Assignment, x, [e]));
            r.table == a.table
            && (x !in a.table ==> r.errors == a.errors + [AssignUndeclared(x)])
            && (x in a.table ==>
                  var (t, d) := ExprType(a.table, e);
                  r.errors == a.errors + d + (if t == a.table[x].ty then [] else [AssignMismatch(t, x, a.table[x].ty)])
                              + Undeclareds(a.table, e))
  {
    if x in a.table {
      var ty := a.table[x].ty;
      var (t, d) := ExprType(a.table, e);
      ExprTraversal(Report(a, d, t != ty, AssignMismatch(t, x, ty)), e);
    }
  }

  /**
    `retturn` without a value checks nothing. With a value `e` it draws
    inference's diagnostics, one mismatch when e's type is not the
    function's return type, and then one diagnostic per unbound name of `e`.
    The table never changes.
   */
  lemma ReturnRule(a: Analyzer, v: string, e: Node)
    requires IsExpr(e)
    ensures Traverse(a, Node(ReturnStatement, v, [])) == a
    ensures var r := Traverse(a, Node(ReturnStatement, v, [e]));
            var (t, d) := ExprType(a.table, e);
            r.table == a.table
            && r.errors == a.errors + d + (if t == a.returnType then [] else [ReturnMismatch(t, a.returnType)])
                           + Undeclareds(a.table, e)
  {
    var (t, d) := ExprType(a.table, e);
    ExprTraversal(Report(a, d, t != a.returnType, ReturnMismatch(t, a.returnType)), e);
  }

  /**
    `prrint(e)` accepts an `intt` or `sttring` argument and reports any other
    type once, after inference's own diagnostics and before traversal's.
   */
  lemma PrintArgumentRule(a: Analyzer, n: Node)
    requires n.kind == FunctionCall && n.value == "prrint" && |n.children| == 1 && IsExpr(n.children[0])
    ensures var (t, d) := ExprType(a.table, n.children[0]);
            Traverse(a, n).errors
            == a.errors + d + (if t == "intt" || t == "sttring" then [] else [PrintType(t)])
               + Undeclareds(a.table, n.children[0])
  {
    var e := n.children[0];
    var (t, d) := ExprType(a.table, e);
    ExprTraversal(Report(a, d, t != "intt" && t != "sttring", PrintType(t)), e);
  }

  /** `san(e)` accepts only an `intt` argument. */
  lemma SanArgumentRule(a: Analyzer, n: Node)
    requires n.kind == FunctionCall && n.value == "san" && |n.children| == 1 && IsExpr(n.children[0])
    ensures var (t, d) := ExprType(a.table, n.children[0]);
            Traverse(a, n).errors
            == a.errors + d + (if t == "intt" then [] else [SanType(t)]) + Undeclareds(a.table, n.children[0])
  {
    var e := n.children[0];
    var (t, d) := ExprType(a.table, e);
    ExprTraversal(Report(a, d, t != "intt", SanType(t)), e);
  }

  /** A built-in call without exactly one argument draws one arity diagnostic. */
  lemma CallArity(a: Analyzer, f: string, args: seq<Node>)
    requires f in {"prrint", "san"} && |args| != 1
    ensures Traverse(a, Node(FunctionCall, f, args)).errors
         == a.errors + [if f == "prrint" then PrintArity else SanArity]
  {
  }

  /** A call of anything but the two built-ins draws one diagnostic, and its arguments are not looked at. */
  lemma UnknownCallee(a: Analyzer, f: string, args: seq<Node>)
    requires f != "prrint" && f != "san"
    ensures Traverse(a, Node(FunctionCall, f, args)) == a.(errors := a.errors + [UnknownFunction(f)])
  {
  }

  /** `san("a")` is a type error; `prrint("a")` is not. */
  lemma StringArgument(a: Analyzer)
    ensures Traverse(a, Node(FunctionCall, "san", [Str("\"a\"")])).errors == a.errors + [SanType("sttring")]
    ensures Traverse(a, Node(FunctionCall, "prrint", [Str("\"a\"")])).errors == a.errors
  {
    assert ExprType(a.table, Str("\"a\"")) == ("sttring", []);
  }
}

=== FILE: syntax.dfy ===
/**
  The parse tree (parser.h): a node kind, a value string and an ordered
  list of owned children. Only the kinds the parser builds are listed.
  The predicates below describe the exact shapes the parser produces; the
  later stages are proved correct for trees of these shapes.
 */
module Syntax {

  datatype NodeKind =
    | ProgramNode
    | StatementList
    | ExpressionNode
    | IfStatement
    | LoopStatement
    | Declaration
    | Assignment
    | FunctionCall
    | ReturnStatement
    | BreakStatement
    | ContinueStatement
    | IdentifierNode
    | NumberNode

  datatype Node = Node(kind: NodeKind, value: string, children: seq<Node>)

  /** Binary operators by precedence level, weakest first. */
  const LogicOps: seq<string> := ["&&", "||"]
  const ComparisonOps: seq<string> := ["==", "!=", "<", "<=", ">", ">="]
  const TermOps: seq<string> := ["+", "-"]
  const FactorOps: seq<string> := ["*", "/"]

  predicate IsBinaryOp(op: string) {
    op in LogicOps || op in ComparisonOps || op in TermOps || op in FactorOps
  }

  /** The value of a declaration node: the type keyword, one blank, the name. */
  predicate IsDeclarationValue(v: string) {
    (|v| >= 5 && v[..5] == "intt ") || (|v| >= 8 && v[..8] == "sttring ")
  }

  /** Index of the first blank of `v` at or after `i`, or `|v|` when there is none. */
  function FindSpace(v: string, i: nat): (p: nat)
    requires i <= |v|
    ensures i <= p <= |v| && (p < |v| ==> v[p] == ' ')
    ensures forall k :: i <= k < p ==> v[k] != ' '
    decreases |v| - i
  {
    if i == |v| || v[i] == ' ' then i else FindSpace(v, i + 1)
  }

  /**
    An expression as the parser builds it: a number or identifier leaf, a
    childless expression node (a string literal), or a binary operator
    node with exactly two operand expressions.
   */
  predicate IsExpr(n: Node)
    decreases n
  {
    match n.kind
    case NumberNode => n.children == []
    case IdentifierNode => n.children == []
    case ExpressionNode =>
      n.children == []
      || (|n.children| == 2 && IsBinaryOp(n.value) && IsExpr(n.children[0]) && IsExpr(n.children[1]))
    case _ => false
  }

  /** A statement as the parser builds it. */
  predicate IsStmt(n: Node)
    decreases n
  {
    match n.kind
    case Declaration =>
      IsDeclarationValue(n.value) && |n.children| <= 1
      && forall i :: 0 <= i < |n.children| ==> IsExpr(n.children[i])
    case Assignment => |n.children| == 1 && IsExpr(n.children[0])
    case ReturnStatement =>
      n.value == "retturn" && |n.children| <= 1
      && forall i :: 0 <= i < |n.children| ==> IsExpr(n.children[i])
    case FunctionCall =>
      (n.value == "prrint" || n.value == "san") && |n.children| <= 1
      && forall i :: 0 <= i < |n.children| ==> IsExpr(n.children[i])
    case IfStatement =>
      n.value == "iif" && 2 <= |n.children| <= 3
      && IsExpr(n.children[0]) && IsStmtList(n.children[1])
      && (|n.children| == 3 ==> IsStmtList(n.children[2]))
    case LoopStatement =>
      n.value == "loop" && |n.children| == 2
      && IsExpr(n.children[0]) && IsStmtList(n.children[1])
    case BreakStatement => n.value == "brreak" && n.children == []
    case ContinueStatement => n.value == "conttinue" && n.children == []
    case _ => false
  }

  predicate IsStmtList(n: Node)
    decreases n
  {
    n.kind == StatementList && n.value == "stmt_list"
    && forall i :: 0 <= i < |n.children| ==> IsStmt(n.children[i])
  }

  /** The root: `mainn` with no child or one statement list. */
  predicate IsProgram(n: Node) {
    n.kind == ProgramNode && n.value == "mainn"
    && (n.children == [] || (|n.children| == 1 && IsStmtList(n.children[0])))
  }

  /** Any tree the parser builds, or any subtree of one. */
  predicate IsSyntax(n: Node) {
    IsExpr(n) || IsStmt(n) || IsStmtList(n) || IsProgram(n)
  }

  lemma SyntaxChildren(n: Node)
    requires IsSyntax(n)
    ensures forall i :: 0 <= i < |n.children| ==> IsSyntax(n.children[i])
  {
    if IsExpr(n) && n.kind == ExpressionNode {
      ExprChildren(n);
    }
  }

  lemma ExprChildren(n: Node)
    requires IsExpr(n) && n.kind == ExpressionNode
    ensures n.children == [] || n.children == [n.children[0], n.children[1]]
    ensures forall i :: 0 <= i < |n.children| ==> IsExpr(n.children[i])
  {
  }
}
